=== FILE: README.md ===
# Genetic TSP engine, modelled in Dafny

This project models the genetic-algorithm engine of `genetic-tsp`. The
engine solves a travelling-salesman problem over a fixed graph of eight
cities (F, G, H, E, K, N, C, L). The model covers:

- `DistanceCalculator`: an 8×8 table of 18 symmetric edges, with the
  sentinel 999999 for every missing pair.
- `City`: a value whose equality and hash code go by `id` alone.
- `Route`: a start city plus the order in which the other cities are
  visited. Its total distance and fitness are cached.
- `Population`: a list of routes with a lazy "sorted" flag, plus its best,
  worst, average and top-n views.
- The genetic operators:
  - PMX crossover;
  - swap, inversion and scramble mutation;
  - elite, tournament, roulette, rank and stochastic-universal selection.
- `GAConfig`: its defaults and its declared bounds.
- `GeneticAlgorithmService`: the state machine made of
  `initializePopulation`, `evolveGeneration` and `runGeneticAlgorithm`,
  plus its history and statistics queries.

The model is written in a functional style:

- Every Java object is an immutable datatype. A Java mutation becomes a
  function that returns the new value. `Kept`/`Copied` records whether an
  operator returned the very object it was given or a fresh copy.
- The service is an `Engine` record. Each operation returns the new
  engine together with a `Result`. A Java exception becomes a `Failure`
  that names its class (`IllegalArgument`, `IllegalState`,
  `IndexOutOfBounds`, `NullPointer`, or `Wrapped(...)` for the
  `RuntimeException` that `runGeneticAlgorithm` rethrows).
- Everything `java.util.Random` supplies is an explicit parameter:
  - a real draw in [0, 1) per `nextDouble`;
  - `floor(u * bound)` per `nextInt(bound)`;
  - a Fisher–Yates draw sequence per `Collections.shuffle`;
  - a stream of per-iteration draws for the breeding loop, one stream per
    generation.

Every route the engine ever holds is a tour. A tour is the start city
followed by a permutation of the seven other cities. The model proves
this permutation invariant operator by operator, and then for whole
runs. It also proves the following behaviours of the code as it is
written:

- The PMX mapping never fires.
- Rank selection never picks the last-ranked route.
- Roulette with all-zero fitness returns route 0.
- The configured generation gap has no effect.

## Model

Source paths are relative to the repository root and start with
`src/main/java/com/yourproject/`.

| member | source | states |
|---|---|---|
| Cities.Equals | src/main/java/com/yourproject/models/City.java:41-46 | a city equals an object exactly when that object is present and has the same id; name and coordinates play no part |
| Cities.StringHash | src/main/java/com/yourproject/models/City.java:49-51 | `String.hashCode` is a signed 32-bit value, and 0 for the empty id |
| Cities.HashCode | src/main/java/com/yourproject/models/City.java:49-51 | a city's hash code is a signed 32-bit value |
| Cities.EqualsAgreesWithHash | src/main/java/com/yourproject/models/City.java:41-51 | equal cities have equal hash codes; equality is symmetric; changing name or coordinates does not affect equality |
| Cities.ToString | src/main/java/com/yourproject/models/City.java:36-38 | a city prints as its name |
| Cities.LetterHash | src/main/java/com/yourproject/models/City.java:49-51 | a one-letter id hashes to its character code |
| Cities.LetterBuckets | src/main/java/com/yourproject/services/GeneticAlgorithmService.java:36-45 | in a `HashMap` table of 16 buckets, the codes of C, E, F, G, H, K, L and N fall into distinct buckets in strictly increasing order |
| Distances.Row | src/main/java/com/yourproject/utils/DistanceCalculator.java:17-24 | each of the eight ids has its own row, and looking that row's id up in the index map gives the row back |
| Distances.InitialTable | src/main/java/com/yourproject/utils/DistanceCalculator.java:31-35 | before any edge is added, the diagonal is 0 and every other cell is 999999 |
| Distances.AddEdge | src/main/java/com/yourproject/utils/DistanceCalculator.java:63-68 | adding an edge writes its weight into both cells of the pair and leaves every other cell as it was |
| Distances.BuildCell | src/main/java/com/yourproject/utils/DistanceCalculator.java:38-60 | after the edge list, a cell holds the weight of the last edge joining its pair, or else its initial value |
| Distances.TableCell | src/main/java/com/yourproject/utils/DistanceCalculator.java:31-60 | each cell of the finished table is the last edge weight for its pair, or 0 on the diagonal, or 999999 |
| Distances.LastWeightSymmetric | src/main/java/com/yourproject/utils/DistanceCalculator.java:63-68 | the edge weight that ends up in a cell is the same in both directions |
| Distances.NoSelfEdge | src/main/java/com/yourproject/utils/DistanceCalculator.java:38-60 | no edge joins a city to itself, so the diagonal stays 0 |
| Distances.GetDistance | src/main/java/com/yourproject/utils/DistanceCalculator.java:73-86 | a null argument raises IllegalArgumentException, and only a null one does; an unregistered id gives 999999; a registered city is at distance 0 from any city with its id |
| Distances.DistSymmetric | src/main/java/com/yourproject/utils/DistanceCalculator.java:63-86 | the distance is the same in both directions, for every pair of cities |
| Distances.DistIdentity | src/main/java/com/yourproject/utils/DistanceCalculator.java:31-35 | a registered city is at distance 0 from itself; an unregistered one is at 999999 from every city, itself included, in both directions |
| Distances.DistValues | src/main/java/com/yourproject/utils/DistanceCalculator.java:31-60 | every distance is 0, 999999 or the weight of one of the 18 edges |
| Distances.SpotValueFL | src/main/java/com/yourproject/utils/DistanceCalculator.java:40 | d(F, L) = 10 |
| Distances.SpotValueFG | src/main/java/com/yourproject/utils/DistanceCalculator.java:41 | d(F, G) = 55 |
| Distances.SpotValueEL | src/main/java/com/yourproject/utils/DistanceCalculator.java:57 | d(E, L) = 5 |
| Distances.NoEdgeFH | src/main/java/com/yourproject/utils/DistanceCalculator.java:38-60 | no edge joins F and H: their distance is 999999 and they have no direct connection |
| Distances.HasDirectConnection | src/main/java/com/yourproject/utils/DistanceCalculator.java:91-93 | two present cities are directly connected exactly when their distance is below 999999; a null argument fails |
| Distances.SelfConnected | src/main/java/com/yourproject/utils/DistanceCalculator.java:91-93 | every registered city is directly connected to itself |
| Distances.TheoreticalMinimum | src/main/java/com/yourproject/utils/DistanceCalculator.java:98-100 | the theoretical minimum is 115 |
| Routes.FitnessOf | src/main/java/com/yourproject/models/Route.java:61-73 | fitness is never negative, is 0 exactly at distance 0, and otherwise is the reciprocal of the distance |
| Routes.FitnessDecreasing | src/main/java/com/yourproject/models/Route.java:61-73 | over positive distances, a shorter route is strictly fitter |
| Routes.NewRoute | src/main/java/com/yourproject/models/Route.java:17-22 | a new route holds exactly the given start and cities, with empty caches that are therefore coherent |
| Routes.CopyRoute | src/main/java/com/yourproject/models/Route.java:24-29 | a copy has the same start and cities, carries over both caches, and stays coherent when the original is |
| Routes.TotalDistance | src/main/java/com/yourproject/models/Route.java:54-59 | with a coherent cache, or none, the total distance is the closed-tour length from the start city through every city and back |
| Routes.SingleCityTour | src/main/java/com/yourproject/models/Route.java:75-87 | a route visiting one city has length twice that city's distance from the start |
| Routes.TourLengthReverse | src/main/java/com/yourproject/models/Route.java:75-87 | travelling a tour backwards gives the same length, because distances are symmetric |
| Routes.Fitness | src/main/java/com/yourproject/models/Route.java:61-73 | with a coherent cache, the fitness is the fitness of the true tour length, and is never negative |
| Routes.Memoize | src/main/java/com/yourproject/models/Route.java:54-73 | filling both caches changes neither the distance nor the fitness a route reports |
| Routes.SetCity | src/main/java/com/yourproject/models/Route.java:43-48 | only position i changes, it now holds the new city, and both caches are cleared |
| Routes.SetCityRefreshes | src/main/java/com/yourproject/models/Route.java:43-73 | after `setCity`, distance and fitness are those of the updated sequence, never a stale cached value |
| Routes.Compare | src/main/java/com/yourproject/models/Route.java:98-100 | the comparison has the sign of the difference between the two total distances |
| Routes.CompareIsPreorder | src/main/java/com/yourproject/models/Route.java:98-100 | the comparison is antisymmetric and transitive |
| Routes.CityNames | src/main/java/com/yourproject/models/Route.java:114-122 | the name list has two more entries than the route has cities, begins and ends with the start city's name, and lists the visited cities' names in between |
| Populations.WithCapacity | src/main/java/com/yourproject/models/Population.java:14-17 | a negative capacity raises IllegalArgumentException; any other gives an empty population |
| Populations.AddRoute | src/main/java/com/yourproject/models/Population.java:24-27 | the route is appended after the existing routes, which are unchanged, and the sorted flag is cleared |
| Populations.SetRoute | src/main/java/com/yourproject/models/Population.java:33-36 | exactly index i is replaced, the size is kept, and the sorted flag is cleared |
| Populations.StableSortSorted | src/main/java/com/yourproject/models/Population.java:46-51 | the sort leaves the routes in non-decreasing total distance |
| Populations.StableSortStable | src/main/java/com/yourproject/models/Population.java:46-51 | routes with equal distance keep their relative order, as `Collections.sort` guarantees |
| Populations.StableSortUnique | src/main/java/com/yourproject/models/Population.java:46-51 | only one ordering is both sorted and stable, so the sort's result is fully determined |
| Populations.SortByFitness | src/main/java/com/yourproject/models/Population.java:46-51 | after sorting, the population is flagged sorted, holds the same routes with the same multiplicities, and keeps the relative order of ties |
| Populations.SortIdempotent | src/main/java/com/yourproject/models/Population.java:46-51 | sorting a sorted population changes nothing |
| Populations.SortIgnoresFlag | src/main/java/com/yourproject/models/Population.java:46-51 | the order after sorting does not depend on the sorted flag, so the lazy flag cannot leave a stale order behind |
| Populations.BestRoute | src/main/java/com/yourproject/models/Population.java:53-56 | on an empty population it fails with IndexOutOfBounds; otherwise it returns a member no longer than any other |
| Populations.FirstWithDistance | src/main/java/com/yourproject/models/Population.java:46-51 | the routes of one distance are listed in population order, headed by the first route at that distance |
| Populations.BestIsFirstShortest | src/main/java/com/yourproject/models/Population.java:46-56 | the best route is the first route, in population order, of the shortest distance; every earlier route is strictly longer |
| Populations.WorstRoute | src/main/java/com/yourproject/models/Population.java:58-61 | on an empty population it fails with IndexOutOfBounds; otherwise it returns a member no shorter than any other |
| Populations.AverageDistance | src/main/java/com/yourproject/models/Population.java:63-68 | the average is 0.0 for an empty population and otherwise the sum of distances divided by the size |
| Populations.AverageBetweenBestAndWorst | src/main/java/com/yourproject/models/Population.java:53-68 | the average lies between the best and the worst distance |
| Populations.TopRoutes | src/main/java/com/yourproject/models/Population.java:78-82 | a negative n raises IllegalArgumentException (`subList(0, n)` with its start past its end); otherwise it returns the first min(n, size) routes of the sorted order, each no longer than any route left out |
| Permutations.FisherYates | src/main/java/com/yourproject/services/operators/MutationOperator.java:129-134 | a shuffle driven by any valid draws yields a permutation of its input |
| Pmx.Segment | src/main/java/com/yourproject/services/operators/PMXCrossover.java:45-47 | the offspring starts with the donor's cities in [p1, p2) and empty slots everywhere else |
| Pmx.Mapping | src/main/java/com/yourproject/services/operators/PMXCrossover.java:50-53 | the mapping's keys are exactly the other parent's segment cities, and each maps to a donor segment city |
| Pmx.MappingLastPut | src/main/java/com/yourproject/services/operators/PMXCrossover.java:50-53 | other[k] maps to donor[k] whenever no later position of the segment holds other[k] again, as the last `put` wins |
| Pmx.MappingNeverFires | src/main/java/com/yourproject/services/operators/PMXCrossover.java:50-78 | for a parent without repeated cities, no city outside the segment is a key of the mapping, so the mapping chain is never followed |
| Pmx.FirstAbsentOr | src/main/java/com/yourproject/services/operators/PMXCrossover.java:67-76 | the fallback picks the other parent's first city, in index order, that the offspring does not hold yet, and it finds one whenever one exists |
| Pmx.Fill | src/main/java/com/yourproject/services/operators/PMXCrossover.java:56-81 | the fill loop keeps the segment and every slot before i, and leaves no slot empty outside the segment; it can fail only by reading the other parent past its end (IndexOutOfBounds) or by a mapping cycle (Divergence) |
| Pmx.FillIsEffective | src/main/java/com/yourproject/services/operators/PMXCrossover.java:56-81 | for a parent without repeated cities, the fill equals the simple rule: the other parent's city at i if unused, else its first unused city |
| Pmx.FillShortOtherFails | src/main/java/com/yourproject/services/operators/PMXCrossover.java:56-81 | when the other parent is shorter than the donor, reading past its end fails with IndexOutOfBounds |
| Pmx.PatchNulls | src/main/java/com/yourproject/services/operators/PMXCrossover.java:83-94 | the null-fill pass keeps the length and changes nothing when no slot is empty |
| Pmx.CreateOffspring | src/main/java/com/yourproject/services/operators/PMXCrossover.java:40-97 | an out-of-range cut point fails with IndexOutOfBounds; an offspring keeps the donor's start, length and segment cities, and its distance and fitness caches are empty; the only failures are IndexOutOfBounds and Divergence |
| Pmx.OffspringIsPermutation | src/main/java/com/yourproject/services/operators/PMXCrossover.java:56-96 | from two permutations of one city set, the offspring is built, has no duplicates, is a permutation of that set, and is exactly what the simple fill rule produces |
| Pmx.Crossover | src/main/java/com/yourproject/services/operators/PMXCrossover.java:25-38 | IllegalArgumentException is raised exactly when p1 ≥ p2, p1 < 0 or p2 > size; the two offspring take their start, length and segment from parent 1 and parent 2 respectively |
| Pmx.CrossoverPreservesPermutation | src/main/java/com/yourproject/services/operators/PMXCrossover.java:25-97 | accepted cut points on two permutation parents always succeed and give two permutations of the parents' cities |
| Pmx.SizeMismatchFails | src/main/java/com/yourproject/services/operators/PMXCrossover.java:25-97 | parents of different lengths never cross successfully |
| Pmx.SelfCrossover | src/main/java/com/yourproject/services/operators/PMXCrossover.java:40-97 | crossing a route with itself gives two offspring with exactly its cities |
| Pmx.WholeSegment | src/main/java/com/yourproject/services/operators/PMXCrossover.java:40-97 | with the segment covering the whole route, each offspring equals its donor |
| Mutation.Swap | src/main/java/com/yourproject/services/operators/MutationOperator.java:32-59 | the route is kept exactly when the draw exceeds the rate; a mutated copy of two or more cities exchanges the two drawn positions and nothing else, and its distance and fitness caches are empty |
| Mutation.SwapPreservesCities | src/main/java/com/yourproject/services/operators/MutationOperator.java:32-59 | swap keeps the start city and permutes the visited cities |
| Mutation.Inversion | src/main/java/com/yourproject/services/operators/MutationOperator.java:65-96 | the route is kept exactly when the draw exceeds the rate; a mutated copy reverses the cities between the two positions, inclusive, leaves every other position as it was, and equals the original when both positions coincide |
| Mutation.InvertCopy | src/main/java/com/yourproject/services/operators/MutationOperator.java:73-93 | the in-place reversal on the copy reverses exactly [lo, hi], and leaves routes shorter than two cities unchanged |
| Mutation.InversionPreservesCities | src/main/java/com/yourproject/services/operators/MutationOperator.java:65-96 | inversion keeps the start city and permutes the visited cities |
| Mutation.InversionTwice | src/main/java/com/yourproject/services/operators/MutationOperator.java:77-93 | reversing the same span twice restores the original sequence |
| Mutation.Scramble | src/main/java/com/yourproject/services/operators/MutationOperator.java:101-142 | the route is kept exactly when the draw exceeds the rate; a mutated copy leaves every position outside [lo, hi] as it was and permutes the span |
| Mutation.ScrambleCopy | src/main/java/com/yourproject/services/operators/MutationOperator.java:113-139 | shuffling the span and writing it back changes only [lo, hi], and only by a permutation |
| Mutation.ShuffledSegment | src/main/java/com/yourproject/services/operators/MutationOperator.java:127-139 | the shuffled sublist written back over [lo, hi] is a permutation of the original span, and the rest is untouched |
| Mutation.ScramblePreservesCities | src/main/java/com/yourproject/services/operators/MutationOperator.java:101-142 | scramble keeps the start city and permutes the visited cities |
| Selection.SelectElite | src/main/java/com/yourproject/services/operators/SelectionOperator.java:34-37 | a negative count raises IllegalArgumentException; otherwise the result has min(k, size) routes |
| Selection.EliteAreBest | src/main/java/com/yourproject/services/operators/SelectionOperator.java:34-37 | the elites are members of the population, and each is no longer than any member left out |
| Selection.Tournament | src/main/java/com/yourproject/services/operators/SelectionOperator.java:46-55 | a negative size or an empty population raises IllegalArgumentException and a size of 0 IndexOutOfBounds; otherwise the winner is one of the drawn routes and no longer than any of them |
| Selection.TournamentFirstShortest | src/main/java/com/yourproject/services/operators/SelectionOperator.java:46-55 | the winner is the first draw, in draw order, of the shortest drawn distance; every earlier draw is strictly longer |
| Selection.TournamentHitsBest | src/main/java/com/yourproject/services/operators/SelectionOperator.java:46-55 | when a globally best route is among the draws, the winner has the globally best distance |
| Selection.FirstReaching | src/main/java/com/yourproject/services/operators/SelectionOperator.java:71-78 | the scan stops at the first index whose cumulative fitness reaches the value, or reports that none does |
| Selection.Roulette | src/main/java/com/yourproject/services/operators/SelectionOperator.java:63-84 | an empty population fails with IndexOutOfBounds, and only an empty one does; otherwise the result is a member |
| Selection.RouletteStopsOnWheel | src/main/java/com/yourproject/services/operators/SelectionOperator.java:63-84 | with coherent caches and a draw in [0, 1), the wheel always stops on the first route whose cumulative fitness reaches the scaled draw, so the fallback at the end is unreachable |
| Selection.RouletteAllZero | src/main/java/com/yourproject/services/operators/SelectionOperator.java:71-78 | when every fitness is 0, roulette returns route 0 |
| Selection.JavaDiv2 | src/main/java/com/yourproject/services/operators/SelectionOperator.java:96 | integer division by 2 truncates toward zero, as Java's does |
| Selection.Rank | src/main/java/com/yourproject/services/operators/SelectionOperator.java:92-110 | an empty population raises IllegalArgumentException; success happens exactly when the rank total is positive, and returns a member |
| Selection.RankTotal | src/main/java/com/yourproject/services/operators/SelectionOperator.java:95-96 | for n up to 46340, the rank sum n(n+1)/2 fits in a Java int |
| Selection.RankScanExact | src/main/java/com/yourproject/services/operators/SelectionOperator.java:97-107 | the running-sum loop returns the first rank index whose cumulative weight reaches the draw |
| Selection.TotalRankExact | src/main/java/com/yourproject/services/operators/SelectionOperator.java:95-96 | the 32-bit computation of n(n+1)/2 equals the true rank total |
| Selection.RankNeverPicksWorst | src/main/java/com/yourproject/services/operators/SelectionOperator.java:92-110 | for two or more routes, rank selection always returns a route at sorted index n−2 or lower, so the last-ranked route is never chosen and the fallback is unreachable |
| Selection.Sweep | src/main/java/com/yourproject/services/operators/SelectionOperator.java:130-147 | the sweep picks at most count indices, all in range and non-decreasing; total 0 picks none; a positive total and offset pick exactly count, the k-th being the first index whose cumulative fitness reaches offset + k·spacing |
| Selection.StochasticUniversalSampling | src/main/java/com/yourproject/services/operators/SelectionOperator.java:120-150 | SUS returns at most count fresh copies of members, in non-decreasing member order; total fitness 0 gives none; a positive total and offset give exactly count picks at the pointers |
| Config.Default | src/main/java/com/yourproject/models/GAConfig.java:12-44 | the defaults satisfy every declared bound, start at F, carry a generation limit, and have cut points PMX accepts for seven cities |
| Config.ValidDoesNotImplyCutPoints | src/main/java/com/yourproject/models/GAConfig.java:36-42 | the declared bounds allow cut points (3, 3) and a second point of 8, both of which PMX rejects for seven cities |
| Config.ValidAllowsNoGenerationLimit | src/main/java/com/yourproject/models/GAConfig.java:23-24 | the bounds do not require maxGenerations to be present |
| Engine.NewEngine | src/main/java/com/yourproject/services/GeneticAlgorithmService.java:29-33 | a new service has no configuration, no population and an empty history |
| Engine.Lookup | src/main/java/com/yourproject/services/GeneticAlgorithmService.java:57 | a lookup finds a city exactly when the id is present and registered, and the city found has that id |
| Engine.Graph | src/main/java/com/yourproject/services/GeneticAlgorithmService.java:35-48 | the graph holds the eight cities put into the map |
| EngineProperties.GraphInHashOrder | src/main/java/com/yourproject/services/GeneticAlgorithmService.java:35-48 | the graph lists its cities by id as C, E, F, G, H, K, L, N, each hashing to its character code, which with `Cities.LetterBuckets` is the bucket order `cities.values()` walks (line 62) |
| EngineProperties.GraphMatchesTable | src/main/java/com/yourproject/services/GeneticAlgorithmService.java:35-48 | the graph's eight cities have distinct ids, and each id has a row in the distance table |
| EngineProperties.OthersOfStart | src/main/java/com/yourproject/services/GeneticAlgorithmService.java:62-63 | removing the start city leaves seven distinct cities, none with the start's id, which together with the start make up the graph |
| Engine.Shuffle | src/main/java/com/yourproject/services/GeneticAlgorithmService.java:68-69 | shuffling a copy of the other cities yields a permutation of them |
| Engine.InitialRoutes | src/main/java/com/yourproject/services/GeneticAlgorithmService.java:65-72 | exactly populationSize routes are built, each from the start city over a permutation of the other cities |
| Engine.InitializePopulation | src/main/java/com/yourproject/services/GeneticAlgorithmService.java:50-84 | the configuration is replaced and the history cleared whatever happens; an unknown start id raises IllegalArgumentException and keeps the old population; a success installs a sorted population of populationSize routes |
| EngineProperties.InitializeOutcome | src/main/java/com/yourproject/services/GeneticAlgorithmService.java:50-84 | initialisation fails exactly when the start id is unknown or populationSize ≤ 0; with size 0 the empty population is installed before reading its best distance throws |
| EngineProperties.InitializeBuildsTours | src/main/java/com/yourproject/services/GeneticAlgorithmService.java:62-74 | every route of a freshly initialised population is a tour from the start city |
| Engine.MutateDrawn | src/main/java/com/yourproject/services/GeneticAlgorithmService.java:123-124 | a draw above the mutation rate returns the route itself; otherwise a route of fewer than two cities is only copied; the start city and soundness are always kept |
| Engine.MutateDrawnSwaps | src/main/java/com/yourproject/services/operators/MutationOperator.java:38-56 | below the rate, a route of two or more cities comes back as a fresh copy, with empty caches, whose cities at the two distinct drawn positions are exchanged and all others kept |
| Engine.Recombine | src/main/java/com/yourproject/services/GeneticAlgorithmService.java:110-121 | a draw at or above the crossover rate copies both parents; a draw below it gives exactly `Pmx.Crossover` of the parents at the configured cut points; a success keeps both starts and both routes sound |
| Engine.Breed | src/main/java/com/yourproject/services/GeneticAlgorithmService.java:105-124 | a breeding round over an empty population raises IllegalArgumentException from the tournament's `nextInt(0)`; a success yields two sound routes |
| EngineProperties.MutateDrawnRearranges | src/main/java/com/yourproject/services/GeneticAlgorithmService.java:123-124 | the drawn swap mutation only permutes an offspring's cities |
| EngineProperties.MutateDrawnPermutes | src/main/java/com/yourproject/services/GeneticAlgorithmService.java:123-124 | mutating an offspring keeps it a tour from the same start |
| EngineProperties.RecombineKeepsTours | src/main/java/com/yourproject/services/GeneticAlgorithmService.java:110-121 | crossover or copying of two tours yields two tours, and it cannot fail when the cut points suit seven cities |
| EngineProperties.RecombinePermutes | src/main/java/com/yourproject/services/GeneticAlgorithmService.java:110-121 | crossover or copying of two arrangements of a repetition-free city list yields two arrangements of it, and cannot fail when the cut points suit the list's length |
| EngineProperties.WinnerArranged | src/main/java/com/yourproject/services/GeneticAlgorithmService.java:105-106 | a tournament winner shares the start and the cities of the population's routes |
| EngineProperties.BreedPermutes | src/main/java/com/yourproject/services/GeneticAlgorithmService.java:105-124 | one breeding round over arrangements of a repetition-free city list yields two arrangements from the same start, and succeeds on a non-empty population with usable cut points |
| EngineProperties.BreedFromPair | src/main/java/com/yourproject/services/GeneticAlgorithmService.java:110-124 | once both tournaments have picked their winners, a successful recombination into arrangements yields a successful round whose two mutated offspring are arrangements with the winners' starts |
| EngineProperties.BreedKeepsTours | src/main/java/com/yourproject/services/GeneticAlgorithmService.java:105-124 | one breeding round over tours yields two tours, and succeeds on a non-empty population with usable cut points |
| Engine.Grow | src/main/java/com/yourproject/services/GeneticAlgorithmService.java:126-131 | the first offspring is always added and the second only while it still fits; nothing already there changes |
| Engine.Offspring | src/main/java/com/yourproject/services/GeneticAlgorithmService.java:104-132 | the breeding loop fills the population up to populationSize, or leaves a larger elite list alone, and keeps the elites as its prefix |
| EngineProperties.OffspringKeepsTours | src/main/java/com/yourproject/services/GeneticAlgorithmService.java:104-132 | the breeding loop adds only tours, and it succeeds on a non-empty population with usable cut points |
| Engine.NextPopulation | src/main/java/com/yourproject/services/GeneticAlgorithmService.java:91-138 | a negative elitism count raises IllegalArgumentException; a success is a healthy population, sorted as reading its best route leaves it |
| Engine.Summary | src/main/java/com/yourproject/services/GeneticAlgorithmService.java:136-143 | a generation record fails on an empty population; otherwise it carries the generation number and a best member, and brackets every member between its best and worst distances |
| Engine.EvolveGeneration | src/main/java/com/yourproject/services/GeneticAlgorithmService.java:86-154 | before initialisation it raises IllegalStateException and changes nothing; a success appends exactly one history entry numbered with the given generation; a failure leaves the history alone |
| EngineProperties.NegativeCountsFail | src/main/java/com/yourproject/services/GeneticAlgorithmService.java:86-154 | with a population and a configuration present, a negative population size or elitism count raises IllegalArgumentException and leaves the history alone |
| EngineProperties.EvolveKeepsTours | src/main/java/com/yourproject/services/GeneticAlgorithmService.java:86-134 | a generation keeps every route a tour, and succeeds with a non-empty population under an evolvable configuration |
| EngineProperties.EvolveShape | src/main/java/com/yourproject/services/GeneticAlgorithmService.java:91-134 | a successful generation leaves max(elites kept, populationSize) routes, and every elite of the sorted old population is among them |
| EngineProperties.ElitismNonRegression | src/main/java/com/yourproject/services/GeneticAlgorithmService.java:93-97 | with at least one elite, a generation's best distance is no longer than any route of the old population |
| EngineProperties.EvolveKeepsBest | src/main/java/com/yourproject/services/GeneticAlgorithmService.java:93-143 | with elitism, any distance the old population reaches is still reached, and the recorded best is no longer than it |
| EngineProperties.GenerationGapIgnored | src/main/java/com/yourproject/services/GeneticAlgorithmService.java:99-104 | changing the generation gap changes neither the outcome, nor the new population, nor the history |
| Engine.Generations | src/main/java/com/yourproject/services/GeneticAlgorithmService.java:173-175 | the generation loop keeps the earlier history as a prefix, numbers new entries consecutively from the first generation, and on success adds one entry per generation |
| Engine.NextGeneration | src/main/java/com/yourproject/services/GeneticAlgorithmService.java:173 | `gen++` on the `int` counter adds one below Integer.MAX_VALUE and wraps from it to Integer.MIN_VALUE, so the loop test `gen <= maxGenerations` never fails when the limit is Integer.MAX_VALUE |
| EngineProperties.GenerationsSucceed | src/main/java/com/yourproject/services/GeneticAlgorithmService.java:173-175 | with an evolvable configuration, every generation of the loop succeeds and the population stays non-empty and made of tours |
| EngineProperties.GenerationsKeepBest | src/main/java/com/yourproject/services/GeneticAlgorithmService.java:173-175 | with elitism, the best distances recorded by the loop never increase |
| EngineProperties.NumberedMeansConsecutive | src/main/java/com/yourproject/services/GeneticAlgorithmService.java:136-145 | consecutively numbered history entries carry generation numbers counting up from the first |
| EngineProperties.ImprovingMeansOrdered | src/main/java/com/yourproject/services/GeneticAlgorithmService.java:136-145 | an improving history has non-increasing best distances, all bounded by the starting distance |
| Engine.Finish | src/main/java/com/yourproject/services/GeneticAlgorithmService.java:180-192 | the final result reports the whole history, the configured generation count and a best route of the final population together with its distance |
| EngineProperties.FinishReturnsTour | src/main/java/com/yourproject/services/GeneticAlgorithmService.java:180-192 | a non-empty population of tours always finishes, and its reported best route is a tour |
| Engine.RunGeneticAlgorithm | src/main/java/com/yourproject/services/GeneticAlgorithmService.java:156-197 | every failure of a run is wrapped, and a configuration without maxGenerations always fails |
| EngineProperties.RunIsEvolve | src/main/java/com/yourproject/services/GeneticAlgorithmService.java:156-175 | after a successful initialisation, a run is the evolution loop on the initialised engine |
| Engine.Evolve | src/main/java/com/yourproject/services/GeneticAlgorithmService.java:160-192 | after initialisation, a null maxGenerations fails with a wrapped NullPointerException, and every failure of the loop or the final best-route read is wrapped |
| EngineProperties.RunSucceeds | src/main/java/com/yourproject/services/GeneticAlgorithmService.java:156-197 | a runnable configuration, whose generation limit lies below Integer.MAX_VALUE, always gives a successful run whose best route is a tour from the start city |
| EngineProperties.EvolveRunNumbered | src/main/java/com/yourproject/services/GeneticAlgorithmService.java:160-175 | after initialisation, a successful run appends max(0, maxGenerations) + 1 history entries (generation 0 is recorded even for a negative limit), numbered on from 0 in index order |
| EngineProperties.RunNumbered | src/main/java/com/yourproject/services/GeneticAlgorithmService.java:160-175 | a successful run has max(0, maxGenerations) + 1 history entries, entry k numbered k |
| EngineProperties.RunImproves | src/main/java/com/yourproject/services/GeneticAlgorithmService.java:160-192 | with elitism, a successful run's best distances never increase over its history, and its reported best is no longer than any recorded best |
| EngineProperties.RunWithoutLimitFails | src/main/java/com/yourproject/services/GeneticAlgorithmService.java:156-197 | without maxGenerations, unboxing it throws a NullPointerException that the run wraps, after recording generation 0 |
| EngineProperties.DefaultScenario | src/main/java/com/yourproject/services/GeneticAlgorithmService.java:156-197 | the default configuration with 20 generations always succeeds, records 21 entries and ends no worse than generation 0 |
| Engine.StatsOf | src/main/java/com/yourproject/services/GeneticAlgorithmService.java:204-211 | the statistics of an empty population throw; otherwise they report its size and bracket every member between the best and worst distances |
| Engine.PopulationStats | src/main/java/com/yourproject/services/GeneticAlgorithmService.java:199-212 | without a population the error entry is returned; with one, the size is reported, and an empty population throws; the history and configuration are untouched |
| Engine.History | src/main/java/com/yourproject/services/GeneticAlgorithmService.java:214-216 | the history query returns the recorded entries in order |

## Left out

- Floating point: distances are `nat`, and fitness, averages and cumulative sums are exact `real`s. IEEE rounding is not modelled, and neither is the Infinity/NaN branch of `getFitness`, which the finite sentinel never reaches.
- `java.util.Random` is not modelled. Its draws are parameters: a real in [0, 1) per `nextDouble`, and `floor(u * bound)` per `nextInt(bound)`. `Collections.shuffle` is a Fisher–Yates shuffle driven by a draw sequence.
- Mutation.Swap: the `while (pos1 == pos2)` retry loop is replaced by drawing the second position from the size − 1 positions other than the first. The reachable pairs of positions are the same, but the number of draws the retry consumes is not modelled.
- The route caches are modelled as optional fields. A read accessor that fills a cache does not hand the filled route back, because filling a coherent cache is unobservable (`Routes.Memoize` proves this).
- `City` equality inside sequences and maps is structural, whereas Java compares ids only. The two agree on the graph's cities, whose ids are distinct (`EngineProperties.GraphMatchesTable`). `Cities.Equals` models the id comparison itself.
- Cities.StringHash: `String.hashCode` is modelled over character codes with 32-bit wrap-around. Only its range, and the agreement of equal cities' hashes, are stated.
- Java object identity and aliasing are not modelled, beyond the `Kept`/`Copied` tag. Copying constructors, fresh copies in SUS, and "the input is never modified" hold by value semantics.
- The GAConfig setters are not modelled; each one is a record update of its own field. Jakarta's enforcement of the annotations is not modelled either; `Config.Valid` states only the bounds they declare.
- Selection.RankTotal: the rank lemmas assume n ≤ 46340, where n(n+1) fits in a Java int. `Cities.Wrap32` models the 32-bit product, but larger populations are not analysed.
- Pmx.Fill: the mapping chain is followed with fuel equal to the size of the mapping. A cycle, where Java would loop forever, becomes `Failure(Divergence)`. For parents without repeated cities the chain is never followed at all (`Pmx.MappingNeverFires`).
- Selection.StochasticUniversalSampling: a count ≤ 0 returns an empty selection. Java's double division by a zero count is not modelled.
- Engine.Generations: the loop counter is an unbounded integer. Java's `int gen` wraps from Integer.MAX_VALUE to Integer.MIN_VALUE (`Engine.NextGeneration`), so with maxGenerations = Integer.MAX_VALUE the Java loop never ends, while the model stops after that many generations. `EngineProperties.Runnable` therefore requires a limit below Integer.MAX_VALUE.
- EngineProperties.RunSucceeds and EngineProperties.GenerationsSucceed assume a configuration that `Config.Valid` alone does not guarantee: a positive size, a non-negative elite count, cut points PMX accepts, and a generation limit (below Integer.MAX_VALUE for RunSucceeds). `Config.ValidDoesNotImplyCutPoints` shows why the bounds are not enough.
- Engine.EvolveGeneration: the new population is stated to hold max(elites, populationSize) routes, not exactly populationSize. This is because `selectElite` may return more elites than populationSize, and the code keeps them all.
- Wall-clock timing and `executionTime` are not modelled. Neither are logging and `toString` formatting beyond `City.toString`.
- The HTTP controllers, the user feature, the response envelopes and the exception classes are outside the engine and are not modelled. Exceptions are `Fault` tags.
- GenerationResult and GAExecutionResult are plain records. They are datatypes in `Engine`, with no properties of their own.

=== FILE: cities.dfy ===
/** A city of the TSP graph: an immutable value whose identity is its id. */
module Cities {

  import opened Wrappers

  datatype City = City(id: string, name: string, x: real, y: real)

  /** Java's `equals(Object)`: a missing (null) argument is never equal;
      otherwise only the ids are compared, name and coordinates are not. */
  function Equals(a: City, b: Option<City>): (r: bool)
    ensures r <==> b.Some? && b.value.id == a.id
  {
    match b
    case None => false
    case Some(c) => a.id == c.id
  }

  const TwoTo32: int := 0x1_0000_0000
  const TwoTo31: int := 0x8000_0000

  /** Reduces an integer to a signed 32-bit value, as Java's int arithmetic does. */
  function Wrap32(n: int): (r: int)
    ensures -TwoTo31 <= r < TwoTo31
    ensures (r - n) % TwoTo32 == 0
  {
    var m := n % TwoTo32;
    if m >= TwoTo31 then m - TwoTo32 else m
  }

  /** Java's `String.hashCode`: h = 31*h + c over the characters, wrapping at 32 bits. */
  function StringHash(s: string): (h: int)
    ensures -TwoTo31 <= h < TwoTo31
    ensures s == [] ==> h == 0
  {
    if s == [] then 0
    else Wrap32(31 * StringHash(s[..|s| - 1]) + s[|s| - 1] as int)
  }

  /** The bucket `java.util.HashMap` files a key under in a table of 16
      buckets: the hash with its high half folded into its low half, masked
      to four bits. Eight entries stay below the table's resize threshold
      of 12, so `values()` walks these 16 buckets in order. */
  function Bucket(h: int): (b: nat)
    requires -TwoTo31 <= h < TwoTo31
    ensures b < 16
  {
    var u := (if h < 0 then h + TwoTo32 else h) as bv32;
    ((u ^ (u >> 16)) & 15) as nat
  }

  /** A one-letter string hashes to its character code. */
  lemma LetterHash(s: string)
    requires |s| == 1
    ensures StringHash(s) == s[0] as int
  {
    assert s[..0] == [];
  }

  /** The character codes of the letters C, E, F, G, H, K, L and N fall
      into distinct buckets, in that order. */
  lemma LetterBuckets()
    ensures Bucket('C' as int) < Bucket('E' as int) < Bucket('F' as int) < Bucket('G' as int)
      < Bucket('H' as int) < Bucket('K' as int) < Bucket('L' as int) < Bucket('N' as int)
  {
  }

  /** `hashCode` delegates to the id's hash. */
  function HashCode(c: City): (h: int)
    ensures -TwoTo31 <= h < TwoTo31
  {
    StringHash(c.id)
  }

  /** `toString` is the display name. */
  function ToString(c: City): (s: string)
    ensures s == c.name
  {
    c.name
  }

  /** Equal cities (in the `equals` sense) hash alike, and equality ignores
      everything but the id. */
  lemma EqualsAgreesWithHash(a: City, b: City)
    ensures Equals(a, Some(b)) ==> HashCode(a) == HashCode(b)
    ensures Equals(a, Some(b)) <==> Equals(b, Some(a))
    ensures Equals(a, Some(b)) <==> Equals(a, Some(City(b.id, a.name, a.x, a.y)))
  {
  }
}

=== FILE: config.dfy ===
/** The run configuration: its defaults and the bounds its annotations
    declare. The bounds are checked by the caller layer, never by the
    engine; `maxGenerations` and `startCityId` may be null. */
module Config {

  import opened Wrappers
  import Pmx

  datatype GAConfig = GAConfig(
    populationSize: int,
    crossoverRate: real,      // percent
    mutationRate: real,       // percent
    maxGenerations: Option<int>,
    elitismCount: int,
    generationGap: real,
    crossoverPoint1: int,
    crossoverPoint2: int,
    startCityId: Option<string>)

  /** The declared bounds: populationSize at least 100, crossoverRate in
      [60, 80], maxGenerations at least 20 when present, elitismCount in
      [0, 20], generationGap in [0, 100], crossoverPoint1 at least 1 and
      crossoverPoint2 at least 2. mutationRate carries no bound. */
  predicate Valid(c: GAConfig) {
    && c.populationSize >= 100
    && 60.0 <= c.crossoverRate <= 80.0
    && (c.maxGenerations.Some? ==> c.maxGenerations.value >= 20)
    && 0 <= c.elitismCount <= 20
    && 0.0 <= c.generationGap <= 100.0
    && c.crossoverPoint1 >= 1
    && c.crossoverPoint2 >= 2
  }

  /** A freshly constructed configuration. */
  function Default(): (c: GAConfig)
    ensures Valid(c)
    ensures c.startCityId == Some("F") && c.maxGenerations.Some?
    ensures !Pmx.CutPointsRejected(c.crossoverPoint1, c.crossoverPoint2, 7)
  {
    GAConfig(100, 70.0, 0.8, Some(100), 5, 0.9, 2, 5, Some("F"))
  }

  /** The bounds do not relate the two cut points to each other or to the
      route length: valid configurations exist whose points the crossover
      rejects. */
  lemma ValidDoesNotImplyCutPoints()
    ensures var c := Default().(crossoverPoint1 := 3, crossoverPoint2 := 3);
      Valid(c) && Pmx.CutPointsRejected(c.crossoverPoint1, c.crossoverPoint2, 7)
    ensures var c := Default().(crossoverPoint2 := 8);
      Valid(c) && Pmx.CutPointsRejected(c.crossoverPoint1, c.crossoverPoint2, 7)
  {
  }

  /** A valid configuration may leave maxGenerations null. */
  lemma ValidAllowsNoGenerationLimit()
    ensures Valid(Default().(maxGenerations := None))
  {
  }
}

=== FILE: distances.dfy ===
/** The static distance table of the fixed 8-city graph. */
module Distances {

  import opened Wrappers
  import opened Cities

  /** Distance reported for pairs with no edge (the table's "infinity"). */
  const Sentinel: nat := 999999

  const CityCount: nat := 8

  /** The index each registered city id has in the table. */
  function IndexOf(id: string): (r: Option<nat>)
    ensures r.Some? ==> r.value < CityCount
  {
    if id == "F" then Some(0)
    else if id == "G" then Some(1)
    else if id == "H" then Some(2)
    else if id == "E" then Some(3)
    else if id == "K" then Some(4)
    else if id == "N" then Some(5)
    else if id == "C" then Some(6)
    else if id == "L" then Some(7)
    else None
  }

  /** The ids that have a row in the table, in index order. */
  const TableIds: seq<string> := ["F", "G", "H", "E", "K", "N", "C", "L"]

  /** The eight registered cities, as table rows. */
  datatype Id = F | G | H | E | K | N | C | L

  function Row(x: Id): (i: nat)
    ensures i < CityCount
    ensures IndexOf(TableIds[i]) == Some(i)
  {
    match x
    case F => 0 case G => 1 case H => 2 case E => 3
    case K => 4 case N => 5 case C => 6 case L => 7
  }

  datatype Edge = Edge(a: Id, b: Id, weight: nat)

  /** The undirected edges, in the order they are added to the table. */
  const Edges: seq<Edge> := [
    Edge(F, N, 30), Edge(F, C, 20), Edge(F, L, 10), Edge(F, G, 55),
    Edge(N, C, 47), Edge(N, K, 60),
    Edge(C, K, 70), Edge(C, E, 10), Edge(C, H, 30), Edge(C, L, 10),
    Edge(K, E, 10), Edge(K, G, 90), Edge(K, H, 73),
    Edge(E, H, 60), Edge(E, G, 40), Edge(E, L, 5),
    Edge(H, G, 80), Edge(H, L, 40)
  ]

  type Table = t: seq<seq<nat>> | |t| == CityCount && forall i :: 0 <= i < |t| ==> |t[i]| == CityCount
    witness seq(CityCount, i => seq(CityCount, j => 0))

  /** Before any edge: zero on the diagonal, the sentinel everywhere else. */
  function InitialTable(): (t: Table)
    ensures forall i, j :: 0 <= i < CityCount && 0 <= j < CityCount ==>
      t[i][j] == (if i == j then 0 else Sentinel)
  {
    seq(CityCount, i => seq(CityCount, j => if i == j then 0 else Sentinel))
  }

  /** True when edge `e` joins table cells i and j (in either direction). */
  predicate Joins(e: Edge, i: nat, j: nat)
  {
    var p, q := Row(e.a), Row(e.b);
    (p == i && q == j) || (p == j && q == i)
  }

  /** `addEdge`: writes the weight into both [p][q] and [q][p]. */
  function AddEdge(t: Table, e: Edge): (r: Table)
    ensures forall i, j :: 0 <= i < CityCount && 0 <= j < CityCount ==>
      r[i][j] == (if Joins(e, i, j) then e.weight else t[i][j])
  {
    var p, q := Row(e.a), Row(e.b);
    var row1: seq<nat> := t[p][q := e.weight];
    var t1: seq<seq<nat>> := t[p := row1];
    var row2: seq<nat> := t1[q][p := e.weight];
    t1[q := row2]
  }

  /** Adds the edges one after the other, as the static initialiser does. */
  function Build(es: seq<Edge>, t: Table): Table
  {
    if es == [] then t else Build(es[1..], AddEdge(t, es[0]))
  }

  /** The weight of the last edge in `es` joining i and j, if any: the
      reference reading of a table built by repeated overwriting. */
  function LastWeight(es: seq<Edge>, i: nat, j: nat): Option<nat>
  {
    if es == [] then None
    else
      var rest := LastWeight(es[1..], i, j);
      if rest.Some? then rest
      else if Joins(es[0], i, j) then Some(es[0].weight)
      else None
  }

  function DistanceTable(): Table
  {
    Build(Edges, InitialTable())
  }

  /** Every cell of a built table is the last edge weight written to it, or
      its initial value. */
  lemma {:induction false} BuildCell(es: seq<Edge>, t: Table, i: nat, j: nat)
    requires i < CityCount && j < CityCount
    ensures Build(es, t)[i][j] ==
      (if LastWeight(es, i, j).Some? then LastWeight(es, i, j).value else t[i][j])
  {
    if es != [] {
      BuildCell(es[1..], AddEdge(t, es[0]), i, j);
    }
  }

  lemma {:induction false} LastWeightSymmetric(es: seq<Edge>, i: nat, j: nat)
    ensures LastWeight(es, i, j) == LastWeight(es, j, i)
  {
    if es != [] {
      LastWeightSymmetric(es[1..], i, j);
    }
  }

  /** The weight found for a pair is the weight of some edge of the list. */
  lemma {:induction false} LastWeightIsAnEdgeWeight(es: seq<Edge>, i: nat, j: nat)
    ensures LastWeight(es, i, j).Some? ==>
      exists k :: 0 <= k < |es| && es[k].weight == LastWeight(es, i, j).value
  {
    if es != [] {
      LastWeightIsAnEdgeWeight(es[1..], i, j);
      if LastWeight(es[1..], i, j).Some? {
        var k :| 0 <= k < |es[1..]| && es[1..][k].weight == LastWeight(es[1..], i, j).value;
        assert es[k + 1].weight == LastWeight(es, i, j).value;
      } else if LastWeight(es, i, j).Some? {
        assert es[0].weight == LastWeight(es, i, j).value;
      }
    }
  }

  /** No edge of the list joins a city to itself. */
  lemma NoSelfEdge(i: nat)
    ensures LastWeight(Edges, i, i) == None
  {
    NoSelfEdgeIn(Edges, i);
  }

  lemma {:induction false} NoSelfEdgeIn(es: seq<Edge>, i: nat)
    requires forall k :: 0 <= k < |es| ==> es[k].a != es[k].b
    ensures LastWeight(es, i, i) == None
  {
    if es != [] {
      NoSelfEdgeIn(es[1..], i);
    }
  }

  /** The table cell for indices i and j. */
  lemma TableCell(i: nat, j: nat)
    requires i < CityCount && j < CityCount
    ensures DistanceTable()[i][j] ==
      (if LastWeight(Edges, i, j).Some? then LastWeight(Edges, i, j).value
       else if i == j then 0 else Sentinel)
  {
    BuildCell(Edges, InitialTable(), i, j);
  }

  /** A city is registered when its id has a row in the table. */
  predicate Registered(c: City) {
    IndexOf(c.id).Some?
  }

  /** The distance between two (present) cities: the table cell when both
      are registered, the sentinel otherwise. */
  function Dist(a: City, b: City): nat
  {
    match (IndexOf(a.id), IndexOf(b.id))
    case (Some(i), Some(j)) => DistanceTable()[i][j]
    case _ => Sentinel
  }

  /** `getDistance`: a null argument is an IllegalArgumentException. */
  function GetDistance(a: Option<City>, b: Option<City>): (r: Result<nat>)
    ensures r.Failure? <==> a.None? || b.None?
    ensures r.Failure? ==> r.fault == IllegalArgument
    ensures a.Some? && b.Some? && !(Registered(a.value) && Registered(b.value)) ==>
      r == Success(Sentinel)
    ensures a.Some? && b.Some? && a.value.id == b.value.id && Registered(a.value) ==>
      r == Success(0)
  {
    if a.None? || b.None? then Failure(IllegalArgument)
    else
      DistIdentity(a.value, b.value);
      Success(Dist(a.value, b.value))
  }

  /** `hasDirectConnection`: the distance is below the sentinel. */
  function HasDirectConnection(a: Option<City>, b: Option<City>): (r: Result<bool>)
    ensures r.Failure? <==> a.None? || b.None?
    ensures r.Success? ==> (r.value <==> Dist(a.value, b.value) < Sentinel)
  {
    var d :- GetDistance(a, b);
    Success(d < Sentinel)
  }

  /** `getTheoreticalMinimum`: a fixed figure, not derived from the table. */
  function TheoreticalMinimum(): (r: nat)
    ensures r == 115
  {
    10 + 5 + 10 + 10 + 10 + 30 + 40
  }

  /** The table is symmetric, because every edge is written both ways. */
  lemma DistSymmetric(a: City, b: City)
    ensures Dist(a, b) == Dist(b, a)
  {
    if IndexOf(a.id).Some? && IndexOf(b.id).Some? {
      var i, j := IndexOf(a.id).value, IndexOf(b.id).value;
      TableCell(i, j);
      TableCell(j, i);
      LastWeightSymmetric(Edges, i, j);
    }
  }

  /** A registered city is at distance 0 from itself; an unregistered one is
      at the sentinel from everything, itself included. */
  lemma DistIdentity(a: City, b: City)
    ensures Registered(a) && a.id == b.id ==> Dist(a, b) == 0
    ensures !Registered(a) ==> Dist(a, b) == Sentinel && Dist(b, a) == Sentinel
  {
    if Registered(a) && a.id == b.id {
      var i := IndexOf(a.id).value;
      TableCell(i, i);
      NoSelfEdge(i);
    }
  }

  /** Every distance is 0, the sentinel, or the weight of one of the edges. */
  lemma DistValues(a: City, b: City)
    ensures Dist(a, b) == 0 || Dist(a, b) == Sentinel ||
      exists k :: 0 <= k < |Edges| && Edges[k].weight == Dist(a, b)
  {
    if IndexOf(a.id).Some? && IndexOf(b.id).Some? {
      var i, j := IndexOf(a.id).value, IndexOf(b.id).value;
      TableCell(i, j);
      LastWeightIsAnEdgeWeight(Edges, i, j);
    }
  }

  function CityWithId(id: string): City {
    City(id, id, 0.0, 0.0)
  }

  /** When exactly one edge joins i and j, the cell holds its weight. */
  lemma {:induction false} LastWeightOfOnlyEdge(es: seq<Edge>, i: nat, j: nat, k: nat)
    requires k < |es| && Joins(es[k], i, j)
    requires forall m :: 0 <= m < |es| && m != k ==> !Joins(es[m], i, j)
    ensures LastWeight(es, i, j) == Some(es[k].weight)
  {
    if k == 0 {
      LastWeightOfNoEdge(es[1..], i, j);
    } else {
      LastWeightOfOnlyEdge(es[1..], i, j, k - 1);
    }
  }

  /** When no edge joins i and j, no weight is found. */
  lemma {:induction false} LastWeightOfNoEdge(es: seq<Edge>, i: nat, j: nat)
    requires forall m :: 0 <= m < |es| ==> !Joins(es[m], i, j)
    ensures LastWeight(es, i, j) == None
  {
    if es != [] {
      LastWeightOfNoEdge(es[1..], i, j);
    }
  }

  lemma WeightFL()
    ensures LastWeight(Edges, 0, 7) == Some(10)
  {
    LastWeightOfOnlyEdge(Edges, 0, 7, 2);
  }

  lemma WeightFG()
    ensures LastWeight(Edges, 0, 1) == Some(55)
  {
    LastWeightOfOnlyEdge(Edges, 0, 1, 3);
  }

  lemma WeightEL()
    ensures LastWeight(Edges, 3, 7) == Some(5)
  {
    LastWeightOfOnlyEdge(Edges, 3, 7, 15);
  }

  lemma WeightFH()
    ensures LastWeight(Edges, 0, 2) == None
  {
    LastWeightOfNoEdge(Edges, 0, 2);
  }

  /** Spot values of the table: d(F,L) = 10, d(F,G) = 55, d(E,L) = 5. */
  lemma SpotValueFL()
    ensures Dist(CityWithId("F"), CityWithId("L")) == 10
  {
    assert IndexOf("F") == Some(0) && IndexOf("L") == Some(7);
    assert Dist(CityWithId("F"), CityWithId("L")) == DistanceTable()[0][7];
    TableCell(0, 7);
    WeightFL();
  }

  lemma SpotValueFG()
    ensures Dist(CityWithId("F"), CityWithId("G")) == 55
  {
    assert IndexOf("F") == Some(0) && IndexOf("G") == Some(1);
    assert Dist(CityWithId("F"), CityWithId("G")) == DistanceTable()[0][1];
    TableCell(0, 1);
    WeightFG();
  }

  lemma SpotValueEL()
    ensures Dist(CityWithId("E"), CityWithId("L")) == 5
  {
    assert IndexOf("E") == Some(3) && IndexOf("L") == Some(7);
    assert Dist(CityWithId("E"), CityWithId("L")) == DistanceTable()[3][7];
    TableCell(3, 7);
    WeightEL();
  }

  /** F and H have no edge: their distance is the sentinel and they are not
      directly connected. */
  lemma NoEdgeFH()
    ensures Dist(CityWithId("F"), CityWithId("H")) == Sentinel
    ensures HasDirectConnection(Some(CityWithId("F")), Some(CityWithId("H"))) == Success(false)
  {
    assert IndexOf("F") == Some(0) && IndexOf("H") == Some(2);
    assert Dist(CityWithId("F"), CityWithId("H")) == DistanceTable()[0][2];
    TableCell(0, 2);
    WeightFH();
  }

  /** A registered city is directly connected to itself. */
  lemma SelfConnected(a: City)
    requires Registered(a)
    ensures HasDirectConnection(Some(a), Some(a)) == Success(true)
  {
    DistIdentity(a, a);
  }
}

=== FILE: engine.dfy ===
/** The engine: a fixed city graph, the configuration and population of the
    current run, and the per-generation history. Each operation returns the
    state after the call together with its outcome, because several of them
    change the state (a sort in place, a replaced population) before they
    throw. Random draws are reals in [0, 1) supplied as streams. */
module Engine {

  import opened Wrappers
  import opened Cities
  import opened Routes
  import opened Permutations
  import opened Populations
  import opened Pmx
  import opened Mutation
  import opened Selection
  import opened Config

  /* ---------- State ---------- */

  datatype GenerationResult = GenerationResult(
    generation: int,
    bestRoute: Route,
    bestDistance: nat,
    averageDistance: real,
    worstDistance: nat,
    topRoutes: seq<Route>)

  datatype ExecutionResult = ExecutionResult(
    bestRoute: Route,
    bestDistance: nat,
    maxGenerations: int,
    history: seq<GenerationResult>,
    config: GAConfig)

  datatype Engine = Engine(
    config: Option<GAConfig>,
    population: Option<Population>,
    history: seq<GenerationResult>)

  /** The graph as `cities.values()` lists it: a HashMap of capacity 16
      orders single-letter keys by character code modulo 16. */
  function Graph(): (g: seq<City>)
    ensures |g| == 8
  {
    [ City("C", "C", 200.0, 250.0), City("E", "E", 300.0, 200.0),
      City("F", "F", 100.0, 300.0), City("G", "G", 400.0, 100.0),
      City("H", "H", 350.0, 250.0), City("K", "K", 250.0, 150.0),
      City("L", "L", 150.0, 300.0), City("N", "N", 150.0, 200.0) ]
  }

  /** A freshly constructed engine. */
  function NewEngine(): (e: Engine)
    ensures e.config.None? && e.population.None? && e.history == []
  {
    Engine(None, None, [])
  }

  /** `cities.get(id)`; a null id is simply absent. */
  function Lookup(g: seq<City>, id: Option<string>): (r: Option<City>)
    ensures r.Some? <==> id.Some? && exists k :: 0 <= k < |g| && g[k].id == id.value
    ensures r.Some? ==> r.value in g && r.value.id == id.value
  {
    if id.None? || g == [] then None
    else if g[0].id == id.value then Some(g[0])
    else
      var r := Lookup(g[1..], id);
      assert forall k :: 1 <= k < |g| ==> g[k] == g[1..][k - 1];
      r
  }

  /** `List.remove(Object)`: drops the first element equal to `c`, where
      cities are equal when their ids are. */
  function RemoveFirst(s: seq<City>, c: City): (r: seq<City>)
    ensures |r| == if exists k :: 0 <= k < |s| && s[k].id == c.id then |s| - 1 else |s|
    ensures forall x :: x in r ==> x in s
  {
    if s == [] then []
    else if s[0].id == c.id then s[1..]
    else
      assert forall k :: 1 <= k < |s| ==> s[k] == s[1..][k - 1];
      assert (exists k :: 0 <= k < |s| && s[k].id == c.id) ==> exists k :: 0 <= k < |s| - 1 && s[1..][k].id == c.id;
      [s[0]] + RemoveFirst(s[1..], c)
  }

  /** The cities of every route that starts at `start`. */
  function Others(start: City): (o: seq<City>)
    requires start in Graph()
    ensures |o| == |Graph()| - 1
  {
    RemoveFirst(Graph(), start)
  }

  /* ---------- Draws ---------- */

  predicate Unit(u: real) {
    0.0 <= u < 1.0
  }

  /** `nextInt(bound)` from a uniform real. */
  function Pick(u: real, bound: nat): (i: nat)
    requires Unit(u)
    ensures bound > 0 ==> i < bound
  {
    if bound == 0 then 0
    else
      var i := (u * bound as real).Floor;
      assert 0.0 <= u * bound as real < bound as real by {
        assert (1.0 - u) * bound as real > 0.0;
      }
      i
  }

  /** The second swap position: a draw among the other size-1 positions,
      which is what the retry loop ends with. */
  function PickOther(u: real, size: nat, pos1: nat): (i: nat)
    requires Unit(u)
    ensures size >= 2 && pos1 < size ==> i < size && i != pos1
  {
    var j := Pick(u, if size == 0 then 0 else size - 1);
    if j >= pos1 then j + 1 else j
  }

  /** `Collections.shuffle(list, random)`: step k swaps position n-1-k with
      `nextInt(n-k)`. */
  function Shuffle(s: seq<City>, us: seq<real>): (r: seq<City>)
    requires |us| + 1 >= |s| && forall k :: 0 <= k < |us| ==> Unit(us[k])
    ensures multiset(r) == multiset(s)
  {
    var n := |s|;
    var js := seq(if n == 0 then 0 else n - 1, k requires 0 <= k < |us| && k < n => Pick(us[k], n - k));
    FisherYates(s, js, 0)
  }

  /** Draws for one call of the shuffle on the seven non-start cities. */
  predicate ShuffleDraw(us: seq<real>) {
    |us| == 6 && forall k :: 0 <= k < |us| ==> Unit(us[k])
  }

  ghost predicate ShuffleStream(shuffle: nat -> seq<real>) {
    forall k :: ShuffleDraw(shuffle(k))
  }

  /** Draws for one swap mutation: the mutate-or-not real and two positions. */
  datatype SwapDraw = SwapDraw(chance: real, first: real, second: real)

  /** Draws for one iteration of the breeding loop. */
  datatype Breeding = Breeding(
    tournament1: seq<real>,
    tournament2: seq<real>,
    crossover: real,
    mutation1: SwapDraw,
    mutation2: SwapDraw)

  const TournamentSize: nat := 5

  predicate ValidSwapDraw(d: SwapDraw) {
    Unit(d.chance) && Unit(d.first) && Unit(d.second)
  }

  predicate ValidBreeding(b: Breeding) {
    && |b.tournament1| == TournamentSize && |b.tournament2| == TournamentSize
    && (forall k :: 0 <= k < TournamentSize ==> Unit(b.tournament1[k]) && Unit(b.tournament2[k]))
    && Unit(b.crossover) && ValidSwapDraw(b.mutation1) && ValidSwapDraw(b.mutation2)
  }

  ghost predicate ValidStream(stream: nat -> Breeding) {
    forall k :: ValidBreeding(stream(k))
  }

  function Indices(us: seq<real>, n: nat): (ix: seq<nat>)
    requires forall k :: 0 <= k < |us| ==> Unit(us[k])
    ensures |ix| == |us| && (n > 0 ==> forall k :: 0 <= k < |ix| ==> ix[k] < n)
  {
    seq(|us|, k requires 0 <= k < |us| => Pick(us[k], n))
  }

  /* ---------- Well-formed populations ---------- */

  /** A route as the engine makes them: non-empty, with coherent caches. */
  predicate Sound(r: Route) {
    |r.cities| >= 1 && CacheCoherent(r)
  }

  predicate Healthy(p: Population) {
    Invariant(p) && forall i :: 0 <= i < |p.routes| ==> Sound(p.routes[i])
  }

  predicate Reachable(e: Engine) {
    e.population.Some? ==> Healthy(e.population.value)
  }

  /** Sorting a healthy population keeps it healthy. */
  function SortHealthy(p: Population): (q: Population)
    requires Healthy(p)
    ensures q == SortByFitness(p) && Healthy(q)
  {
    SortedMembers(p);
    var q := SortByFitness(p);
    assert forall i :: 0 <= i < |q.routes| ==> q.routes[i] in p.routes;
    q
  }

  /* ---------- Initialization ---------- */

  /** The routes `initializePopulation` builds: each the start city and a
      shuffle of the other cities. */
  function InitialRoutes(start: City, size: nat, shuffle: nat -> seq<real>): (rs: seq<Route>)
    requires start in Graph() && ShuffleStream(shuffle)
    ensures |rs| == size
    ensures forall i :: 0 <= i < size ==>
      rs[i].start == start && Sound(rs[i]) && IsPermutation(rs[i].cities, Others(start))
  {
    seq(size, i requires 0 <= i < size => NewRoute(start, Shuffle(Others(start), shuffle(i))))
  }

  /** `initializePopulation`: records the configuration and clears the
      history, then fails on an unknown start city or a negative size, and
      otherwise installs `populationSize` shuffled routes. The closing log
      statement reads the best distance, which sorts the population in
      place and throws when it is empty. */
  function InitializePopulation(e: Engine, config: GAConfig, shuffle: nat -> seq<real>)
    : (r: (Engine, Result<Population>))
    requires ShuffleStream(shuffle)
    ensures r.0.config == Some(config) && r.0.history == []
    ensures Lookup(Graph(), config.startCityId).None? ==> r.1 == Failure(IllegalArgument)
    ensures Lookup(Graph(), config.startCityId).None? || config.populationSize < 0 ==>
      r.0.population == e.population
    ensures r.1.Success? ==> r.0.population == Some(r.1.value) && Healthy(r.1.value) && r.1.value.sorted
    ensures r.1.Success? ==> |r.1.value.routes| == config.populationSize > 0
    ensures Reachable(e) ==> Reachable(r.0)
  {
    var e1 := e.(config := Some(config), history := []);
    match Lookup(Graph(), config.startCityId)
    case None => (e1, Failure(IllegalArgument))
    case Some(start) =>
      if config.populationSize < 0 then (e1, Failure(IllegalArgument))
      else
        var p := Population(InitialRoutes(start, config.populationSize, shuffle), false);
        var sorted := SortHealthy(p);
        var e2 := e1.(population := Some(sorted));
        if |sorted.routes| == 0 then (e2, Failure(IndexOutOfBounds))
        else (e2, Success(sorted))
  }

  /* ---------- One generation ---------- */

  /** The swap mutation with positions drawn from the route's size: a
      draw above the rate keeps the route, otherwise a copy is mutated
      (`MutateDrawnSwaps` states which cities it exchanges). */
  function MutateDrawn(r: Route, rate: real, d: SwapDraw): (m: Route)
    requires ValidSwapDraw(d)
    ensures Sound(r) ==> Sound(m)
    ensures m.start == r.start
    ensures d.chance > rate ==> m == r
    ensures d.chance <= rate && |r.cities| < 2 ==> m == CopyRoute(r)
  {
    var size := |r.cities|;
    var pos1 := Pick(d.first, size);
    Swap(r, rate, d.chance, pos1, PickOther(d.second, size, pos1)).route
  }

  /** Below the rate, a route of two or more cities comes back as a fresh
      copy whose cities at two distinct drawn positions are exchanged. */
  lemma MutateDrawnSwaps(r: Route, rate: real, d: SwapDraw)
    requires ValidSwapDraw(d) && d.chance <= rate && |r.cities| >= 2
    ensures var pos1 := Pick(d.first, |r.cities|);
      var pos2 := PickOther(d.second, |r.cities|, pos1);
      var m := MutateDrawn(r, rate, d);
      && pos1 < |r.cities| && pos2 < |r.cities| && pos1 != pos2
      && m.cities == r.cities[pos1 := r.cities[pos2]][pos2 := r.cities[pos1]]
      && m.distanceCache.None? && m.fitnessCache.None?
  {
  }

  /** PMX of the two parents when the crossover draw falls below the
      crossover rate (a percentage), copies of them otherwise. */
  function Recombine(parent1: Route, parent2: Route, config: GAConfig, draw: real)
    : (r: Result<(Route, Route)>)
    requires Sound(parent1) && Sound(parent2)
    ensures draw >= config.crossoverRate / 100.0 ==> r == Success((CopyRoute(parent1), CopyRoute(parent2)))
    ensures draw < config.crossoverRate / 100.0 ==>
      r == Crossover(parent1, parent2, config.crossoverPoint1, config.crossoverPoint2)
    ensures r.Success? ==> Sound(r.value.0) && Sound(r.value.1)
    ensures r.Success? ==> r.value.0.start == parent1.start && r.value.1.start == parent2.start
  {
    if draw < config.crossoverRate / 100.0 then
      Crossover(parent1, parent2, config.crossoverPoint1, config.crossoverPoint2)
    else Success((CopyRoute(parent1), CopyRoute(parent2)))
  }

  /** One iteration of the breeding loop: two tournaments of five, PMX or
      copies of the parents, then a swap mutation of each offspring. */
  function Breed(current: Population, config: GAConfig, b: Breeding): (r: Result<(Route, Route)>)
    requires Healthy(current) && ValidBreeding(b)
    ensures |current.routes| == 0 ==> r == Failure(IllegalArgument)
    ensures r.Success? ==> Sound(r.value.0) && Sound(r.value.1)
  {
    var n := |current.routes|;
    var t1 := Tournament(current, TournamentSize, Indices(b.tournament1, n));
    if t1.Failure? then Failure(t1.fault)
    else
      // the first tournament succeeded, so the population is not empty
      var parent2 := Tournament(current, TournamentSize, Indices(b.tournament2, n)).value;
      var pair := Recombine(t1.value, parent2, config, b.crossover);
      if pair.Failure? then Failure(pair.fault)
      else
        var rate := config.mutationRate / 100.0;
        Success((MutateDrawn(pair.value.0, rate, b.mutation1), MutateDrawn(pair.value.1, rate, b.mutation2)))
  }

  function Max(a: int, b: int): int { if a < b then b else a }

  /** Adds the first offspring, and the second while it still fits. */
  function Grow(next: seq<Route>, first: Route, second: Route, size: int): (n: seq<Route>)
    requires |next| < size
    ensures |n| == if |next| + 1 < size then |next| + 2 else |next| + 1
    ensures n[..|next|] == next && n[|next|] == first
    ensures forall i :: |next| < i < |n| ==> n[i] == second
    ensures (forall i :: 0 <= i < |next| ==> Sound(next[i])) && Sound(first) && Sound(second) ==>
      forall i :: 0 <= i < |n| ==> Sound(n[i])
  {
    var n1 := next + [first];
    if |n1| < size then n1 + [second] else n1
  }

  /** The breeding loop from iteration `k` on: while the new population is
      short of `populationSize`, breed two offspring and add each that
      still fits. */
  function Offspring(current: Population, config: GAConfig, stream: nat -> Breeding,
                     next: seq<Route>, k: nat): (r: Result<seq<Route>>)
    requires Healthy(current) && ValidStream(stream)
    requires forall i :: 0 <= i < |next| ==> Sound(next[i])
    ensures r.Success? ==> |r.value| == Max(|next|, config.populationSize)
    ensures r.Success? ==> r.value[..|next|] == next
    ensures r.Success? ==> forall i :: 0 <= i < |r.value| ==> Sound(r.value[i])
    decreases config.populationSize - |next|, 1
  {
    if |next| >= config.populationSize then Success(next)
    else BreedingStep(current, config, stream, next, k)
  }

  /** One pass of the breeding loop: breed a pair, add it, and go on. */
  function BreedingStep(current: Population, config: GAConfig, stream: nat -> Breeding,
                        next: seq<Route>, k: nat): (r: Result<seq<Route>>)
    requires Healthy(current) && ValidStream(stream) && |next| < config.populationSize
    requires forall i :: 0 <= i < |next| ==> Sound(next[i])
    ensures r.Success? ==> |r.value| == config.populationSize
    ensures r.Success? ==> r.value[..|next|] == next
    ensures r.Success? ==> forall i :: 0 <= i < |r.value| ==> Sound(r.value[i])
    decreases config.populationSize - |next|, 0
  {
    var pair := Breed(current, config, stream(k));
    if pair.Failure? then Failure(pair.fault)
    else
      var n := Grow(next, pair.value.0, pair.value.1, config.populationSize);
      var r := Offspring(current, config, stream, n, k + 1);
      if r.Success? then PrefixOfPrefix(r.value, n, next); r else r
  }

  lemma PrefixOfPrefix(s: seq<Route>, n: seq<Route>, next: seq<Route>)
    requires |next| <= |n| <= |s| && s[..|n|] == n && n[..|next|] == next
    ensures s[..|next|] == next
  {
    assert s[..|next|] == s[..|n|][..|next|];
  }

  /** The statistics a generation records: the best route and distance,
      the mean, the worst distance and the ten best routes, read from a
      sorted population. An empty population has no best route. */
  function Summary(p: Population, generation: int): (r: Result<GenerationResult>)
    requires Healthy(p) && p.sorted
    ensures r.Success? <==> |p.routes| > 0
    ensures r.Failure? ==> r.fault == IndexOutOfBounds
    ensures r.Success? ==> r.value.generation == generation
    ensures r.Success? ==> r.value.bestRoute in p.routes
    ensures r.Success? ==> r.value.bestDistance == TotalDistance(r.value.bestRoute)
    ensures r.Success? ==> forall i :: 0 <= i < |p.routes| ==>
      r.value.bestDistance <= TotalDistance(p.routes[i]) <= r.value.worstDistance
  {
    var best := BestRoute(p);
    if best.Failure? then Failure(best.fault)
    else
      var worst := WorstRoute(p);
      var top := TopRoutes(p, 10);
      Success(GenerationResult(generation, best.value, TotalDistance(best.value), AverageDistance(p),
                               TotalDistance(worst.value), top.value))
  }

  /** The population that replaces a sorted one: its elites, then the
      offspring of the breeding loop, sorted (reading the best route sorts
      it). A negative elite count fails. */
  function NextPopulation(current: Population, config: GAConfig, stream: nat -> Breeding)
    : (r: Result<Population>)
    requires Healthy(current) && current.sorted && ValidStream(stream)
    ensures config.elitismCount < 0 ==> r == Failure(IllegalArgument)
    ensures r.Success? ==> Healthy(r.value) && r.value.sorted
  {
    var elites := SelectElite(current, config.elitismCount);
    if elites.Failure? then Failure(elites.fault)
    else
      assert forall i :: 0 <= i < |elites.value| ==> elites.value[i] == current.routes[i];
      var routes := Offspring(current, config, stream, elites.value, 0);
      if routes.Failure? then Failure(routes.fault)
      else Success(SortHealthy(Population(routes.value, false)))
  }

  /** `evolveGeneration`: fails before any change when no population or
      configuration is installed, or when `new Population` rejects a
      negative size. Otherwise the elite selection sorts the current
      population in place, the elites open the new population, the breeding
      loop fills it, it replaces the current population, and its statistics
      are appended to the history. The generation gap is read but never
      used. */
  function EvolveGeneration(e: Engine, generation: int, stream: nat -> Breeding)
    : (r: (Engine, Result<GenerationResult>))
    requires Reachable(e) && ValidStream(stream)
    ensures Reachable(r.0) && r.0.config == e.config
    ensures r.0.population.Some? <==> e.population.Some?
    ensures e.population.None? || e.config.None? ==> r == (e, Failure(IllegalState))
    ensures r.1.Success? ==> r.0.history == e.history + [r.1.value]
    ensures r.1.Failure? ==> r.0.history == e.history
    ensures r.1.Success? ==> r.1.value.generation == generation
  {
    if e.population.None? || e.config.None? then (e, Failure(IllegalState))
    else
      var config := e.config.value;
      if config.populationSize < 0 then (e, Failure(IllegalArgument))
      else
        var current := SortHealthy(e.population.value);
        var e1 := e.(population := Some(current));
        var next := NextPopulation(current, config, stream);
        if next.Failure? then (e1, Failure(next.fault))
        else
          var e2 := e1.(population := Some(next.value));
          var result := Summary(next.value, generation);
          if result.Failure? then (e2, Failure(result.fault))
          else (e2.(history := e2.history + [result.value]), Success(result.value))
  }

  /** The largest Java `int`. */
  const IntMax: int := TwoTo31 - 1

  /** `gen++` on the generation loop's `int` counter, which wraps at 32
      bits: from `IntMax` it goes to the smallest `int`, so the loop test
      `gen <= IntMax` never fails. `Generations` counts without wrapping,
      so it agrees with the Java loop only for limits below `IntMax`. */
  function NextGeneration(g: int): (n: int)
    requires -TwoTo31 <= g <= IntMax
    ensures -TwoTo31 <= n <= IntMax
    ensures g < IntMax ==> n == g + 1
    ensures g == IntMax ==> n == -TwoTo31
  {
    Wrap32(g + 1)
  }

  /** The generation loop of `runGeneticAlgorithm` from `generation` up to
      `last`, stopping at the first failure. */
  function Generations(e: Engine, generation: int, last: int, streams: int -> nat -> Breeding)
    : (r: (Engine, Result<()>))
    requires Reachable(e) && forall g :: ValidStream(streams(g))
    ensures Reachable(r.0) && r.0.config == e.config
    ensures r.0.population.Some? <==> e.population.Some?
    ensures r.1.Success? ==> |r.0.history| == |e.history| + Max(0, last - generation + 1)
    ensures |r.0.history| >= |e.history| && r.0.history[..|e.history|] == e.history
    ensures NumberedFrom(r.0.history, |e.history|, generation)
    decreases last - generation + 1, 1
  {
    if generation > last then (e, Success(()))
    else GenerationStep(e, generation, last, streams)
  }

  /** One pass of the generation loop: evolve a generation and, if it
      succeeded, go on with the next. */
  function GenerationStep(e: Engine, generation: int, last: int, streams: int -> nat -> Breeding)
    : (r: (Engine, Result<()>))
    requires Reachable(e) && (forall g :: ValidStream(streams(g))) && generation <= last
    ensures Reachable(r.0) && r.0.config == e.config
    ensures r.0.population.Some? <==> e.population.Some?
    ensures r.1.Success? ==> |r.0.history| == |e.history| + (last - generation + 1)
    ensures |r.0.history| >= |e.history| && r.0.history[..|e.history|] == e.history
    ensures NumberedFrom(r.0.history, |e.history|, generation)
    decreases last - generation + 1, 0
  {
    var (e1, result) := EvolveGeneration(e, generation, streams(generation));
    if result.Failure? then (e1, Failure(result.fault))
    else
      var r := Generations(e1, generation + 1, last, streams);
      NumberedAfter(e.history, result.value, e1.history, r.0.history);
      r
  }

  /** The entries from `n` on are numbered on from `generation`, one by
      one. */
  predicate NumberedFrom(h: seq<GenerationResult>, n: nat, generation: int)
    decreases |h| - n
  {
    n < |h| ==> h[n].generation == generation && NumberedFrom(h, n + 1, generation + 1)
  }

  lemma NumberedAfter(before: seq<GenerationResult>, v: GenerationResult,
                      mid: seq<GenerationResult>, h: seq<GenerationResult>)
    requires mid == before + [v] && |h| >= |mid| && h[..|mid|] == mid
    requires NumberedFrom(h, |mid|, v.generation + 1)
    ensures |h| >= |before| && h[..|before|] == before
    ensures NumberedFrom(h, |before|, v.generation)
  {
    assert h[..|before|] == h[..|mid|][..|before|];
    assert h[|before|] == h[..|mid|][|before|];
  }


  /** `runGeneticAlgorithm`: initializes, records generation 0, evolves
      generations 1 to maxGenerations and returns the best route with the
      history. Every failure is rethrown wrapped; a null maxGenerations
      fails on unboxing. */
  function RunGeneticAlgorithm(e: Engine, config: GAConfig, shuffle: nat -> seq<real>,
                               streams: int -> nat -> Breeding): (r: (Engine, Result<ExecutionResult>))
    requires Reachable(e) && ShuffleStream(shuffle) && forall g :: ValidStream(streams(g))
    ensures Reachable(r.0)
    ensures r.1.Failure? ==> r.1.fault.Wrapped?
    ensures config.maxGenerations.None? ==> r.1.Failure?
  {
    var init := InitializePopulation(e, config, shuffle);
    if init.1.Failure? then (init.0, Failure(Wrapped(init.1.fault)))
    else Evolve(init.0, config, streams)
  }

  /** A run after a successful initialization: generation 0 is recorded,
      then generations 1 to maxGenerations evolve. */
  function Evolve(e: Engine, config: GAConfig, streams: int -> nat -> Breeding)
    : (r: (Engine, Result<ExecutionResult>))
    requires Reachable(e) && e.population.Some? && e.population.value.sorted
    requires |e.population.value.routes| > 0 && forall g :: ValidStream(streams(g))
    ensures Reachable(r.0)
    ensures r.1.Failure? ==> r.1.fault.Wrapped?
    ensures config.maxGenerations.None? ==> r.1 == Failure(Wrapped(NullPointer))
  {
    var initial := Summary(e.population.value, 0).value;
    var e1 := e.(history := e.history + [initial]);
    if config.maxGenerations.None? then (e1, Failure(Wrapped(NullPointer)))
    else
      var run := Generations(e1, 1, config.maxGenerations.value, streams);
      if run.1.Failure? then (run.0, Failure(Wrapped(run.1.fault)))
      else Finish(run.0, config, config.maxGenerations.value)
  }

  /** The end of a run: the best route of the (sorted) final population. */
  function Finish(e: Engine, config: GAConfig, maxGenerations: int): (r: (Engine, Result<ExecutionResult>))
    requires Reachable(e) && e.population.Some?
    ensures Reachable(r.0) && r.0.history == e.history
    ensures r.1.Failure? ==> r.1 == Failure(Wrapped(IndexOutOfBounds))
    ensures r.1.Success? ==> r.1.value.history == e.history && r.1.value.maxGenerations == maxGenerations
    ensures r.1.Success? ==> r.1.value.bestRoute in e.population.value.routes
    ensures r.1.Success? ==> Sound(r.1.value.bestRoute)
    ensures r.1.Success? ==> r.1.value.bestDistance == TotalDistance(r.1.value.bestRoute)
    ensures r.1.Success? ==> forall i :: 0 <= i < |e.population.value.routes| ==>
      r.1.value.bestDistance <= TotalDistance(e.population.value.routes[i])
  {
    var p := SortHealthy(e.population.value);
    SortedMembers(e.population.value);
    assert forall i :: 0 <= i < |e.population.value.routes| ==> e.population.value.routes[i] in multiset(p.routes);
    var best := BestRoute(p);
    var e1 := e.(population := Some(p));
    if best.Failure? then (e1, Failure(Wrapped(best.fault)))
    else
      (e1, Success(ExecutionResult(best.value, TotalDistance(best.value), maxGenerations, e1.history, config)))
  }

  /** The statistics `getPopulationStats` reports. */
  datatype Stats =
    | NoPopulation
    | Stats(size: nat, bestDistance: nat, averageDistance: real, worstDistance: nat,
            bestRoute: seq<string>)

  /** The statistics of a sorted population; reading the best distance of
      an empty one throws. */
  function StatsOf(p: Population): (r: Result<Stats>)
    requires Healthy(p) && p.sorted
    ensures r.Failure? <==> |p.routes| == 0
    ensures r.Failure? ==> r.fault == IndexOutOfBounds
    ensures r.Success? ==> r.value.Stats? && r.value.size == |p.routes|
    ensures r.Success? ==> forall i :: 0 <= i < |p.routes| ==>
      r.value.bestDistance <= TotalDistance(p.routes[i]) <= r.value.worstDistance
  {
    var best := BestRoute(p);
    if best.Failure? then Failure(best.fault)
    else
      var worst := WorstRoute(p);
      Success(Stats(|p.routes|, TotalDistance(best.value), AverageDistance(p),
                    TotalDistance(worst.value), CityNames(best.value)))
  }

  /** `getPopulationStats`: an error entry without a population; otherwise
      the statistics of the population, which reading the best distance
      sorts in place. */
  function PopulationStats(e: Engine): (r: (Engine, Result<Stats>))
    requires Reachable(e)
    ensures Reachable(r.0) && r.0.history == e.history && r.0.config == e.config
    ensures e.population.None? ==> r.1 == Success(NoPopulation)
    ensures e.population.Some? ==> (r.1.Failure? <==> |e.population.value.routes| == 0)
    ensures e.population.Some? && r.1.Success? ==>
      r.1.value.Stats? && r.1.value.size == |e.population.value.routes|
  {
    if e.population.None? then (e, Success(NoPopulation))
    else
      var p := SortHealthy(e.population.value);
      (e.(population := Some(p)), StatsOf(p))
  }

  /** `getHistory`: a copy of the recorded generations. */
  function History(e: Engine): (h: seq<GenerationResult>)
    ensures |h| == |e.history| && forall i :: 0 <= i < |h| ==> h[i] == e.history[i]
  {
    e.history
  }
}

=== FILE: engine_properties.dfy ===
/** Properties of the engine across calls: every route a run holds is a
    tour from the start city, elitism never loses the best route, the
    generation gap has no effect, and a run with a usable configuration
    records one entry per generation. */
module EngineProperties {

  import opened Wrappers
  import opened Cities
  import opened Distances
  import opened Routes
  import opened Permutations
  import opened Populations
  import opened Pmx
  import Mutation
  import opened Selection
  import opened Config
  import opened Engine

  /* ---------- The graph ---------- */

  /** The graph's cities have distinct ids, each with a row in the table. */
  lemma GraphMatchesTable()
    ensures forall i, j :: 0 <= i < j < |Graph()| ==> Graph()[i].id != Graph()[j].id
    ensures forall i :: 0 <= i < |Graph()| ==> IndexOf(Graph()[i].id).Some?
  {
  }

  /** `Graph` lists the cities in the order `cities.values()` yields them:
      the ids put into the map are single letters, each hashing to its
      character code, and `Cities.LetterBuckets` shows that these codes
      fall into increasing buckets in this order. */
  lemma GraphInHashOrder()
    ensures forall i :: 0 <= i < |Graph()| ==>
      Graph()[i].id == HashOrder[i] && HashCode(Graph()[i]) == HashOrder[i][0] as int
  {
    forall i | 0 <= i < |Graph()|
      ensures HashCode(Graph()[i]) == HashOrder[i][0] as int
    {
      LetterHash(Graph()[i].id);
    }
  }

  /** The ids put into the map in `initializeGraph`, in bucket order. */
  const HashOrder: seq<string> := ["C", "E", "F", "G", "H", "K", "L", "N"]

  lemma {:induction false} RemoveFirstAt(s: seq<City>, c: City, k: nat)
    requires k < |s| && s[k].id == c.id
    requires forall j :: 0 <= j < k ==> s[j].id != c.id
    ensures RemoveFirst(s, c) == s[..k] + s[k + 1..]
  {
    if k > 0 {
      RemoveFirstAt(s[1..], c, k - 1);
      assert s[1..][..k - 1] == s[1..k];
      assert s[1..][k..] == s[k + 1..];
      assert [s[0]] + s[1..k] == s[..k];
    }
  }

  /** Cities with distinct ids, less the one at `k`: still distinct, none
      sharing its id, and together with it the same multiset. */
  lemma RemoveAtFacts(g: seq<City>, k: nat)
    requires k < |g| && forall i, j :: 0 <= i < j < |g| ==> g[i].id != g[j].id
    ensures var o := g[..k] + g[k + 1..];
      && Distinct(o)
      && (forall c :: c in o ==> c.id != g[k].id)
      && IsPermutation([g[k]] + o, g)
  {
    var o := g[..k] + g[k + 1..];
    assert forall i :: 0 <= i < |o| ==> o[i] == g[if i < k then i else i + 1];
    forall i, j | 0 <= i < j < |o| ensures o[i] != o[j] {
      assert o[i].id != o[j].id;
    }
    assert g == g[..k] + [g[k]] + g[k + 1..];
    assert multiset([g[k]] + o) == multiset(g[..k] + [g[k]] + g[k + 1..]);
  }

  /** The cities a route from `start` must visit: the seven others, each
      once, which with the start make up the whole graph. */
  lemma OthersOfStart(start: City)
    requires start in Graph()
    ensures |Others(start)| == 7 && Distinct(Others(start))
    ensures forall c :: c in Others(start) ==> c.id != start.id
    ensures IsPermutation([start] + Others(start), Graph())
  {
    var g := Graph();
    GraphMatchesTable();
    var k :| 0 <= k < |g| && g[k] == start;
    RemoveFirstAt(g, start, k);
    RemoveAtFacts(g, k);
  }

  /* ---------- Tours ---------- */

  /** The route starts at `start` and orders the other cities. */
  predicate Tour(r: Route, start: City) {
    start in Graph() && r.start == start && IsPermutation(r.cities, Others(start))
  }

  predicate ToursFrom(rs: seq<Route>, start: City) {
    forall i :: 0 <= i < |rs| ==> Tour(rs[i], start)
  }

  /** The initial population is made of tours from the start city. */
  lemma InitializeBuildsTours(e: Engine, config: GAConfig, shuffle: nat -> seq<real>)
    requires ShuffleStream(shuffle)
    ensures var r := InitializePopulation(e, config, shuffle);
      r.1.Success? ==> ToursFrom(r.1.value.routes, Lookup(Graph(), config.startCityId).value)
  {
    var start := Lookup(Graph(), config.startCityId);
    if start.Some? && config.populationSize >= 0 {
      var p := Population(InitialRoutes(start.value, config.populationSize, shuffle), false);
      SortKeepsTours(p, start.value);
    }
  }

  /** Initialization fails exactly on an unknown start city or a size
      below one; with size zero it has already installed the empty
      population when the closing log statement throws. */
  lemma InitializeOutcome(e: Engine, config: GAConfig, shuffle: nat -> seq<real>)
    requires ShuffleStream(shuffle)
    ensures var r := InitializePopulation(e, config, shuffle);
      (r.1.Failure? <==> Lookup(Graph(), config.startCityId).None? || config.populationSize <= 0)
    ensures var r := InitializePopulation(e, config, shuffle);
      Lookup(Graph(), config.startCityId).Some? && config.populationSize == 0 ==>
        r.1 == Failure(IndexOutOfBounds) && r.0.population.Some? && r.0.population.value.routes == []
  {
  }

  /** The swap mutation with drawn positions only rearranges the cities,
      so it turns a tour into a tour. */
  lemma MutateDrawnPermutes(r: Route, rate: real, d: SwapDraw, start: City)
    requires ValidSwapDraw(d)
    ensures Tour(r, start) ==> Tour(MutateDrawn(r, rate, d), start)
  {
    MutateDrawnRearranges(r, rate, d);
  }

  /** The swap mutation with drawn positions keeps the start and permutes
      the cities. */
  lemma MutateDrawnRearranges(r: Route, rate: real, d: SwapDraw)
    requires ValidSwapDraw(d)
    ensures IsPermutation(MutateDrawn(r, rate, d).cities, r.cities)
  {
    var size := |r.cities|;
    var pos1 := Pick(d.first, size);
    Mutation.SwapPreservesCities(r, rate, d.chance, pos1, PickOther(d.second, size, pos1));
  }

  /** A tournament winner is one of the population's tours. */
  lemma WinnerIsTour(current: Population, draws: seq<real>, start: City)
    requires Healthy(current) && ToursFrom(current.routes, start)
    requires forall k :: 0 <= k < |draws| ==> Unit(draws[k])
    requires |draws| == TournamentSize
    ensures var t := Tournament(current, TournamentSize, Indices(draws, |current.routes|));
      t.Success? ==> Tour(t.value, start) && Sound(t.value)
  {
    var t := Tournament(current, TournamentSize, Indices(draws, |current.routes|));
    if t.Success? {
      var i :| 0 <= i < |current.routes| && current.routes[i] == t.value;
    }
  }

  /** Recombining two tours yields tours, and always succeeds when the
      cut points suit seven cities. */
  lemma RecombineKeepsTours(parent1: Route, parent2: Route, config: GAConfig, draw: real, start: City)
    requires Sound(parent1) && Sound(parent2)
    requires start in Graph() && Tour(parent1, start) && Tour(parent2, start)
    ensures var r := Recombine(parent1, parent2, config, draw);
      r.Success? ==> Tour(r.value.0, start) && Tour(r.value.1, start)
    ensures !CutPointsRejected(config.crossoverPoint1, config.crossoverPoint2, 7) ==>
      Recombine(parent1, parent2, config, draw).Success?
  {
    OthersOfStart(start);
    RecombinePermutes(parent1, parent2, config, draw, Others(start));
  }

  /** Recombining two arrangements of a list without repeated cities gives
      two arrangements of it, and succeeds whenever the cut points suit its
      length. */
  lemma RecombinePermutes(parent1: Route, parent2: Route, config: GAConfig, draw: real, o: seq<City>)
    requires Sound(parent1) && Sound(parent2)
    requires IsPermutation(parent1.cities, o) && IsPermutation(parent2.cities, o) && Distinct(o)
    ensures var r := Recombine(parent1, parent2, config, draw);
      r.Success? ==> IsPermutation(r.value.0.cities, o) && IsPermutation(r.value.1.cities, o)
    ensures !CutPointsRejected(config.crossoverPoint1, config.crossoverPoint2, |o|) ==>
      Recombine(parent1, parent2, config, draw).Success?
  {
    var p1, p2 := config.crossoverPoint1, config.crossoverPoint2;
    assert |parent1.cities| == |multiset(parent1.cities)| == |multiset(o)| == |o|;
    PermutationKeepsDistinct(parent1.cities, o);
    if draw < config.crossoverRate / 100.0 {
      assert Recombine(parent1, parent2, config, draw) == Crossover(parent1, parent2, p1, p2);
      if !CutPointsRejected(p1, p2, |o|) {
        CrossoverPreservesPermutation(parent1, parent2, p1, p2);
      }
    }
  }

  /** Breeding from tours yields tours, and it succeeds whenever the
      population is not empty and the cut points suit seven cities. */
  lemma BreedKeepsTours(current: Population, config: GAConfig, b: Breeding, start: City)
    requires Healthy(current) && ValidBreeding(b)
    requires start in Graph() && ToursFrom(current.routes, start)
    ensures var r := Breed(current, config, b);
      r.Success? ==> Tour(r.value.0, start) && Tour(r.value.1, start)
    ensures |current.routes| > 0 && !CutPointsRejected(config.crossoverPoint1, config.crossoverPoint2, 7) ==>
      Breed(current, config, b).Success?
  {
    var o := Others(start);
    OthersOfStart(start);
    forall i | 0 <= i < |current.routes|
      ensures current.routes[i].start == start && IsPermutation(current.routes[i].cities, o)
    {
      assert Tour(current.routes[i], start);
    }
    BreedPermutes(current, config, b, start, o);
  }

  /** Every route starts at `start` and arranges the cities of `o`. */
  predicate Arranged(rs: seq<Route>, start: City, o: seq<City>) {
    forall i :: 0 <= i < |rs| ==> rs[i].start == start && IsPermutation(rs[i].cities, o)
  }

  /** A tournament winner is one of the population's routes, so it shares
      their start and their cities. */
  lemma WinnerArranged(current: Population, draws: seq<real>, start: City, o: seq<City>)
    requires Healthy(current) && Arranged(current.routes, start, o)
    requires forall k :: 0 <= k < |draws| ==> Unit(draws[k])
    requires |draws| == TournamentSize
    ensures var t := Tournament(current, TournamentSize, Indices(draws, |current.routes|));
      t.Success? ==> t.value.start == start && IsPermutation(t.value.cities, o)
  {
    var t := Tournament(current, TournamentSize, Indices(draws, |current.routes|));
    if t.Success? {
      var i :| 0 <= i < |current.routes| && current.routes[i] == t.value;
    }
  }

  /** Breeding from arrangements of a list without repeated cities yields
      two such arrangements from the same start, and succeeds whenever the
      population is not empty and the cut points suit the list's length. */
  lemma BreedPermutes(current: Population, config: GAConfig, b: Breeding, start: City, o: seq<City>)
    requires Healthy(current) && ValidBreeding(b)
    requires Distinct(o) && Arranged(current.routes, start, o)
    ensures var r := Breed(current, config, b);
      r.Success? ==> && r.value.0.start == start && IsPermutation(r.value.0.cities, o)
                     && r.value.1.start == start && IsPermutation(r.value.1.cities, o)
    ensures |current.routes| > 0 && !CutPointsRejected(config.crossoverPoint1, config.crossoverPoint2, |o|) ==>
      Breed(current, config, b).Success?
  {
    var n := |current.routes|;
    var t1 := Tournament(current, TournamentSize, Indices(b.tournament1, n));
    WinnerArranged(current, b.tournament1, start, o);
    WinnerArranged(current, b.tournament2, start, o);
    if t1.Success? {
      var parent2 := Tournament(current, TournamentSize, Indices(b.tournament2, n)).value;
      RecombinePermutes(t1.value, parent2, config, b.crossover, o);
      BreedFromPair(current, config, b, t1.value, parent2, o);
    }
  }

  /** The last stage of breeding: once both tournaments have produced
      arrangements, the mutated offspring of their recombination are
      arrangements too. */
  lemma BreedFromPair(current: Population, config: GAConfig, b: Breeding,
                      parent1: Route, parent2: Route, o: seq<City>)
    requires Healthy(current) && ValidBreeding(b)
    requires Tournament(current, TournamentSize, Indices(b.tournament1, |current.routes|)) == Success(parent1)
    requires Tournament(current, TournamentSize, Indices(b.tournament2, |current.routes|)).Success?
    requires Tournament(current, TournamentSize, Indices(b.tournament2, |current.routes|)).value == parent2
    requires var pair := Recombine(parent1, parent2, config, b.crossover);
      pair.Success? ==> IsPermutation(pair.value.0.cities, o) && IsPermutation(pair.value.1.cities, o)
    ensures var r := Breed(current, config, b);
      r.Success? ==> && r.value.0.start == parent1.start && IsPermutation(r.value.0.cities, o)
                     && r.value.1.start == parent2.start && IsPermutation(r.value.1.cities, o)
    ensures Recombine(parent1, parent2, config, b.crossover).Success? ==> Breed(current, config, b).Success?
  {
    var pair := Recombine(parent1, parent2, config, b.crossover);
    if pair.Success? {
      var rate := config.mutationRate / 100.0;
      MutateDrawnRearranges(pair.value.0, rate, b.mutation1);
      MutateDrawnRearranges(pair.value.1, rate, b.mutation2);
      assert Breed(current, config, b) ==
        Success((MutateDrawn(pair.value.0, rate, b.mutation1), MutateDrawn(pair.value.1, rate, b.mutation2)));
    }
  }

  /** The breeding loop adds only tours, and fails only through a failed
      breeding step. */
  lemma {:induction false} OffspringKeepsTours(current: Population, config: GAConfig,
      stream: nat -> Breeding, next: seq<Route>, k: nat, start: City)
    requires Healthy(current) && ValidStream(stream)
    requires forall i :: 0 <= i < |next| ==> Sound(next[i])
    requires start in Graph() && ToursFrom(current.routes, start) && ToursFrom(next, start)
    ensures var r := Offspring(current, config, stream, next, k);
      r.Success? ==> ToursFrom(r.value, start)
    ensures |current.routes| > 0 && !CutPointsRejected(config.crossoverPoint1, config.crossoverPoint2, 7) ==>
      Offspring(current, config, stream, next, k).Success?
    decreases config.populationSize - |next|
  {
    if |next| < config.populationSize {
      OffspringStep(current, config, stream, next, k, start);
      if Offspring(current, config, stream, next, k).Success?
        || (|current.routes| > 0 && !CutPointsRejected(config.crossoverPoint1, config.crossoverPoint2, 7))
      {
        var n :| SteppedTo(current, config, stream, next, k, n, start);
        OffspringKeepsTours(current, config, stream, n, k + 1, start);
      }
    }
  }

  /** One pass of the breeding loop took `next` to `n`: it grew, stayed made
      of tours, and the rest of the loop goes on from `n`. */
  predicate SteppedTo(current: Population, config: GAConfig, stream: nat -> Breeding,
      next: seq<Route>, k: nat, n: seq<Route>, start: City)
    requires Healthy(current) && ValidStream(stream)
    requires forall i :: 0 <= i < |next| ==> Sound(next[i])
  {
    && |next| < |n|
    && (forall i :: 0 <= i < |n| ==> Sound(n[i]))
    && ToursFrom(n, start)
    && Offspring(current, config, stream, next, k) == Offspring(current, config, stream, n, k + 1)
  }

  /** A pass of the breeding loop over tours either fails, which needs an
      empty population or unusable cut points, or steps on to more tours. */
  lemma OffspringStep(current: Population, config: GAConfig, stream: nat -> Breeding,
      next: seq<Route>, k: nat, start: City)
    requires Healthy(current) && ValidStream(stream) && |next| < config.populationSize
    requires forall i :: 0 <= i < |next| ==> Sound(next[i])
    requires start in Graph() && ToursFrom(current.routes, start) && ToursFrom(next, start)
    ensures Offspring(current, config, stream, next, k).Success?
      || (|current.routes| > 0 && !CutPointsRejected(config.crossoverPoint1, config.crossoverPoint2, 7))
      ==> exists n :: SteppedTo(current, config, stream, next, k, n, start)
  {
    var pair := Breed(current, config, stream(k));
    BreedKeepsTours(current, config, stream(k), start);
    OffspringUnfold(current, config, stream, next, k);
    if pair.Success? {
      var n := Grow(next, pair.value.0, pair.value.1, config.populationSize);
      GrowKeepsTours(next, pair.value.0, pair.value.1, config.populationSize, start);
      assert SteppedTo(current, config, stream, next, k, n, start);
    }
  }

  /** One pass of the breeding loop, unfolded. */
  lemma OffspringUnfold(current: Population, config: GAConfig, stream: nat -> Breeding,
      next: seq<Route>, k: nat)
    requires Healthy(current) && ValidStream(stream) && |next| < config.populationSize
    requires forall i :: 0 <= i < |next| ==> Sound(next[i])
    ensures var pair := Breed(current, config, stream(k));
      pair.Failure? ==> Offspring(current, config, stream, next, k) == Failure(pair.fault)
    ensures var pair := Breed(current, config, stream(k));
      var n := if pair.Success? then Grow(next, pair.value.0, pair.value.1, config.populationSize) else next;
      pair.Success? ==> Offspring(current, config, stream, next, k) == Offspring(current, config, stream, n, k + 1)
  {
  }

  lemma GrowKeepsTours(next: seq<Route>, first: Route, second: Route, size: int, start: City)
    requires |next| < size && ToursFrom(next, start) && Tour(first, start) && Tour(second, start)
    ensures ToursFrom(Grow(next, first, second, size), start)
  {
    var n := Grow(next, first, second, size);
    forall i | 0 <= i < |n| ensures Tour(n[i], start) {
      if i < |next| {
        assert n[i] == n[..|next|][i];
      }
    }
  }

  /* ---------- One generation ---------- */

  /** Sorting keeps the routes, so it keeps them tours. */
  lemma SortKeepsTours(p: Population, start: City)
    requires Invariant(p) && ToursFrom(p.routes, start)
    ensures ToursFrom(SortByFitness(p).routes, start)
    ensures |SortByFitness(p).routes| == |p.routes|
  {
    SortedMembers(p);
    var q := SortByFitness(p);
    assert |q.routes| == |multiset(q.routes)| == |multiset(p.routes)| == |p.routes|;
    forall i | 0 <= i < |q.routes| ensures Tour(q.routes[i], start) {
      assert q.routes[i] in p.routes;
    }
  }

  /** A configuration one generation can use without failing: a positive
      size, a non-negative elite count and cut points that PMX accepts for
      seven cities. */
  predicate Evolvable(config: GAConfig) {
    && config.populationSize > 0
    && config.elitismCount >= 0
    && !CutPointsRejected(config.crossoverPoint1, config.crossoverPoint2, 7)
  }

  /** A configuration a whole run can use: an evolvable one with a
      registered start city and a generation limit below `Integer.MAX_VALUE`
      (at that limit the `int` loop counter wraps and the run never ends). */
  predicate Runnable(config: GAConfig) {
    && Lookup(Graph(), config.startCityId).Some?
    && config.maxGenerations.Some? && config.maxGenerations.value < IntMax
    && Evolvable(config)
  }

  /** The next population is made of tours, and it is not empty when the
      current one is not and the configuration is evolvable. */
  lemma NextPopulationKeepsTours(current: Population, config: GAConfig, stream: nat -> Breeding, start: City)
    requires Healthy(current) && current.sorted && ValidStream(stream)
    requires start in Graph() && ToursFrom(current.routes, start)
    ensures var r := NextPopulation(current, config, stream);
      r.Success? ==> ToursFrom(r.value.routes, start)
    ensures Evolvable(config) && |current.routes| > 0 ==>
      var r := NextPopulation(current, config, stream);
      r.Success? && |r.value.routes| > 0
  {
    var elites := SelectElite(current, config.elitismCount);
    if elites.Success? {
      assert forall i :: 0 <= i < |elites.value| ==> elites.value[i] == current.routes[i];
      OffspringKeepsTours(current, config, stream, elites.value, 0, start);
      var routes := Offspring(current, config, stream, elites.value, 0);
      if routes.Success? {
        SortKeepsTours(Population(routes.value, false), start);
      }
    }
  }

  /** The next population holds as many routes as the elites or the
      configured size, whichever is more, and every elite. */
  lemma NextPopulationShape(current: Population, config: GAConfig, stream: nat -> Breeding)
    requires Healthy(current) && current.sorted && ValidStream(stream)
    ensures var r := NextPopulation(current, config, stream);
      var kept := if config.elitismCount < |current.routes| then config.elitismCount else |current.routes|;
      r.Success? ==>
        && |r.value.routes| == Max(kept, config.populationSize)
        && forall i :: 0 <= i < kept ==> current.routes[i] in r.value.routes
  {
    var elites := SelectElite(current, config.elitismCount);
    if elites.Success? {
      assert forall i :: 0 <= i < |elites.value| ==> elites.value[i] == current.routes[i];
      var routes := Offspring(current, config, stream, elites.value, 0);
      if routes.Success? {
        var next := SortByFitness(Population(routes.value, false));
        assert |next.routes| == |multiset(next.routes)| == |multiset(routes.value)| == |routes.value|;
        forall i | 0 <= i < |elites.value| ensures current.routes[i] in next.routes {
          assert routes.value[i] == routes.value[..|elites.value|][i];
          assert routes.value[i] in multiset(next.routes);
        }
      }
    }
  }

  /** A generation keeps every route a tour from the start city, whatever
      its outcome, and it succeeds on a non-empty population with an
      evolvable configuration, leaving a non-empty population. */
  lemma EvolveKeepsTours(e: Engine, generation: int, stream: nat -> Breeding, start: City)
    requires Reachable(e) && ValidStream(stream) && e.population.Some?
    requires start in Graph() && ToursFrom(e.population.value.routes, start)
    ensures var r := EvolveGeneration(e, generation, stream);
      ToursFrom(r.0.population.value.routes, start)
    ensures e.config.Some? && Evolvable(e.config.value) && |e.population.value.routes| > 0 ==>
      var r := EvolveGeneration(e, generation, stream);
      r.1.Success? && |r.0.population.value.routes| > 0
  {
    SortKeepsTours(e.population.value, start);
    if e.config.Some? {
      NextPopulationKeepsTours(SortHealthy(e.population.value), e.config.value, stream, start);
    }
  }

  /** A negative population size fails in `new Population`, and a negative
      elitism count in `subList`; both are IllegalArgumentException, and the
      history is left alone. */
  lemma NegativeCountsFail(e: Engine, generation: int, stream: nat -> Breeding)
    requires Reachable(e) && ValidStream(stream) && e.population.Some? && e.config.Some?
    requires e.config.value.populationSize < 0 || e.config.value.elitismCount < 0
    ensures var r := EvolveGeneration(e, generation, stream);
      r.1 == Failure(IllegalArgument) && r.0.history == e.history
  {
    if e.config.value.populationSize >= 0 {
      var current := SortHealthy(e.population.value);
      assert NextPopulation(current, e.config.value, stream) == Failure(IllegalArgument);
    }
  }

  /** The population a successful generation leaves: as many routes as the
      elites or the configured size, whichever is more, with every elite
      among them. */
  lemma EvolveShape(e: Engine, generation: int, stream: nat -> Breeding)
    requires Reachable(e) && ValidStream(stream) && e.population.Some? && e.config.Some?
    ensures var r := EvolveGeneration(e, generation, stream);
      var before := e.population.value;
      var config := e.config.value;
      var kept := if config.elitismCount < |before.routes| then config.elitismCount else |before.routes|;
      r.1.Success? ==>
        && |r.0.population.value.routes| == Max(kept, config.populationSize)
        && forall i :: 0 <= i < kept ==> SortByFitness(before).routes[i] in r.0.population.value.routes
  {
    var current := SortHealthy(e.population.value);
    assert |current.routes| == |multiset(current.routes)| == |e.population.value.routes|;
    NextPopulationShape(current, e.config.value, stream);
  }

  /** Elitism never loses ground: with at least one elite, the best
      distance a generation records is no longer than any route of the
      population it started from. */
  lemma ElitismNonRegression(e: Engine, generation: int, stream: nat -> Breeding)
    requires Reachable(e) && ValidStream(stream) && e.population.Some? && e.config.Some?
    requires e.config.value.elitismCount >= 1
    ensures var r := EvolveGeneration(e, generation, stream);
      r.1.Success? ==> forall i :: 0 <= i < |e.population.value.routes| ==>
        r.1.value.bestDistance <= TotalDistance(e.population.value.routes[i])
  {
    var before := e.population.value;
    var current := SortHealthy(before);
    var next := NextPopulation(current, e.config.value, stream);
    NextPopulationShape(current, e.config.value, stream);
    if next.Success? && |before.routes| > 0 {
      assert |current.routes| == |multiset(current.routes)| == |before.routes|;
      var j :| 0 <= j < |next.value.routes| && next.value.routes[j] == current.routes[0];
      forall i | 0 <= i < |before.routes|
        ensures TotalDistance(current.routes[0]) <= TotalDistance(before.routes[i])
      {
        assert before.routes[i] in multiset(current.routes);
      }
    }
  }

  /* ---------- The generation gap ---------- */

  lemma BreedIgnoresGap(current: Population, config: GAConfig, gap: real, b: Breeding)
    requires Healthy(current) && ValidBreeding(b)
    ensures Breed(current, config.(generationGap := gap), b) == Breed(current, config, b)
  {
    var c := config.(generationGap := gap);
    var n := |current.routes|;
    var t1 := Tournament(current, TournamentSize, Indices(b.tournament1, n));
    if t1.Success? {
      var t2 := Tournament(current, TournamentSize, Indices(b.tournament2, n));
      assert Recombine(t1.value, t2.value, c, b.crossover) == Recombine(t1.value, t2.value, config, b.crossover);
    }
  }

  lemma {:induction false} OffspringIgnoresGap(current: Population, config: GAConfig, gap: real,
      stream: nat -> Breeding, next: seq<Route>, k: nat)
    requires Healthy(current) && ValidStream(stream)
    requires forall i :: 0 <= i < |next| ==> Sound(next[i])
    ensures Offspring(current, config.(generationGap := gap), stream, next, k)
         == Offspring(current, config, stream, next, k)
    decreases config.populationSize - |next|
  {
    var c := config.(generationGap := gap);
    if |next| < config.populationSize {
      BreedIgnoresGap(current, config, gap, stream(k));
      var pair := Breed(current, config, stream(k));
      if pair.Success? {
        var n := Grow(next, pair.value.0, pair.value.1, config.populationSize);
        OffspringIgnoresGap(current, config, gap, stream, n, k + 1);
      }
    }
  }

  /** The configured generation gap changes nothing a generation does. */
  lemma GenerationGapIgnored(e: Engine, generation: int, stream: nat -> Breeding, gap: real)
    requires Reachable(e) && ValidStream(stream) && e.config.Some?
    ensures var e' := e.(config := Some(e.config.value.(generationGap := gap)));
      var r := EvolveGeneration(e, generation, stream);
      var r' := EvolveGeneration(e', generation, stream);
      r'.1 == r.1 && r'.0.population == r.0.population && r'.0.history == r.0.history
  {
    var config := e.config.value;
    if e.population.Some? && config.populationSize >= 0 {
      var current := SortHealthy(e.population.value);
      var elites := SelectElite(current, config.elitismCount);
      if elites.Success? {
        assert forall i :: 0 <= i < |elites.value| ==> elites.value[i] == current.routes[i];
        OffspringIgnoresGap(current, config, gap, stream, elites.value, 0);
      }
      assert NextPopulation(current, config.(generationGap := gap), stream) == NextPopulation(current, config, stream);
    }
  }

  /* ---------- Whole runs ---------- */

  /** Some route of the population is no longer than `d`. */
  predicate Reaches(p: Population, d: int)
    requires Invariant(p)
  {
    exists i :: 0 <= i < |p.routes| && TotalDistance(p.routes[i]) <= d
  }

  lemma SortKeepsReach(p: Population, d: int)
    requires Invariant(p) && Reaches(p, d)
    ensures Reaches(SortByFitness(p), d)
  {
    var q := SortByFitness(p);
    var i :| 0 <= i < |p.routes| && TotalDistance(p.routes[i]) <= d;
    assert p.routes[i] in multiset(q.routes);
    var j :| 0 <= j < |q.routes| && q.routes[j] == p.routes[i];
  }

  /** With elitism, the next population keeps the best route of the
      current one, so it still reaches whatever the current one reaches. */
  lemma NextPopulationKeepsReach(current: Population, config: GAConfig, stream: nat -> Breeding, d: int)
    requires Healthy(current) && current.sorted && ValidStream(stream)
    requires config.elitismCount >= 1 && Reaches(current, d)
    ensures var r := NextPopulation(current, config, stream);
      r.Success? ==> |r.value.routes| > 0 && Reaches(r.value, d)
  {
    var r := NextPopulation(current, config, stream);
    NextPopulationShape(current, config, stream);
    if r.Success? {
      var i :| 0 <= i < |current.routes| && TotalDistance(current.routes[i]) <= d;
      assert TotalDistance(current.routes[0]) <= d;
      var j :| 0 <= j < |r.value.routes| && r.value.routes[j] == current.routes[0];
    }
  }

  /** With elitism, a generation keeps a route no longer than `d`, records
      a best distance no longer than `d`, and keeps the route it records. */
  lemma EvolveKeepsBest(e: Engine, generation: int, stream: nat -> Breeding, d: int)
    requires Reachable(e) && ValidStream(stream) && e.population.Some? && e.config.Some?
    requires e.config.value.elitismCount >= 1 && Reaches(e.population.value, d)
    ensures var r := EvolveGeneration(e, generation, stream);
      Reaches(r.0.population.value, d)
    ensures var r := EvolveGeneration(e, generation, stream);
      r.1.Success? ==> r.1.value.bestDistance <= d && Reaches(r.0.population.value, r.1.value.bestDistance)
  {
    var r := EvolveGeneration(e, generation, stream);
    if e.config.value.populationSize < 0 {
      assert r.0 == e;
    } else {
      var current := SortHealthy(e.population.value);
      SortKeepsReach(e.population.value, d);
      var next := NextPopulation(current, e.config.value, stream);
      NextPopulationKeepsReach(current, e.config.value, stream, d);
      if next.Success? {
        var s := Summary(next.value, generation).value;
        var i :| 0 <= i < |next.value.routes| && TotalDistance(next.value.routes[i]) <= d;
        var j :| 0 <= j < |next.value.routes| && next.value.routes[j] == s.bestRoute;
        assert r.1 == Success(s);
        assert r.0.population.value == next.value;
      } else {
        assert r.0.population.value == current;
      }
    }
  }

  lemma {:induction false} NumberedMeansConsecutive(h: seq<GenerationResult>, n: nat, generation: int)
    requires NumberedFrom(h, n, generation)
    ensures forall i :: n <= i < |h| ==> h[i].generation == generation + (i - n)
    decreases |h| - n
  {
    if n < |h| {
      NumberedMeansConsecutive(h, n + 1, generation + 1);
    }
  }

  /** The best distances from `n` on start within `d`, and each is within
      the one before. */
  predicate ImprovingFrom(h: seq<GenerationResult>, n: nat, d: int)
    decreases |h| - n
  {
    n < |h| ==> h[n].bestDistance <= d && ImprovingFrom(h, n + 1, h[n].bestDistance)
  }

  /** A chain of improvements orders every pair of entries. */
  lemma {:induction false} ImprovingMeansOrdered(h: seq<GenerationResult>, n: nat, d: int)
    requires ImprovingFrom(h, n, d)
    ensures forall i :: n <= i < |h| ==> h[i].bestDistance <= d
    ensures forall i, j :: n <= i < j < |h| ==> h[j].bestDistance <= h[i].bestDistance
    decreases |h| - n
  {
    if n < |h| {
      ImprovingMeansOrdered(h, n + 1, h[n].bestDistance);
    }
  }

  /** The population still holds a route as short as the best one the
      history last recorded. */
  predicate ReachesLast(x: Engine)
    requires Reachable(x) && x.population.Some?
  {
    |x.history| > 0 ==> Reaches(x.population.value, x.history[|x.history| - 1].bestDistance)
  }

  /** One turn of the generation loop: a failed generation ends it, a
      successful one hands over to the next. */
  lemma GenerationsUnfold(e: Engine, generation: int, last: int, streams: int -> nat -> Breeding)
    requires Reachable(e) && (forall g :: ValidStream(streams(g))) && generation <= last
    ensures var step := EvolveGeneration(e, generation, streams(generation));
      step.1.Failure? ==> Generations(e, generation, last, streams) == (step.0, Failure(step.1.fault))
    ensures var step := EvolveGeneration(e, generation, streams(generation));
      step.1.Success? ==> Generations(e, generation, last, streams) == Generations(step.0, generation + 1, last, streams)
  {
  }

  /** With elitism, one generation keeps a route as short as the last
      recorded best, whether or not it succeeds. */
  lemma StepKeepsReach(e: Engine, generation: int, stream: nat -> Breeding)
    requires Reachable(e) && ValidStream(stream)
    requires e.population.Some? && e.config.Some? && e.config.value.elitismCount >= 1
    requires |e.history| > 0 && ReachesLast(e)
    ensures var r := EvolveGeneration(e, generation, stream);
      r.0.population.Some? && |r.0.history| > 0 && ReachesLast(r.0)
  {
    var r := EvolveGeneration(e, generation, stream);
    var d := e.history[|e.history| - 1].bestDistance;
    EvolveKeepsBest(e, generation, stream, d);
    LastReached(r.0, e.history, r.1, d);
  }

  /** After one generation, the engine still reaches its last recorded best:
      the old one when the generation failed, the new one otherwise. */
  lemma LastReached(x: Engine, before: seq<GenerationResult>, v: Result<GenerationResult>, d: int)
    requires Reachable(x) && x.population.Some? && |before| > 0 && before[|before| - 1].bestDistance == d
    requires Reaches(x.population.value, d)
    requires v.Success? ==> x.history == before + [v.value] && Reaches(x.population.value, v.value.bestDistance)
    requires v.Failure? ==> x.history == before
    ensures |x.history| > 0 && ReachesLast(x)
  {
  }

  /** With elitism, the generation loop keeps a route as short as the last
      recorded best. */
  lemma {:induction false} GenerationsKeepReach(e: Engine, generation: int, last: int,
      streams: int -> nat -> Breeding)
    requires Reachable(e) && (forall g :: ValidStream(streams(g)))
    requires e.population.Some? && e.config.Some? && e.config.value.elitismCount >= 1
    requires |e.history| > 0 && ReachesLast(e)
    ensures ReachesLast(Generations(e, generation, last, streams).0)
    decreases last - generation + 1
  {
    if generation <= last {
      var step := EvolveGeneration(e, generation, streams(generation));
      StepKeepsReach(e, generation, streams(generation));
      if step.1.Success? {
        GenerationsKeepReach(step.0, generation + 1, last, streams);
      }
      GenerationsUnfold(e, generation, last, streams);
    }
  }

  /** With elitism, the best distances the generation loop records stay
      within `d` and never increase. */
  lemma {:induction false} GenerationsKeepBest(e: Engine, generation: int, last: int,
      streams: int -> nat -> Breeding, d: int)
    requires Reachable(e) && (forall g :: ValidStream(streams(g)))
    requires e.population.Some? && e.config.Some? && e.config.value.elitismCount >= 1
    requires Reaches(e.population.value, d)
    ensures ImprovingFrom(Generations(e, generation, last, streams).0.history, |e.history|, d)
    decreases last - generation + 1
  {
    if generation <= last {
      var step := EvolveGeneration(e, generation, streams(generation));
      EvolveKeepsBest(e, generation, streams(generation), d);
      if step.1.Success? {
        GenerationsKeepBest(step.0, generation + 1, last, streams, step.1.value.bestDistance);
        ImprovingAfter(e.history, step.0.history, step.1.value,
          Generations(step.0, generation + 1, last, streams).0.history, d);
      }
      GenerationsUnfold(e, generation, last, streams);
    }
  }

  lemma ImprovingAfter(before: seq<GenerationResult>, after: seq<GenerationResult>, v: GenerationResult,
      h: seq<GenerationResult>, d: int)
    requires after == before + [v] && |h| >= |after| && h[..|after|] == after && v.bestDistance <= d
    requires ImprovingFrom(h, |after|, v.bestDistance)
    ensures ImprovingFrom(h, |before|, d)
  {
    assert h[|before|] == h[..|after|][|before|];
  }

  /** With an evolvable configuration, every generation of the loop
      succeeds and the population stays a non-empty set of tours. */
  lemma {:induction false} GenerationsSucceed(e: Engine, generation: int, last: int,
      streams: int -> nat -> Breeding, start: City)
    requires Reachable(e) && (forall g :: ValidStream(streams(g)))
    requires e.population.Some? && e.config.Some? && Evolvable(e.config.value)
    requires |e.population.value.routes| > 0
    requires start in Graph() && ToursFrom(e.population.value.routes, start)
    ensures Generations(e, generation, last, streams).1.Success?
    ensures |Generations(e, generation, last, streams).0.population.value.routes| > 0
    ensures ToursFrom(Generations(e, generation, last, streams).0.population.value.routes, start)
    decreases last - generation + 1
  {
    if generation <= last {
      EvolveKeepsTours(e, generation, streams(generation), start);
      var (e1, result) := EvolveGeneration(e, generation, streams(generation));
      GenerationsSucceed(e1, generation + 1, last, streams, start);
    }
  }

  /* ---------- Runs ---------- */

  /** The generation-0 snapshot is reached by the population it describes. */
  lemma SnapshotReached(p: Population)
    requires Healthy(p) && p.sorted && |p.routes| > 0
    ensures Reaches(p, Summary(p, 0).value.bestDistance)
  {
    var s := Summary(p, 0).value;
    var j :| 0 <= j < |p.routes| && p.routes[j] == s.bestRoute;
  }

  /** The end of a run over a non-empty population of tours succeeds and
      returns one of them. */
  lemma FinishReturnsTour(x: Engine, config: GAConfig, limit: int, start: City)
    requires Reachable(x) && x.population.Some? && |x.population.value.routes| > 0
    requires ToursFrom(x.population.value.routes, start)
    ensures Finish(x, config, limit).1.Success?
    ensures Tour(Finish(x, config, limit).1.value.bestRoute, start)
  {
    var fin := Finish(x, config, limit);
    SortedMembers(x.population.value);
    assert |SortByFitness(x.population.value).routes| == |multiset(x.population.value.routes)|;
    var k :| 0 <= k < |x.population.value.routes| && x.population.value.routes[k] == fin.1.value.bestRoute;
  }

  /** The route a run ends with is no longer than the best the history
      last recorded, so no longer than any best from `n` on. */
  lemma FinishBelowRecorded(x: Engine, config: GAConfig, limit: int, n: nat, d: int)
    requires Reachable(x) && x.population.Some? && ReachesLast(x)
    requires n < |x.history| && ImprovingFrom(x.history, n, d)
    ensures Finish(x, config, limit).1.Success? ==>
      forall i :: n <= i < |x.history| ==> Finish(x, config, limit).1.value.bestDistance <= x.history[i].bestDistance
  {
    var fin := Finish(x, config, limit);
    if fin.1.Success? {
      var h := x.history;
      var k :| 0 <= k < |x.population.value.routes| && TotalDistance(x.population.value.routes[k]) <= h[|h| - 1].bestDistance;
      BelowAll(h, n, d, fin.1.value.bestDistance);
    }
  }

  lemma BelowAll(h: seq<GenerationResult>, n: nat, d: int, b: int)
    requires n < |h| && ImprovingFrom(h, n, d) && b <= h[|h| - 1].bestDistance
    ensures forall i :: n <= i < |h| ==> b <= h[i].bestDistance
  {
    ImprovingMeansOrdered(h, n, d);
    forall i | n <= i < |h| ensures b <= h[i].bestDistance {
      if i < |h| - 1 {
        assert h[|h| - 1].bestDistance <= h[i].bestDistance;
      }
    }
  }

  /** The engine once a run has recorded the generation-0 snapshot. */
  function Opening(e: Engine): (o: Engine)
    requires Reachable(e) && e.population.Some? && e.population.value.sorted
    requires |e.population.value.routes| > 0
    ensures Reachable(o) && o.population == e.population && o.config == e.config
    ensures o.history == e.history + [Summary(e.population.value, 0).value]
  {
    e.(history := e.history + [Summary(e.population.value, 0).value])
  }

  /** A run with a limit is the generation loop after the snapshot,
      followed by the final read of the best route. */
  lemma EvolveIsLoop(e: Engine, config: GAConfig, streams: int -> nat -> Breeding)
    requires Reachable(e) && e.population.Some? && e.population.value.sorted
    requires |e.population.value.routes| > 0 && (forall g :: ValidStream(streams(g)))
    requires config.maxGenerations.Some?
    ensures Generations(Opening(e), 1, config.maxGenerations.value, streams).1.Success? ==>
      Evolve(e, config, streams)
        == Finish(Generations(Opening(e), 1, config.maxGenerations.value, streams).0, config, config.maxGenerations.value)
    ensures Generations(Opening(e), 1, config.maxGenerations.value, streams).1.Failure? ==>
      Evolve(e, config, streams).1.Failure?
  {
  }

  /** With elitism, the loop after the snapshot records best distances that
      never increase from the snapshot's on, and ends with a population
      that reaches the last of them. */
  lemma LoopKeepsBest(e: Engine, limit: int, streams: int -> nat -> Breeding)
    requires Reachable(e) && e.population.Some? && e.population.value.sorted
    requires |e.population.value.routes| > 0 && (forall g :: ValidStream(streams(g)))
    requires e.config.Some? && e.config.value.elitismCount >= 1
    ensures |Generations(Opening(e), 1, limit, streams).0.history| > |e.history|
    ensures ImprovingFrom(Generations(Opening(e), 1, limit, streams).0.history, |e.history|,
                          Summary(e.population.value, 0).value.bestDistance)
    ensures ReachesLast(Generations(Opening(e), 1, limit, streams).0)
  {
    var initial := Summary(e.population.value, 0).value;
    var e1 := Opening(e);
    SnapshotReached(e.population.value);
    assert ReachesLast(e1);
    GenerationsKeepBest(e1, 1, limit, streams, initial.bestDistance);
    GenerationsKeepReach(e1, 1, limit, streams);
    ImprovingAfter(e.history, e1.history, initial, Generations(e1, 1, limit, streams).0.history,
                   initial.bestDistance);
  }

  /** After a successful initialization, a run with an evolvable
      configuration and a generation limit succeeds, and its best route is
      a tour from the start city. */
  lemma EvolveRunSucceeds(e: Engine, config: GAConfig, streams: int -> nat -> Breeding, start: City)
    requires Reachable(e) && e.population.Some? && e.population.value.sorted
    requires |e.population.value.routes| > 0 && (forall g :: ValidStream(streams(g)))
    requires e.config == Some(config) && Evolvable(config) && config.maxGenerations.Some?
    requires start in Graph() && ToursFrom(e.population.value.routes, start)
    ensures Evolve(e, config, streams).1.Success?
    ensures Tour(Evolve(e, config, streams).1.value.bestRoute, start)
  {
    var limit := config.maxGenerations.value;
    GenerationsSucceed(Opening(e), 1, limit, streams, start);
    FinishReturnsTour(Generations(Opening(e), 1, limit, streams).0, config, limit, start);
    EvolveIsLoop(e, config, streams);
  }

  /** A successful run records one entry per generation from 0 to the
      limit, numbered in order after the entries already there. */
  lemma EvolveRunNumbered(e: Engine, config: GAConfig, streams: int -> nat -> Breeding)
    requires Reachable(e) && e.population.Some? && e.population.value.sorted
    requires |e.population.value.routes| > 0 && (forall g :: ValidStream(streams(g)))
    ensures Evolve(e, config, streams).1.Success? ==>
      |Evolve(e, config, streams).1.value.history| == |e.history| + 1 + Max(0, config.maxGenerations.value)
    ensures Evolve(e, config, streams).1.Success? ==>
      NumberedFrom(Evolve(e, config, streams).1.value.history, |e.history|, 0)
    ensures Evolve(e, config, streams).1.Success? ==>
      var h := Evolve(e, config, streams).1.value.history;
      forall i :: |e.history| <= i < |h| ==> h[i].generation == i - |e.history|
  {
    if config.maxGenerations.Some? {
      var limit := config.maxGenerations.value;
      NumberedAfter(e.history, Summary(e.population.value, 0).value, Opening(e).history,
                    Generations(Opening(e), 1, limit, streams).0.history);
      EvolveIsLoop(e, config, streams);
      var r := Evolve(e, config, streams);
      if r.1.Success? {
        NumberedMeansConsecutive(r.1.value.history, |e.history|, 0);
      }
    }
  }

  /** With elitism, the best distances a run records never increase. */
  lemma EvolveRunImproves(e: Engine, config: GAConfig, streams: int -> nat -> Breeding)
    requires Reachable(e) && e.population.Some? && e.population.value.sorted
    requires |e.population.value.routes| > 0 && (forall g :: ValidStream(streams(g)))
    requires e.config == Some(config) && config.elitismCount >= 1
    ensures Evolve(e, config, streams).1.Success? ==>
      ImprovingFrom(Evolve(e, config, streams).1.value.history, |e.history|,
                    Summary(e.population.value, 0).value.bestDistance)
  {
    if config.maxGenerations.Some? {
      LoopKeepsBest(e, config.maxGenerations.value, streams);
      EvolveIsLoop(e, config, streams);
    }
  }

  /** With elitism, the best route a run returns is no longer than any
      best distance it recorded. */
  lemma EvolveRunEndsBest(e: Engine, config: GAConfig, streams: int -> nat -> Breeding)
    requires Reachable(e) && e.population.Some? && e.population.value.sorted
    requires |e.population.value.routes| > 0 && (forall g :: ValidStream(streams(g)))
    requires e.config == Some(config) && config.elitismCount >= 1
    ensures Evolve(e, config, streams).1.Success? ==>
      forall i :: |e.history| <= i < |Evolve(e, config, streams).1.value.history| ==>
        Evolve(e, config, streams).1.value.bestDistance <= Evolve(e, config, streams).1.value.history[i].bestDistance
  {
    if config.maxGenerations.Some? {
      var limit := config.maxGenerations.value;
      LoopKeepsBest(e, limit, streams);
      FinishBelowRecorded(Generations(Opening(e), 1, limit, streams).0, config, limit,
                          |e.history|, Summary(e.population.value, 0).value.bestDistance);
      EvolveIsLoop(e, config, streams);
    }
  }

  /** After a successful initialization a run is the evolution of the
      initialized engine. */
  lemma RunIsEvolve(e: Engine, config: GAConfig, shuffle: nat -> seq<real>, streams: int -> nat -> Breeding)
    requires Reachable(e) && ShuffleStream(shuffle) && (forall g :: ValidStream(streams(g)))
    ensures InitializePopulation(e, config, shuffle).1.Success? ==>
      RunGeneticAlgorithm(e, config, shuffle, streams) == Evolve(InitializePopulation(e, config, shuffle).0, config, streams)
  {
  }

  /** A run with a runnable configuration succeeds and returns a tour
      from the start city. */
  lemma RunSucceeds(e: Engine, config: GAConfig, shuffle: nat -> seq<real>, streams: int -> nat -> Breeding)
    requires Reachable(e) && ShuffleStream(shuffle) && (forall g :: ValidStream(streams(g)))
    requires Runnable(config)
    ensures RunGeneticAlgorithm(e, config, shuffle, streams).1.Success?
    ensures Tour(RunGeneticAlgorithm(e, config, shuffle, streams).1.value.bestRoute,
                 Lookup(Graph(), config.startCityId).value)
  {
    var init := InitializePopulation(e, config, shuffle);
    InitializeBuildsTours(e, config, shuffle);
    InitializeOutcome(e, config, shuffle);
    RunIsEvolve(e, config, shuffle, streams);
    EvolveRunSucceeds(init.0, config, streams, Lookup(Graph(), config.startCityId).value);
  }

  /** A successful run records generations 0 to maxGenerations, in order. */
  lemma RunNumbered(e: Engine, config: GAConfig, shuffle: nat -> seq<real>, streams: int -> nat -> Breeding)
    requires Reachable(e) && ShuffleStream(shuffle) && (forall g :: ValidStream(streams(g)))
    ensures RunGeneticAlgorithm(e, config, shuffle, streams).1.Success? ==>
      |RunGeneticAlgorithm(e, config, shuffle, streams).1.value.history| == Max(0, config.maxGenerations.value) + 1
    ensures RunGeneticAlgorithm(e, config, shuffle, streams).1.Success? ==>
      forall i :: 0 <= i < |RunGeneticAlgorithm(e, config, shuffle, streams).1.value.history| ==>
        RunGeneticAlgorithm(e, config, shuffle, streams).1.value.history[i].generation == i
  {
    var init := InitializePopulation(e, config, shuffle);
    RunIsEvolve(e, config, shuffle, streams);
    if init.1.Success? {
      EvolveRunNumbered(init.0, config, streams);
    }
  }

  /** The best distances a run records never increase, and the route it
      returns is no longer than any of them. */
  predicate Improves(x: ExecutionResult) {
    && (forall i, j :: 0 <= i < j < |x.history| ==> x.history[j].bestDistance <= x.history[i].bestDistance)
    && (forall i :: 0 <= i < |x.history| ==> x.bestDistance <= x.history[i].bestDistance)
  }

  /** With elitism, a successful run improves. */
  lemma RunImproves(e: Engine, config: GAConfig, shuffle: nat -> seq<real>, streams: int -> nat -> Breeding)
    requires Reachable(e) && ShuffleStream(shuffle) && (forall g :: ValidStream(streams(g)))
    requires config.elitismCount >= 1
    ensures RunGeneticAlgorithm(e, config, shuffle, streams).1.Success? ==>
      Improves(RunGeneticAlgorithm(e, config, shuffle, streams).1.value)
  {
    var init := InitializePopulation(e, config, shuffle);
    RunIsEvolve(e, config, shuffle, streams);
    if init.1.Success? {
      EvolveImproves(init.0, config, streams);
    }
  }

  /** With elitism, a successful run from an empty history improves. */
  lemma EvolveImproves(e: Engine, config: GAConfig, streams: int -> nat -> Breeding)
    requires Reachable(e) && e.population.Some? && e.population.value.sorted
    requires |e.population.value.routes| > 0 && (forall g :: ValidStream(streams(g)))
    requires e.config == Some(config) && config.elitismCount >= 1 && e.history == []
    ensures Evolve(e, config, streams).1.Success? ==> Improves(Evolve(e, config, streams).1.value)
  {
    EvolveRunImproves(e, config, streams);
    EvolveRunEndsBest(e, config, streams);
    var r := Evolve(e, config, streams);
    if r.1.Success? {
      ImprovingMeansOrdered(r.1.value.history, 0, Summary(e.population.value, 0).value.bestDistance);
    }
  }

  /** Without a generation limit the run fails on unboxing it, after the
      initial snapshot has been recorded. */
  lemma RunWithoutLimitFails(e: Engine, config: GAConfig, shuffle: nat -> seq<real>, streams: int -> nat -> Breeding)
    requires Reachable(e) && ShuffleStream(shuffle) && (forall g :: ValidStream(streams(g)))
    requires Lookup(Graph(), config.startCityId).Some? && config.populationSize > 0
    requires config.maxGenerations.None?
    ensures RunGeneticAlgorithm(e, config, shuffle, streams).1 == Failure(Wrapped(NullPointer))
    ensures |RunGeneticAlgorithm(e, config, shuffle, streams).0.history| == 1
    ensures RunGeneticAlgorithm(e, config, shuffle, streams).0.history[0].generation == 0
  {
    InitializeOutcome(e, config, shuffle);
  }

  /** The documented end-to-end run: eight cities from F, a population of
      100, 20 generations, 5 elites, crossover at 70 percent between cut
      points 2 and 5. It succeeds with 21 records, and its best route is no
      longer than the generation-0 best. */
  lemma DefaultScenario(e: Engine, shuffle: nat -> seq<real>, streams: int -> nat -> Breeding)
    requires Reachable(e) && ShuffleStream(shuffle) && (forall g :: ValidStream(streams(g)))
    ensures var config := Default().(maxGenerations := Some(20));
      var r := RunGeneticAlgorithm(e, config, shuffle, streams);
      && r.1.Success?
      && |r.1.value.history| == 21
      && r.1.value.bestDistance <= r.1.value.history[0].bestDistance
  {
    var config := Default().(maxGenerations := Some(20));
    assert Graph()[2].id == "F";
    RunSucceeds(e, config, shuffle, streams);
    RunNumbered(e, config, shuffle, streams);
    RunImproves(e, config, shuffle, streams);
  }
}

=== FILE: mutation.dfy ===
/** The three mutation operators. Each draws a real in [0, 1): above the
    rate the route itself comes back; otherwise a copy is mutated. The
    positions the operators draw are parameters. */
module Mutation {

  import opened Cities
  import opened Routes
  import opened Permutations

  /** `Kept`: the very route object that was passed in; `Copied`: a fresh
      route built with the copy constructor and then mutated. */
  datatype Outcome = Kept(route: Route) | Copied(route: Route)

  /** Positions drawn with `nextInt(size)`. */
  predicate InRoute(r: Route, pos: nat) {
    pos < |r.cities|
  }

  /** `mutate`: exchanges the cities at two distinct positions. `pos2` is
      the draw the retry loop accepts, so it differs from `pos1`. */
  function Swap(route: Route, rate: real, draw: real, pos1: nat, pos2: nat): (o: Outcome)
    requires |route.cities| >= 2 ==> InRoute(route, pos1) && InRoute(route, pos2) && pos1 != pos2
    ensures o.Kept? <==> draw > rate
    ensures o.Kept? ==> o.route == route
    ensures o.route.start == route.start && |o.route.cities| == |route.cities|
    ensures o.Copied? && |route.cities| < 2 ==> o.route == CopyRoute(route)
    ensures o.Copied? && |route.cities| >= 2 ==>
      && o.route.cities[pos1] == route.cities[pos2]
      && o.route.cities[pos2] == route.cities[pos1]
      && (forall k :: 0 <= k < |route.cities| && k != pos1 && k != pos2 ==>
            o.route.cities[k] == route.cities[k])
      && o.route.distanceCache.None? && o.route.fitnessCache.None?
      && CacheCoherent(o.route)
  {
    if draw > rate then Kept(route)
    else
      var mutated := CopyRoute(route);
      if |mutated.cities| < 2 then Copied(mutated)
      else
        var temp := mutated.cities[pos1];
        var m1 := SetCity(mutated, pos1, mutated.cities[pos2]);
        Copied(SetCity(m1, pos2, temp))
  }

  /** The reversal loop of `inversionMutate`: while lo < hi, exchange the
      cities at lo and hi, then move both inwards. */
  function ReverseSpan(s: seq<City>, lo: nat, hi: int): (t: seq<City>)
    requires hi < |s| && lo <= hi + 1
    ensures |t| == |s|
    ensures forall k :: lo <= k <= hi ==> t[k] == s[lo + hi - k]
    ensures forall k :: 0 <= k < |s| && !(lo <= k <= hi) ==> t[k] == s[k]
    ensures multiset(t) == multiset(s)
    decreases hi - lo
  {
    if lo < hi then
      SwapIsPermutation(s, lo, hi);
      ReverseSpan(s[lo := s[hi]][hi := s[lo]], lo + 1, hi - 1)
    else s
  }

  function Min(a: nat, b: nat): nat { if a <= b then a else b }
  function Max(a: nat, b: nat): nat { if a <= b then b else a }

  /** `inversionMutate`: reverses the cities between the two drawn
      positions, both included. */
  function Inversion(route: Route, rate: real, draw: real, pos1: nat, pos2: nat): (o: Outcome)
    requires |route.cities| >= 2 ==> InRoute(route, pos1) && InRoute(route, pos2)
    ensures o.Kept? <==> draw > rate
    ensures o.Kept? ==> o.route == route
    ensures o.route.start == route.start && |o.route.cities| == |route.cities|
    ensures o.Copied? && (|route.cities| < 2 || pos1 == pos2) ==> o.route == CopyRoute(route)
    ensures o.Copied? && |route.cities| >= 2 ==>
      ReversedBetween(o.route.cities, route.cities, Min(pos1, pos2), Max(pos1, pos2))
  {
    if draw > rate then Kept(route)
    else Copied(InvertCopy(CopyRoute(route), pos1, pos2))
  }

  /** What `inversionMutate` does to its copy. */
  function InvertCopy(mutated: Route, pos1: nat, pos2: nat): (r: Route)
    requires |mutated.cities| >= 2 ==> InRoute(mutated, pos1) && InRoute(mutated, pos2)
    ensures r.start == mutated.start && |r.cities| == |mutated.cities|
    ensures |mutated.cities| < 2 || pos1 == pos2 ==> r == mutated
    ensures |mutated.cities| >= 2 ==>
      ReversedBetween(r.cities, mutated.cities, Min(pos1, pos2), Max(pos1, pos2))
  {
    if |mutated.cities| < 2 then mutated
    else
      var lo, hi := Min(pos1, pos2), Max(pos1, pos2);
      if lo == hi then
        Unmoved(mutated.cities, lo);
        mutated
      else
        var t := ReverseSpan(mutated.cities, lo, hi);
        Reversal(mutated.cities, lo, hi, t);
        // each exchange goes through setCity, which clears both caches
        NewRoute(mutated.start, t)
  }

  /** `t` is `s` with the span from lo to hi, both included, reversed. */
  predicate ReversedBetween(t: seq<City>, s: seq<City>, lo: nat, hi: nat) {
    && |t| == |s| && lo <= hi < |s|
    && (forall k :: lo <= k <= hi ==> t[k] == s[lo + hi - k])
    && (forall k :: 0 <= k < |s| && !(lo <= k <= hi) ==> t[k] == s[k])
  }

  lemma Reversal(s: seq<City>, lo: nat, hi: nat, t: seq<City>)
    requires lo <= hi < |s| && t == ReverseSpan(s, lo, hi)
    ensures ReversedBetween(t, s, lo, hi)
  {
  }

  /** A span of one city is its own reversal. */
  lemma Unmoved(s: seq<City>, k: nat)
    requires k < |s|
    ensures ReversedBetween(s, s, k, k)
  {
  }

  /** The put-back loop of `scrambleMutate`: position lo + i receives
      seg[i], from `i` on. */
  function WriteBack(s: seq<City>, lo: nat, seg: seq<City>, i: nat): (t: seq<City>)
    requires lo + |seg| <= |s| && i <= |seg|
    ensures |t| == |s|
    ensures forall k :: i <= k < |seg| ==> t[lo + k] == seg[k]
    ensures forall k :: 0 <= k < |s| && !(lo + i <= k < lo + |seg|) ==> t[k] == s[k]
    decreases |seg| - i
  {
    if i == |seg| then s
    else WriteBack(s[lo + i := seg[i]], lo, seg, i + 1)
  }

  /** The draws `scrambleMutate` makes once it has decided to mutate a route
      of at least two cities: two positions and the Fisher–Yates indices
      for the segment between them. */
  predicate ScrambleDraws(route: Route, pos1: nat, pos2: nat, js: seq<nat>) {
    && InRoute(route, pos1) && InRoute(route, pos2)
    && ShuffleDraws(js, Max(pos1, pos2) - Min(pos1, pos2) + 1)
  }

  /** `scrambleMutate`: shuffles the segment between the two drawn
      positions, both included, and writes it back. */
  function Scramble(route: Route, rate: real, draw: real, pos1: nat, pos2: nat, js: seq<nat>): (o: Outcome)
    requires |route.cities| >= 2 ==> ScrambleDraws(route, pos1, pos2, js)
    ensures o.Kept? <==> draw > rate
    ensures o.Kept? ==> o.route == route
    ensures o.route.start == route.start && |o.route.cities| == |route.cities|
    ensures o.Copied? && |route.cities| < 2 ==> o.route == CopyRoute(route)
    ensures o.Copied? && |route.cities| >= 2 ==>
      ScrambledBetween(o.route.cities, route.cities, Min(pos1, pos2), Max(pos1, pos2))
  {
    if draw > rate then Kept(route)
    else Copied(ScrambleCopy(CopyRoute(route), pos1, pos2, js))
  }

  /** What `scrambleMutate` does to its copy. */
  function ScrambleCopy(mutated: Route, pos1: nat, pos2: nat, js: seq<nat>): (r: Route)
    requires |mutated.cities| >= 2 ==> ScrambleDraws(mutated, pos1, pos2, js)
    ensures r.start == mutated.start && |r.cities| == |mutated.cities|
    ensures |mutated.cities| < 2 ==> r == mutated
    ensures |mutated.cities| >= 2 ==>
      ScrambledBetween(r.cities, mutated.cities, Min(pos1, pos2), Max(pos1, pos2))
  {
    if |mutated.cities| < 2 then mutated
    else
      var lo, hi := Min(pos1, pos2), Max(pos1, pos2);
      var written := WriteBack(mutated.cities, lo, FisherYates(mutated.cities[lo..hi + 1], js, 0), 0);
      ShuffledSegment(mutated.cities, lo, hi, js, written);
      // the segment is never empty, so setCity runs and clears both caches
      NewRoute(mutated.start, written)
  }

  /** `t` is `s` with the span from lo to hi, both included, rearranged
      and everything around it left alone. */
  predicate ScrambledBetween(t: seq<City>, s: seq<City>, lo: nat, hi: nat) {
    && |t| == |s| && lo <= hi < |s|
    && (forall k :: 0 <= k < |s| && !(lo <= k <= hi) ==> t[k] == s[k])
    && IsPermutation(t[lo..hi + 1], s[lo..hi + 1])
  }

  /** After the put-back loop the segment holds exactly what was put back. */
  lemma WrittenSegment(s: seq<City>, lo: nat, seg: seq<City>)
    requires lo + |seg| <= |s|
    ensures WriteBack(s, lo, seg, 0)[lo..lo + |seg|] == seg
  {
    var written := WriteBack(s, lo, seg, 0);
    forall k | 0 <= k < |seg| ensures written[lo..lo + |seg|][k] == seg[k] {
      assert written[lo + k] == seg[k];
    }
  }

  /** Shuffling a segment and putting it back leaves the cities around it
      alone and a rearrangement of it in its place. */
  lemma ShuffledSegment(s: seq<City>, lo: nat, hi: nat, js: seq<nat>, t: seq<City>)
    requires lo <= hi < |s| && ShuffleDraws(js, hi - lo + 1)
    requires t == WriteBack(s, lo, FisherYates(s[lo..hi + 1], js, 0), 0)
    ensures ScrambledBetween(t, s, lo, hi)
  {
    var shuffled := FisherYates(s[lo..hi + 1], js, 0);
    assert lo + |shuffled| == hi + 1;
    WrittenSegment(s, lo, shuffled);
    assert t[lo..hi + 1] == shuffled;
  }

  /** A route split around a segment. */
  lemma Around(s: seq<City>, t: seq<City>, lo: nat, hi: nat)
    requires lo <= hi < |s| == |t|
    requires forall k :: 0 <= k < |s| && !(lo <= k <= hi) ==> t[k] == s[k]
    ensures s == s[..lo] + s[lo..hi + 1] + s[hi + 1..]
    ensures t == s[..lo] + t[lo..hi + 1] + s[hi + 1..]
  {
    assert t[..lo] == s[..lo];
    assert t[hi + 1..] == s[hi + 1..];
  }

  /** Every operator keeps the start city and returns a rearrangement of
      the route's cities: none is lost, none is duplicated. */
  lemma SwapPreservesCities(route: Route, rate: real, draw: real, pos1: nat, pos2: nat)
    requires |route.cities| >= 2 ==> InRoute(route, pos1) && InRoute(route, pos2) && pos1 != pos2
    ensures var o := Swap(route, rate, draw, pos1, pos2);
      o.route.start == route.start && IsPermutation(o.route.cities, route.cities)
  {
    var o := Swap(route, rate, draw, pos1, pos2);
    if o.Copied? && |route.cities| >= 2 {
      assert o.route.cities == route.cities[pos1 := route.cities[pos2]][pos2 := route.cities[pos1]];
      SwapIsPermutation(route.cities, pos1, pos2);
    }
  }

  lemma InversionPreservesCities(route: Route, rate: real, draw: real, pos1: nat, pos2: nat)
    requires |route.cities| >= 2 ==> InRoute(route, pos1) && InRoute(route, pos2)
    ensures var o := Inversion(route, rate, draw, pos1, pos2);
      o.route.start == route.start && IsPermutation(o.route.cities, route.cities)
  {
  }

  lemma ScramblePreservesCities(route: Route, rate: real, draw: real, pos1: nat, pos2: nat, js: seq<nat>)
    requires |route.cities| >= 2 ==> ScrambleDraws(route, pos1, pos2, js)
    ensures var o := Scramble(route, rate, draw, pos1, pos2, js);
      o.route.start == route.start && IsPermutation(o.route.cities, route.cities)
  {
    var o := Scramble(route, rate, draw, pos1, pos2, js);
    if o.Copied? {
      ScrambleCopyPermutes(CopyRoute(route), pos1, pos2, js);
    }
  }

  lemma ScrambleCopyPermutes(mutated: Route, pos1: nat, pos2: nat, js: seq<nat>)
    requires |mutated.cities| >= 2 ==> ScrambleDraws(mutated, pos1, pos2, js)
    ensures IsPermutation(ScrambleCopy(mutated, pos1, pos2, js).cities, mutated.cities)
  {
    var r := ScrambleCopy(mutated, pos1, pos2, js);
    if |mutated.cities| >= 2 {
      var lo, hi := Min(pos1, pos2), Max(pos1, pos2);
      Around(mutated.cities, r.cities, lo, hi);
      SpliceIsPermutation(mutated.cities[..lo], r.cities[lo..hi + 1],
                          mutated.cities[lo..hi + 1], mutated.cities[hi + 1..]);
    }
  }

  /** Reversing the same span twice restores the route's cities. */
  lemma InversionTwice(s: seq<City>, lo: nat, hi: nat)
    requires lo <= hi < |s|
    ensures ReverseSpan(ReverseSpan(s, lo, hi), lo, hi) == s
  {
    var once := ReverseSpan(s, lo, hi);
    var twice := ReverseSpan(once, lo, hi);
    forall k | 0 <= k < |s|
      ensures twice[k] == s[k]
    {
      if lo <= k <= hi {
        assert twice[k] == once[lo + hi - k];
      }
    }
  }
}

=== FILE: permutations.dfy ===
/** Facts about sequences without repeated elements and about permutations
    (sequences with equal multisets), used by every genetic operator. */
module Permutations {

  /** No element occurs twice. */
  predicate Distinct<T(==)>(s: seq<T>) {
    forall i, j :: 0 <= i < j < |s| ==> s[i] != s[j]
  }

  /** The set of elements of a sequence. */
  function Elems<T(==)>(s: seq<T>): set<T> {
    set x | x in s
  }

  /** `t` is a rearrangement of `s`. */
  predicate IsPermutation<T(==)>(s: seq<T>, t: seq<T>) {
    multiset(s) == multiset(t)
  }

  lemma {:induction false} ElemsCardinality<T>(s: seq<T>)
    ensures |Elems(s)| <= |s|
    ensures Distinct(s) ==> |Elems(s)| == |s|
  {
    if s != [] {
      var t := s[..|s| - 1];
      var x := s[|s| - 1];
      ElemsCardinality(t);
      assert s == t + [x];
      assert Elems(s) == Elems(t) + {x};
      if Distinct(s) {
        assert Distinct(t);
        assert x !in Elems(t);
      }
    }
  }

  /** In a sequence without repeats every present element occurs once. */
  lemma {:induction false} DistinctMultiplicity<T>(s: seq<T>, x: T)
    requires Distinct(s)
    ensures multiset(s)[x] == if x in s then 1 else 0
  {
    if s != [] {
      var t := s[..|s| - 1];
      assert s == t + [s[|s| - 1]];
      assert Distinct(t);
      DistinctMultiplicity(t, x);
      assert x == s[|s| - 1] ==> x !in t;
    }
  }

  /** Two sequences without repeats and with the same elements are
      permutations of each other. */
  lemma SameElemsPermutation<T>(s: seq<T>, t: seq<T>)
    requires Distinct(s) && Distinct(t)
    requires forall x :: x in s <==> x in t
    ensures IsPermutation(s, t)
  {
    forall x
      ensures multiset(s)[x] == multiset(t)[x]
    {
      DistinctMultiplicity(s, x);
      DistinctMultiplicity(t, x);
    }
  }

  /** A repeat in a sequence shows up as a multiplicity of at least two. */
  lemma RepeatMultiplicity<T>(s: seq<T>, i: nat, j: nat)
    requires i < j < |s| && s[i] == s[j]
    ensures multiset(s)[s[i]] >= 2
  {
    assert s == s[..j] + [s[j]] + s[j + 1..];
    assert s[i] in s[..j];
    assert s[i] in multiset(s[..j]);
  }

  /** A permutation of a sequence without repeats has no repeats. */
  lemma PermutationKeepsDistinct<T>(s: seq<T>, t: seq<T>)
    requires IsPermutation(s, t) && Distinct(t)
    ensures Distinct(s)
  {
    forall i, j | 0 <= i < j < |s|
      ensures s[i] != s[j]
    {
      if s[i] == s[j] {
        RepeatMultiplicity(s, i, j);
        DistinctMultiplicity(t, s[i]);
        assert false;
      }
    }
  }

  /** Pigeonhole: a sequence without repeats, as long as `t` and drawing
      only from `t`'s elements, is a permutation of `t` when `t` has no
      repeats. */
  lemma FullDistinctIsPermutation<T>(s: seq<T>, t: seq<T>)
    requires Distinct(s) && Distinct(t) && |s| == |t|
    requires forall x :: x in s ==> x in t
    ensures IsPermutation(s, t)
  {
    ElemsCardinality(s);
    ElemsCardinality(t);
    assert Elems(s) <= Elems(t);
    SubsetSameSize(Elems(s), Elems(t));
    forall x
      ensures x in s <==> x in t
    {
      assert x in s <==> x in Elems(s);
      assert x in t <==> x in Elems(t);
    }
    SameElemsPermutation(s, t);
  }

  lemma SubsetSameSize<T>(a: set<T>, b: set<T>)
    requires a <= b && |a| == |b|
    ensures a == b
  {
    if a != b {
      var y :| y in b && y !in a;
      assert a <= b - {y};
      SubsetCardinality(a, b - {y});
      assert false;
    }
  }

  lemma {:induction false} SubsetCardinality<T>(a: set<T>, b: set<T>)
    requires a <= b
    ensures |a| <= |b|
    decreases b
  {
    if a != {} {
      var y :| y in a;
      SubsetCardinality(a - {y}, b - {y});
    }
  }

  /** Some element of a set is missing from a smaller set. */
  lemma Missing<T>(a: set<T>, b: set<T>)
    requires |b| < |a|
    ensures exists x :: x in a && x !in b
  {
    if a <= b {
      SubsetCardinality(a, b);
      assert false;
    }
  }

  /** Exchanging two positions is a permutation. */
  lemma SwapIsPermutation<T>(s: seq<T>, i: nat, j: nat)
    requires i < |s| && j < |s|
    ensures IsPermutation(s[i := s[j]][j := s[i]], s)
  {
    var t := s[i := s[j]];
    assert multiset(t) == multiset(s) - multiset{s[i]} + multiset{s[j]};
  }

  /** Permutation of the middle of a sequence is a permutation of the whole. */
  lemma SpliceIsPermutation<T>(a: seq<T>, m: seq<T>, m': seq<T>, b: seq<T>)
    requires IsPermutation(m, m')
    ensures IsPermutation(a + m + b, a + m' + b)
  {
  }

  /** Draws for a Fisher–Yates pass over `len` elements: step k swaps
      position len-1-k with a position drawn from [0, len-1-k]. */
  predicate ShuffleDraws(js: seq<nat>, len: nat) {
    && |js| == (if len == 0 then 0 else len - 1)
    && forall k :: 0 <= k < |js| ==> js[k] <= len - 1 - k
  }

  /** The Fisher–Yates loop shared by `Collections.shuffle` and the scramble
      mutation, from step `k` on. */
  function FisherYates<T>(s: seq<T>, js: seq<nat>, k: nat): (r: seq<T>)
    requires ShuffleDraws(js, |s|) && k <= |js|
    ensures |r| == |s|
    ensures multiset(r) == multiset(s)
    decreases |js| - k
  {
    if k == |js| then s
    else
      var i, j := |s| - 1 - k, js[k];
      var t := s[i := s[j]][j := s[i]];
      SwapIsPermutation(s, i, j);
      FisherYates(t, js, k + 1)
  }
}

=== FILE: pmx.dfy ===
/** Partially mapped crossover (PMX), modelled as written: the donor's
    segment is copied, a mapping from the other parent's segment cities to
    the donor's is built, the remaining positions are filled from the other
    parent following the mapping chain with a "first unused city" fallback,
    and a final pass patches any position left empty. */
module Pmx {

  import opened Wrappers
  import opened Cities
  import opened Routes
  import opened Permutations

  /** The offspring under construction: `None` is a position still null. */
  type Slots = seq<Option<City>>

  /** `cities.contains(c)` on the offspring under construction. */
  predicate Holds(slots: Slots, c: City) {
    Some(c) in slots
  }

  /** The cut-point check of `crossover`. */
  predicate CutPointsRejected(p1: int, p2: int, size: int) {
    p1 >= p2 || p1 < 0 || p2 > size
  }

  /** The donor's segment [p1, p2) in place, every other position null. */
  function Segment(donor: seq<City>, p1: nat, p2: nat): (s: Slots)
    requires p1 <= p2 <= |donor|
    ensures |s| == |donor|
    ensures forall k :: 0 <= k < |s| ==> s[k] == if p1 <= k < p2 then Some(donor[k]) else None
  {
    seq(|donor|, k requires 0 <= k < |donor| => if p1 <= k < p2 then Some(donor[k]) else None)
  }

  /** The map other[i] -> donor[i] for i in [p1, p2), later entries
      overwriting earlier ones as `HashMap.put` does. */
  function Mapping(donor: seq<City>, other: seq<City>, p1: nat, p2: nat): (m: map<City, City>)
    requires p1 <= p2 <= |donor| && p2 <= |other|
    ensures m.Keys == set k | p1 <= k < p2 :: other[k]
    ensures forall c :: c in m ==> exists k :: p1 <= k < p2 && m[c] == donor[k]
    decreases p2 - p1
  {
    if p1 == p2 then map[]
    else
      var m := Mapping(donor, other, p1, p2 - 1);
      m[other[p2 - 1] := donor[p2 - 1]]
  }

  /** Each key maps to the donor city at the position of its last `put`:
      other[k] -> donor[k] when no later position of the segment holds
      other[k] again. */
  lemma {:induction false} MappingLastPut(donor: seq<City>, other: seq<City>, p1: nat, p2: nat, k: nat)
    requires p1 <= p2 <= |donor| && p2 <= |other| && p1 <= k < p2
    requires forall j :: k < j < p2 ==> other[j] != other[k]
    ensures other[k] in Mapping(donor, other, p1, p2)
    ensures Mapping(donor, other, p1, p2)[other[k]] == donor[k]
    decreases p2 - p1
  {
    if k < p2 - 1 {
      MappingLastPut(donor, other, p1, p2 - 1, k);
    }
  }

  /** The first city of `other`, in index order, that the offspring does not
      hold yet; `dflt` when there is none (the candidate then stays). */
  function FirstAbsentOr(other: seq<City>, slots: Slots, dflt: City): (c: City)
    ensures c == dflt || (c in other && !Holds(slots, c))
    ensures (exists k :: 0 <= k < |other| && !Holds(slots, other[k])) ==>
      c in other && !Holds(slots, c)
    ensures c in other && !Holds(slots, c) ==>
      exists k :: 0 <= k < |other| && other[k] == c && forall j :: 0 <= j < k ==> Holds(slots, other[j])
  {
    if other == [] then dflt
    else if !Holds(slots, other[0]) then other[0]
    else
      var c := FirstAbsentOr(other[1..], slots, dflt);
      assert forall k :: 1 <= k < |other| ==> other[k] == other[1..][k - 1];
      if c in other[1..] && !Holds(slots, c) then
        var k :| 0 <= k < |other[1..]| && other[1..][k] == c &&
          forall j :: 0 <= j < k ==> Holds(slots, other[1..][j]);
        assert other[k + 1] == c;
        c
      else c
  }

  /** The `while (cities.contains(candidate))` loop. Following a mapping
      entry always lands on a donor segment city, which the offspring holds,
      so the loop only ends through the fallback; a chain longer than the
      mapping revisits a key and loops forever, reported as `None`. */
  function Resolve(candidate: City, slots: Slots, mapping: map<City, City>,
                   other: seq<City>, fuel: nat): Option<City>
    decreases fuel
  {
    if !Holds(slots, candidate) then Some(candidate)
    else if candidate !in mapping then Some(FirstAbsentOr(other, slots, candidate))
    else if fuel == 0 then None
    else Resolve(mapping[candidate], slots, mapping, other, fuel - 1)
  }

  /** Every position outside the segment below `i`, and the segment itself,
      is filled. */
  predicate FilledUpTo(slots: Slots, p1: nat, p2: nat, i: nat) {
    forall k :: 0 <= k < |slots| && (k < i || p1 <= k < p2) ==> slots[k].Some?
  }

  /** The fill loop, from position `i` on. Reading the other parent past its
      end is an IndexOutOfBoundsException. */
  function Fill(donor: seq<City>, other: seq<City>, p1: nat, p2: nat,
                mapping: map<City, City>, slots: Slots, i: nat): (r: Result<Slots>)
    requires |slots| == |donor| && p1 <= p2 <= |donor| && i <= |donor|
    ensures r.Success? ==> |r.value| == |slots|
    ensures r.Success? ==> forall k :: 0 <= k < |slots| && (k < i || p1 <= k < p2) ==>
      r.value[k] == slots[k]
    ensures r.Success? && FilledUpTo(slots, p1, p2, i) ==> FilledUpTo(r.value, p1, p2, |slots|)
    ensures r.Failure? ==> r.fault == IndexOutOfBounds || r.fault == Divergence
    decreases |donor| - i
  {
    if i == |donor| then Success(slots)
    else if p1 <= i < p2 then Fill(donor, other, p1, p2, mapping, slots, i + 1)
    else if i >= |other| then Failure(IndexOutOfBounds)
    else
      match Resolve(other[i], slots, mapping, other, |mapping|)
      case None => Failure(Divergence)
      case Some(c) => Fill(donor, other, p1, p2, mapping, slots[i := Some(c)], i + 1)
  }

  /** The post-pass: each null position gets the other parent's first city
      not yet held (or stays null when there is none). */
  function PatchNulls(other: seq<City>, slots: Slots, i: nat): (r: Slots)
    requires i <= |slots|
    ensures |r| == |slots|
    ensures (forall k :: i <= k < |slots| ==> slots[k].Some?) ==> r == slots
    decreases |slots| - i
  {
    if i == |slots| then slots
    else if slots[i].Some? then PatchNulls(other, slots, i + 1)
    else if exists k :: 0 <= k < |other| && !Holds(slots, other[k]) then
      PatchNulls(other, slots[i := Some(FirstAbsentOr(other, slots, other[0]))], i + 1)
    else PatchNulls(other, slots, i + 1)
  }

  function Unwrap(slots: Slots): (cs: seq<City>)
    requires forall k :: 0 <= k < |slots| ==> slots[k].Some?
    ensures |cs| == |slots|
    ensures forall k :: 0 <= k < |slots| ==> slots[k] == Some(cs[k])
  {
    seq(|slots|, k requires 0 <= k < |slots| => slots[k].value)
  }

  /** `createOffspring`: the donor gives the segment and the start city,
      the other parent the rest. */
  function CreateOffspring(donor: Route, other: Route, p1: nat, p2: nat): (r: Result<Route>)
    requires p1 < p2
    ensures p2 > |donor.cities| || p2 > |other.cities| ==> r == Failure(IndexOutOfBounds)
    ensures r.Success? ==> r.value.start == donor.start
    ensures r.Success? ==> |r.value.cities| == |donor.cities|
    ensures r.Success? ==> forall k :: p1 <= k < p2 ==> r.value.cities[k] == donor.cities[k]
    ensures r.Success? ==> CacheCoherent(r.value) && r.value.distanceCache.None? && r.value.fitnessCache.None?
    ensures r.Failure? ==> r.fault == IndexOutOfBounds || r.fault == Divergence
  {
    var n := |donor.cities|;
    if p2 > n || p2 > |other.cities| then Failure(IndexOutOfBounds)
    else
      var slots := Segment(donor.cities, p1, p2);
      var mapping := Mapping(donor.cities, other.cities, p1, p2);
      var filled :- Fill(donor.cities, other.cities, p1, p2, mapping, slots, 0);
      var patched := PatchNulls(other.cities, filled, 0);
      Success(NewRoute(donor.start, Unwrap(patched)))
  }

  /** `crossover`: rejects bad cut points, then builds offspring 1 with
      parent 1 as donor and offspring 2 with parent 2 as donor. */
  function Crossover(parent1: Route, parent2: Route, p1: int, p2: int): (r: Result<(Route, Route)>)
    ensures CutPointsRejected(p1, p2, |parent1.cities|) ==> r == Failure(IllegalArgument)
    ensures r == Failure(IllegalArgument) ==> CutPointsRejected(p1, p2, |parent1.cities|)
    ensures r.Success? ==> r.value.0.start == parent1.start && r.value.1.start == parent2.start
    ensures r.Success? ==> |r.value.0.cities| == |parent1.cities| && |r.value.1.cities| == |parent2.cities|
    ensures r.Success? ==> 0 <= p1 < p2 <= |parent1.cities| && p2 <= |parent2.cities|
    ensures r.Success? ==> CacheCoherent(r.value.0) && CacheCoherent(r.value.1)
    ensures r.Success? ==> forall k :: p1 <= k < p2 ==>
      r.value.0.cities[k] == parent1.cities[k] && r.value.1.cities[k] == parent2.cities[k]
  {
    if CutPointsRejected(p1, p2, |parent1.cities|) then Failure(IllegalArgument)
    else
      var r1 := CreateOffspring(parent1, parent2, p1, p2);
      var r2 := CreateOffspring(parent2, parent1, p1, p2);
      if r1.Failure? then Failure(r1.fault)
      else if r2.Failure? then Failure(r2.fault)
      else Success((r1.value, r2.value))
  }

  /* ---------- The rule the fill loop follows for permutation parents ---------- */

  /** The cities the offspring holds, in position order. */
  function Held(slots: Slots): (h: seq<City>)
    ensures forall c :: c in h <==> Holds(slots, c)
    ensures |h| <= |slots|
    ensures None in slots ==> |h| < |slots|
  {
    if slots == [] then []
    else
      var rest := Held(slots[1..]);
      assert forall c :: Holds(slots, c) <==> slots[0] == Some(c) || Holds(slots[1..], c);
      if slots[0].Some? then [slots[0].value] + rest else rest
  }

  /** No city occupies two positions. */
  predicate SlotsDistinct(slots: Slots) {
    forall j, k :: 0 <= j < k < |slots| && slots[j].Some? ==> slots[j] != slots[k]
  }

  /** Reference definition: position i outside the segment takes other[i]
      when the offspring does not hold it yet, and otherwise the first city
      of `other` it does not hold. No mapping appears. */
  function EffectiveFill(other: seq<City>, p1: nat, p2: nat, slots: Slots, i: nat): (r: Slots)
    requires i <= |slots| <= |other|
    ensures |r| == |slots|
    decreases |slots| - i
  {
    if i == |slots| then slots
    else if p1 <= i < p2 then EffectiveFill(other, p1, p2, slots, i + 1)
    else
      var c := if Holds(slots, other[i]) then FirstAbsentOr(other, slots, other[i]) else other[i];
      EffectiveFill(other, p1, p2, slots[i := Some(c)], i + 1)
  }

  /** With a repetition-free other parent, no city read outside the segment
      is a mapping key: the mapping chain is never followed. */
  lemma MappingNeverFires(donor: seq<City>, other: seq<City>, p1: nat, p2: nat, i: nat)
    requires Distinct(other)
    requires p1 <= p2 <= |donor| && p2 <= |other| && i < |other| && !(p1 <= i < p2)
    ensures other[i] !in Mapping(donor, other, p1, p2)
  {
  }

  /** For a repetition-free other parent of the donor's size the fill loop
      always terminates and computes the reference definition. */
  lemma {:induction false} FillIsEffective(donor: seq<City>, other: seq<City>, p1: nat, p2: nat,
                                           slots: Slots, i: nat)
    requires Distinct(other) && |other| == |donor| == |slots|
    requires p1 <= p2 <= |donor| && i <= |donor|
    ensures Fill(donor, other, p1, p2, Mapping(donor, other, p1, p2), slots, i)
      == Success(EffectiveFill(other, p1, p2, slots, i))
    decreases |donor| - i
  {
    var m := Mapping(donor, other, p1, p2);
    if i == |donor| {
    } else if p1 <= i < p2 {
      FillIsEffective(donor, other, p1, p2, slots, i + 1);
    } else {
      var c := FillStepOutside(donor, other, p1, p2, slots, i);
      FillIsEffective(donor, other, p1, p2, slots[i := Some(c)], i + 1);
    }
  }

  /** One position outside the segment: the fill loop and the reference
      definition place the same city there. */
  lemma FillStepOutside(donor: seq<City>, other: seq<City>, p1: nat, p2: nat, slots: Slots, i: nat)
      returns (c: City)
    requires Distinct(other) && |other| == |donor| == |slots|
    requires p1 <= p2 <= |donor| && i < |donor| && !(p1 <= i < p2)
    ensures Fill(donor, other, p1, p2, Mapping(donor, other, p1, p2), slots, i)
      == Fill(donor, other, p1, p2, Mapping(donor, other, p1, p2), slots[i := Some(c)], i + 1)
    ensures EffectiveFill(other, p1, p2, slots, i) == EffectiveFill(other, p1, p2, slots[i := Some(c)], i + 1)
  {
    var m := Mapping(donor, other, p1, p2);
    MappingNeverFires(donor, other, p1, p2, i);
    c := if Holds(slots, other[i]) then FirstAbsentOr(other, slots, other[i]) else other[i];
    assert Resolve(other[i], slots, m, other, |m|) == Some(c);
  }

  /** A position still null means some city of a repetition-free other
      parent of the same size is not held. */
  lemma AbsentExists(other: seq<City>, slots: Slots)
    requires Distinct(other) && |slots| == |other| && None in slots
    ensures exists k :: 0 <= k < |other| && !Holds(slots, other[k])
  {
    var h := Held(slots);
    ElemsCardinality(h);
    ElemsCardinality(other);
    Missing(Elems(other), Elems(h));
    var x :| x in Elems(other) && x !in Elems(h);
    var k :| 0 <= k < |other| && other[k] == x;
  }

  /** What holds of the offspring while the reference fill runs: the segment
      and the positions below `i` are filled, each with a city of `other`,
      and no city twice. */
  predicate FillInvariant(other: seq<City>, p1: nat, p2: nat, slots: Slots, i: nat) {
    && |slots| == |other| && p1 <= p2 <= |slots| && i <= |slots|
    && (forall k :: 0 <= k < |slots| ==> (slots[k].Some? <==> (k < i || p1 <= k < p2)))
    && (forall k :: 0 <= k < |slots| && slots[k].Some? ==> slots[k].value in other)
    && SlotsDistinct(slots)
  }

  lemma {:induction false} EffectiveFillPermutation(other: seq<City>, p1: nat, p2: nat, slots: Slots, i: nat)
    requires Distinct(other) && FillInvariant(other, p1, p2, slots, i)
    ensures var r := EffectiveFill(other, p1, p2, slots, i);
      && (forall k :: 0 <= k < |r| ==> r[k].Some?)
      && Distinct(Unwrap(r))
      && IsPermutation(Unwrap(r), other)
    decreases |slots| - i
  {
    if i == |slots| {
      var u := Unwrap(slots);
      assert forall k :: 0 <= k < |u| ==> u[k] in other;
      FullDistinctIsPermutation(u, other);
    } else if p1 <= i < p2 {
      EffectiveFillPermutation(other, p1, p2, slots, i + 1);
    } else {
      assert slots[i] == None;
      if Holds(slots, other[i]) {
        AbsentExists(other, slots);
      }
      var c := if Holds(slots, other[i]) then FirstAbsentOr(other, slots, other[i]) else other[i];
      assert c in other && !Holds(slots, c);
      var s' := slots[i := Some(c)];
      forall j, k | 0 <= j < k < |s'| && s'[j].Some?
        ensures s'[j] != s'[k]
      {
        if j == i {
          assert s'[k] == slots[k];
        } else if k == i {
          assert s'[j] == slots[j];
        }
      }
      assert FillInvariant(other, p1, p2, s', i + 1);
      EffectiveFillPermutation(other, p1, p2, s', i + 1);
    }
  }

  /** PMX applied to two routes visiting the same cities, each once, gives an
      offspring visiting those cities, each once; the fill loop terminates,
      no position needs the post-pass, and the offspring follows the
      reference rule. */
  lemma OffspringIsPermutation(donor: Route, other: Route, p1: nat, p2: nat)
    requires IsPermutation(donor.cities, other.cities) && Distinct(other.cities)
    requires p1 < p2 <= |donor.cities|
    ensures var r := CreateOffspring(donor, other, p1, p2);
      && r.Success?
      && IsPermutation(r.value.cities, other.cities)
      && Distinct(r.value.cities)
      && |donor.cities| == |other.cities|
      && var e := EffectiveFill(other.cities, p1, p2, Segment(donor.cities, p1, p2), 0);
         (forall k :: 0 <= k < |e| ==> e[k].Some?) && r.value.cities == Unwrap(e)
  {
    var d, o := donor.cities, other.cities;
    assert |d| == |multiset(d)| == |multiset(o)| == |o|;
    PermutationKeepsDistinct(d, o);
    var slots := Segment(d, p1, p2);
    OffspringByEffectiveFill(donor, other, p1, p2);
    forall k | 0 <= k < |slots| && slots[k].Some?
      ensures slots[k].value in o
    {
      assert d[k] in multiset(d);
    }
    assert FillInvariant(o, p1, p2, slots, 0);
    EffectiveFillPermutation(o, p1, p2, slots, 0);
    var e := EffectiveFill(o, p1, p2, slots, 0);
    PermutationKeepsDistinct(Unwrap(e), o);
  }

  /** With a duplicate-free other parent of the donor's length, the offspring
      is the patched effective fill. */
  lemma OffspringByEffectiveFill(donor: Route, other: Route, p1: nat, p2: nat)
    requires Distinct(other.cities) && |other.cities| == |donor.cities|
    requires p1 < p2 <= |donor.cities|
    ensures var e := EffectiveFill(other.cities, p1, p2, Segment(donor.cities, p1, p2), 0);
      (forall k :: 0 <= k < |e| ==> e[k].Some?) ==>
        CreateOffspring(donor, other, p1, p2) == Success(NewRoute(donor.start, Unwrap(e)))
  {
    var e := EffectiveFill(other.cities, p1, p2, Segment(donor.cities, p1, p2), 0);
    FillIsEffective(donor.cities, other.cities, p1, p2, Segment(donor.cities, p1, p2), 0);
    if forall k :: 0 <= k < |e| ==> e[k].Some? {
      assert PatchNulls(other.cities, e, 0) == e;
    }
  }

  /** Both offspring of two routes visiting the same cities, each once, are
      rearrangements of the parents' cities. */
  lemma CrossoverPreservesPermutation(parent1: Route, parent2: Route, p1: int, p2: int)
    requires IsPermutation(parent1.cities, parent2.cities) && Distinct(parent1.cities)
    requires !CutPointsRejected(p1, p2, |parent1.cities|)
    ensures var r := Crossover(parent1, parent2, p1, p2);
      && r.Success?
      && IsPermutation(r.value.0.cities, parent1.cities)
      && IsPermutation(r.value.1.cities, parent1.cities)
  {
    var a, b := parent1.cities, parent2.cities;
    assert |a| == |multiset(a)| == |multiset(b)| == |b|;
    PermutationKeepsDistinct(b, a);
    OffspringIsPermutation(parent1, parent2, p1, p2);
    OffspringIsPermutation(parent2, parent1, p1, p2);
  }

  /** The fill loop reads the other parent at every position outside the
      segment, so a shorter other parent fails it (unless the chain already
      diverged). */
  lemma {:induction false} FillShortOtherFails(donor: seq<City>, other: seq<City>, p1: nat, p2: nat,
                                               mapping: map<City, City>, slots: Slots, i: nat)
    requires |slots| == |donor| && p1 <= p2 <= |other| < |donor| && i <= |other|
    ensures Fill(donor, other, p1, p2, mapping, slots, i).Failure?
    decreases |other| - i
  {
    if i < |other| {
      if p1 <= i < p2 {
        FillShortOtherFails(donor, other, p1, p2, mapping, slots, i + 1);
      } else {
        match Resolve(other[i], slots, mapping, other, |mapping|)
        case None =>
        case Some(c) => FillShortOtherFails(donor, other, p1, p2, mapping, slots[i := Some(c)], i + 1);
      }
    }
  }

  /** Parents of different lengths make `crossover` fail: one of the two
      offspring reads its other parent past the end. */
  lemma SizeMismatchFails(parent1: Route, parent2: Route, p1: int, p2: int)
    requires |parent1.cities| != |parent2.cities|
    ensures Crossover(parent1, parent2, p1, p2).Failure?
  {
    if !CutPointsRejected(p1, p2, |parent1.cities|) && p2 <= |parent2.cities| {
      var a, b := parent1.cities, parent2.cities;
      var donor, other := if |a| < |b| then parent2 else parent1, if |a| < |b| then parent1 else parent2;
      var d, o := donor.cities, other.cities;
      var m := Mapping(d, o, p1, p2);
      FillShortOtherFails(d, o, p1, p2, m, Segment(d, p1, p2), 0);
      assert CreateOffspring(donor, other, p1, p2).Failure?;
    }
  }

  /** Crossing a repetition-free route with itself gives back its cities. */
  lemma {:induction false} EffectiveFillSelf(cs: seq<City>, p1: nat, p2: nat, slots: Slots, i: nat)
    requires Distinct(cs) && |slots| == |cs| && p1 <= p2 <= |cs| && i <= |cs|
    requires forall k :: 0 <= k < |cs| ==> slots[k] == if k < i || p1 <= k < p2 then Some(cs[k]) else None
    ensures EffectiveFill(cs, p1, p2, slots, i) == Segment(cs, 0, |cs|)
    decreases |cs| - i
  {
    if i == |cs| {
    } else if p1 <= i < p2 {
      EffectiveFillSelf(cs, p1, p2, slots, i + 1);
    } else {
      if Holds(slots, cs[i]) {
        var k :| 0 <= k < |slots| && slots[k] == Some(cs[i]);
        assert false;
      }
      EffectiveFillSelf(cs, p1, p2, slots[i := Some(cs[i])], i + 1);
    }
  }

  lemma SelfCrossover(parent: Route, p1: int, p2: int)
    requires Distinct(parent.cities) && !CutPointsRejected(p1, p2, |parent.cities|)
    ensures var r := Crossover(parent, parent, p1, p2);
      r.Success? && r.value.0.cities == parent.cities && r.value.1.cities == parent.cities
  {
    var cs := parent.cities;
    OffspringIsPermutation(parent, parent, p1, p2);
    EffectiveFillSelf(cs, p1, p2, Segment(cs, p1, p2), 0);
    assert Unwrap(Segment(cs, 0, |cs|)) == cs;
  }

  /** A segment covering the whole route copies the donor. */
  lemma WholeSegment(parent1: Route, parent2: Route)
    requires IsPermutation(parent1.cities, parent2.cities) && Distinct(parent1.cities)
    requires |parent1.cities| >= 1
    ensures var r := Crossover(parent1, parent2, 0, |parent1.cities|);
      r.Success? && r.value.0.cities == parent1.cities && r.value.1.cities == parent2.cities
  {
    CrossoverPreservesPermutation(parent1, parent2, 0, |parent1.cities|);
  }
}

=== FILE: populations.dfy ===
/** A population: an ordered list of routes with a lazy "sorted" flag. The
    sort is `Collections.sort` over `compareTo`, i.e. a stable sort by
    ascending total distance; it is modelled as an insertion sort, and
    `StableSortUnique` shows every stable sort gives the same order. */
module Populations {

  import opened Wrappers
  import opened Routes

  datatype Population = Population(routes: seq<Route>, sorted: bool)

  predicate AllMeasurable(rs: seq<Route>) {
    forall i :: 0 <= i < |rs| ==> Measurable(rs[i])
  }

  /** Ascending total distance. */
  predicate SortedByDistance(rs: seq<Route>)
    requires AllMeasurable(rs)
  {
    forall i, j {:trigger TotalDistance(rs[i]), TotalDistance(rs[j])} ::
      0 <= i < j < |rs| ==> TotalDistance(rs[i]) <= TotalDistance(rs[j])
  }

  /** The class invariant: every route can be measured, and a set flag
      means the routes really are in order. */
  predicate Invariant(p: Population) {
    AllMeasurable(p.routes) && (p.sorted ==> SortedByDistance(p.routes))
  }

  /** `new Population(int)`: an empty list; a negative capacity is an
      IllegalArgumentException (from ArrayList). */
  function WithCapacity(capacity: int): (r: Result<Population>)
    ensures r.Failure? <==> capacity < 0
    ensures r.Failure? ==> r.fault == IllegalArgument
    ensures r.Success? ==> r.value.routes == [] && Invariant(r.value)
  {
    if capacity < 0 then Failure(IllegalArgument) else Success(Population([], false))
  }

  /** `addRoute`: appends at the end and clears the flag. */
  function AddRoute(p: Population, r: Route): (q: Population)
    ensures |q.routes| == |p.routes| + 1 && q.routes[|p.routes|] == r
    ensures q.routes[..|p.routes|] == p.routes
    ensures !q.sorted
    ensures Invariant(p) && Measurable(r) ==> Invariant(q)
  {
    Population(p.routes + [r], false)
  }

  /** `setRoute`: replaces exactly one index, keeps the size, clears the flag. */
  function SetRoute(p: Population, i: nat, r: Route): (q: Population)
    requires i < |p.routes|
    ensures |q.routes| == |p.routes| && q.routes[i] == r
    ensures forall k :: 0 <= k < |p.routes| && k != i ==> q.routes[k] == p.routes[k]
    ensures !q.sorted
    ensures Invariant(p) && Measurable(r) ==> Invariant(q)
  {
    Population(p.routes[i := r], false)
  }

  /** Inserts `x` before the first route that is not shorter than it. */
  function Insert(x: Route, s: seq<Route>): (r: seq<Route>)
    requires Measurable(x) && AllMeasurable(s)
    ensures multiset(r) == multiset(s) + multiset{x}
    ensures |r| == |s| + 1 && AllMeasurable(r)
  {
    if s == [] || TotalDistance(x) <= TotalDistance(s[0]) then [x] + s
    else
      assert s == [s[0]] + s[1..];
      [s[0]] + Insert(x, s[1..])
  }

  /** Stable sort by ascending total distance. */
  function StableSort(s: seq<Route>): (r: seq<Route>)
    requires AllMeasurable(s)
    ensures multiset(r) == multiset(s)
    ensures |r| == |s| && AllMeasurable(r)
  {
    if s == [] then []
    else
      assert s == [s[0]] + s[1..];
      Insert(s[0], StableSort(s[1..]))
  }

  /** The routes of `s` whose total distance is `d`, in their order in `s`. */
  function WithDistance(s: seq<Route>, d: nat): seq<Route>
    requires AllMeasurable(s)
  {
    if s == [] then []
    else (if TotalDistance(s[0]) == d then [s[0]] else []) + WithDistance(s[1..], d)
  }

  /** `b` lists the routes of `a` with equal distances in the same relative
      order: this is what a stable sort keeps. */
  ghost predicate SameTies(a: seq<Route>, b: seq<Route>)
    requires AllMeasurable(a) && AllMeasurable(b)
  {
    forall d :: WithDistance(a, d) == WithDistance(b, d)
  }

  lemma {:induction false} InsertSorted(x: Route, s: seq<Route>)
    requires Measurable(x) && AllMeasurable(s) && SortedByDistance(s)
    ensures SortedByDistance(Insert(x, s))
  {
    if s != [] && TotalDistance(x) > TotalDistance(s[0]) {
      var t := Insert(x, s[1..]);
      InsertSorted(x, s[1..]);
      forall k | 0 <= k < |t|
        ensures TotalDistance(s[0]) <= TotalDistance(t[k])
      {
        assert t[k] in multiset(s[1..]) + multiset{x};
        if t[k] != x {
          assert t[k] in s[1..];
        }
      }
      ConsSorted(s[0], t);
    }
  }

  /** A route no longer than any route of a sorted sequence can be put in
      front of it. */
  lemma ConsSorted(x: Route, t: seq<Route>)
    requires Measurable(x) && AllMeasurable(t) && SortedByDistance(t)
    requires forall k :: 0 <= k < |t| ==> TotalDistance(x) <= TotalDistance(t[k])
    ensures SortedByDistance([x] + t)
  {
    var u := [x] + t;
    forall i, j | 0 <= i < j < |u|
      ensures TotalDistance(u[i]) <= TotalDistance(u[j])
    {
      assert u[j] == t[j - 1];
      if i > 0 {
        assert u[i] == t[i - 1];
      }
    }
  }

  lemma {:induction false} InsertTies(x: Route, s: seq<Route>, d: nat)
    requires Measurable(x) && AllMeasurable(s)
    ensures WithDistance(Insert(x, s), d) ==
      (if TotalDistance(x) == d then [x] else []) + WithDistance(s, d)
  {
    if s != [] && TotalDistance(x) > TotalDistance(s[0]) {
      InsertTies(x, s[1..], d);
      assert ([s[0]] + Insert(x, s[1..]))[1..] == Insert(x, s[1..]);
    } else {
      assert ([x] + s)[1..] == s;
    }
  }

  /** The sort orders routes by distance. */
  lemma {:induction false} StableSortSorted(s: seq<Route>)
    requires AllMeasurable(s)
    ensures SortedByDistance(StableSort(s))
  {
    if s != [] {
      StableSortSorted(s[1..]);
      InsertSorted(s[0], StableSort(s[1..]));
    }
  }

  /** The sort keeps routes of equal distance in their prior order. */
  lemma {:induction false} StableSortStable(s: seq<Route>)
    requires AllMeasurable(s)
    ensures SameTies(s, StableSort(s))
  {
    if s != [] {
      StableSortStable(s[1..]);
      forall d ensures WithDistance(s, d) == WithDistance(StableSort(s), d) {
        InsertTies(s[0], StableSort(s[1..]), d);
      }
    }
  }

  lemma {:induction false} WithDistanceMembers(s: seq<Route>, d: nat, x: Route)
    requires AllMeasurable(s)
    ensures x in WithDistance(s, d) <==> x in s && TotalDistance(x) == d
  {
    if s != [] {
      WithDistanceMembers(s[1..], d, x);
      assert s == [s[0]] + s[1..];
    }
  }

  /** Two sorted sequences with the same ties start with the same route. */
  lemma SameTiesSameHead(a: seq<Route>, b: seq<Route>)
    requires AllMeasurable(a) && AllMeasurable(b)
    requires SortedByDistance(a) && SortedByDistance(b) && SameTies(a, b)
    requires a != []
    ensures b != [] && a[0] == b[0]
  {
    var da := TotalDistance(a[0]);
    WithDistanceMembers(a, da, a[0]);
    assert a[0] in WithDistance(b, da);
    WithDistanceMembers(b, da, a[0]);
    var db := TotalDistance(b[0]);
    assert db <= da;
    WithDistanceMembers(b, db, b[0]);
    assert b[0] in WithDistance(a, db);
    WithDistanceMembers(a, db, b[0]);
    assert da <= db;
    assert da == db;
    var wa, wb := WithDistance(a, da), WithDistance(b, da);
    assert wa == [a[0]] + WithDistance(a[1..], da);
    assert wb == [b[0]] + WithDistance(b[1..], da);
    assert wa == wb;
    assert wa[0] == a[0] && wb[0] == b[0];
  }

  /** Dropping equal heads keeps the ties equal. */
  lemma SameTiesTails(a: seq<Route>, b: seq<Route>)
    requires AllMeasurable(a) && AllMeasurable(b) && SameTies(a, b)
    requires a != [] && b != [] && a[0] == b[0]
    ensures SameTies(a[1..], b[1..])
  {
    forall d ensures WithDistance(a[1..], d) == WithDistance(b[1..], d) {
      var h := if TotalDistance(a[0]) == d then [a[0]] else [];
      var wa, wb := WithDistance(a, d), WithDistance(b, d);
      assert wa == h + WithDistance(a[1..], d);
      assert wb == h + WithDistance(b[1..], d);
      assert wa == wb;
      assert WithDistance(a[1..], d) == wa[|h|..];
      assert WithDistance(b[1..], d) == wb[|h|..];
    }
  }

  /** A sorted sequence with the same ties as another sorted one is equal to
      it: any stable sort (Java's merge sort included) produces exactly
      `StableSort(s)`. */
  lemma {:induction false} StableSortUnique(a: seq<Route>, b: seq<Route>)
    requires AllMeasurable(a) && AllMeasurable(b)
    requires SortedByDistance(a) && SortedByDistance(b) && SameTies(a, b)
    ensures a == b
  {
    if a == [] {
      if b != [] {
        SameTiesSameHead(b, a);
      }
    } else {
      SameTiesSameHead(a, b);
      SameTiesTails(a, b);
      StableSortUnique(a[1..], b[1..]);
      assert a == [a[0]] + a[1..] && b == [b[0]] + b[1..];
    }
  }

  /** `sortByFitness`: a no-op while the flag is set; otherwise a stable
      sort by ascending distance that sets the flag. */
  function SortByFitness(p: Population): (q: Population)
    requires Invariant(p)
    ensures q.sorted && Invariant(q)
    ensures multiset(q.routes) == multiset(p.routes) && |q.routes| == |p.routes|
    ensures SameTies(p.routes, q.routes)
  {
    if p.sorted then p
    else
      StableSortSorted(p.routes);
      StableSortStable(p.routes);
      Population(StableSort(p.routes), true)
  }

  /** Sorting is idempotent. */
  lemma SortIdempotent(p: Population)
    requires Invariant(p)
    ensures SortByFitness(SortByFitness(p)) == SortByFitness(p)
  {
  }

  /** The flag only saves work: with or without it, the sorted routes are
      the same. */
  lemma SortIgnoresFlag(p: Population)
    requires Invariant(p)
    ensures SortByFitness(p).routes == SortByFitness(Population(p.routes, false)).routes
  {
    var q := SortByFitness(p);
    var q' := SortByFitness(Population(p.routes, false));
    forall d ensures WithDistance(q.routes, d) == WithDistance(q'.routes, d) {
      assert WithDistance(q.routes, d) == WithDistance(p.routes, d);
    }
    StableSortUnique(q.routes, q'.routes);
  }

  /** `getBestRoute`: index 0 after sorting; an empty list throws. */
  function BestRoute(p: Population): (r: Result<Route>)
    requires Invariant(p)
    ensures r.Success? <==> |p.routes| > 0
    ensures r.Failure? ==> r.fault == IndexOutOfBounds
    ensures r.Success? ==> r.value in p.routes
    ensures r.Success? ==> forall k :: 0 <= k < |p.routes| ==>
      TotalDistance(r.value) <= TotalDistance(p.routes[k])
  {
    var q := SortByFitness(p);
    if |q.routes| == 0 then Failure(IndexOutOfBounds)
    else
      SortedHasExtremes(p.routes, q.routes);
      Success(q.routes[0])
  }

  /** The first route of `s` at distance `d` heads `WithDistance(s, d)`. */
  lemma {:induction false} FirstWithDistance(s: seq<Route>, d: nat, i: nat) returns (k: nat)
    requires AllMeasurable(s) && i < |s| && TotalDistance(s[i]) == d
    ensures k <= i && TotalDistance(s[k]) == d
    ensures WithDistance(s, d) != [] && WithDistance(s, d)[0] == s[k]
    ensures forall j :: 0 <= j < k ==> TotalDistance(s[j]) != d
  {
    if TotalDistance(s[0]) == d {
      k := 0;
    } else {
      var k' := FirstWithDistance(s[1..], d, i - 1);
      k := k' + 1;
      assert WithDistance(s, d) == WithDistance(s[1..], d);
    }
  }

  /** Because the sort is stable, the best route is the first route, in
      population order, of the shortest distance: every route before it is
      strictly longer. */
  lemma BestIsFirstShortest(p: Population) returns (k: nat)
    requires Invariant(p) && |p.routes| > 0
    ensures k < |p.routes| && BestRoute(p) == Success(p.routes[k])
    ensures forall j :: 0 <= j < k ==> TotalDistance(p.routes[j]) > TotalDistance(p.routes[k])
  {
    var q := SortByFitness(p);
    var best := q.routes[0];
    assert BestRoute(p) == Success(best);
    var d := TotalDistance(best);
    var i :| 0 <= i < |p.routes| && p.routes[i] == best;
    k := FirstWithDistance(p.routes, d, i);
    assert WithDistance(q.routes, d)[0] == best;
    assert WithDistance(p.routes, d) == WithDistance(q.routes, d);
  }

  /** `getWorstRoute`: the last index after sorting; an empty list throws. */
  function WorstRoute(p: Population): (r: Result<Route>)
    requires Invariant(p)
    ensures r.Success? <==> |p.routes| > 0
    ensures r.Failure? ==> r.fault == IndexOutOfBounds
    ensures r.Success? ==> r.value in p.routes
    ensures r.Success? ==> forall k :: 0 <= k < |p.routes| ==>
      TotalDistance(r.value) >= TotalDistance(p.routes[k])
  {
    var q := SortByFitness(p);
    if |q.routes| == 0 then Failure(IndexOutOfBounds)
    else
      SortedHasExtremes(p.routes, q.routes);
      Success(q.routes[|q.routes| - 1])
  }

  lemma SortedHasExtremes(s: seq<Route>, t: seq<Route>)
    requires AllMeasurable(s) && AllMeasurable(t) && SortedByDistance(t)
    requires multiset(s) == multiset(t) && |t| > 0
    ensures t[0] in s && t[|t| - 1] in s
    ensures forall k :: 0 <= k < |s| ==> TotalDistance(t[0]) <= TotalDistance(s[k])
    ensures forall k :: 0 <= k < |s| ==> TotalDistance(s[k]) <= TotalDistance(t[|t| - 1])
  {
    assert t[0] in multiset(t) && t[|t| - 1] in multiset(t);
    forall k | 0 <= k < |s|
      ensures TotalDistance(t[0]) <= TotalDistance(s[k]) <= TotalDistance(t[|t| - 1])
    {
      assert s[k] in multiset(s);
      var j :| 0 <= j < |t| && t[j] == s[k];
    }
  }

  function SumDistances(s: seq<Route>): nat
    requires AllMeasurable(s)
  {
    if s == [] then 0 else TotalDistance(s[0]) + SumDistances(s[1..])
  }

  /** `getAverageDistance`: the mean total distance, 0 for no routes. */
  function AverageDistance(p: Population): (a: real)
    requires AllMeasurable(p.routes)
    ensures |p.routes| == 0 ==> a == 0.0
    ensures |p.routes| > 0 ==> IsMean(a, SumDistances(p.routes), |p.routes|)
  {
    if |p.routes| == 0 then 0.0 else Mean(SumDistances(p.routes), |p.routes|)
  }

  /** `m` is `sum` shared equally among `n`. */
  predicate IsMean(m: real, sum: nat, n: nat) {
    m * (n as real) == sum as real
  }

  function Mean(sum: nat, n: nat): (m: real)
    requires n > 0
    ensures IsMean(m, sum, n)
  {
    DivideThenScale(sum as real, n as real);
    (sum as real) / (n as real)
  }

  lemma {:induction false} SumBounds(s: seq<Route>, lo: nat, hi: nat)
    requires AllMeasurable(s)
    requires forall k :: 0 <= k < |s| ==> lo <= TotalDistance(s[k]) <= hi
    ensures |s| * lo <= SumDistances(s) <= |s| * hi
  {
    if s != [] {
      SumBounds(s[1..], lo, hi);
      assert |s| * lo == lo + (|s| - 1) * lo;
      assert |s| * hi == hi + (|s| - 1) * hi;
    }
  }

  lemma DivideThenScale(x: real, n: real)
    requires n > 0.0
    ensures (x / n) * n == x
  {
  }

  /** A mean of values within [lo, hi] lies within [lo, hi]. */
  lemma MeanBetween(m: real, sum: nat, n: nat, lo: nat, hi: nat)
    requires n > 0 && IsMean(m, sum, n)
    requires n * lo <= sum <= n * hi
    ensures lo as real <= m <= hi as real
  {
    assert (n * lo) as real == (lo as real) * (n as real);
    assert (n * hi) as real == (hi as real) * (n as real);
  }

  /** The average lies between the best and the worst distance. */
  lemma AverageBetweenBestAndWorst(p: Population)
    requires Invariant(p) && |p.routes| > 0
    ensures TotalDistance(BestRoute(p).value) as real <= AverageDistance(p)
    ensures AverageDistance(p) <= TotalDistance(WorstRoute(p).value) as real
  {
    var lo, hi := TotalDistance(BestRoute(p).value), TotalDistance(WorstRoute(p).value);
    SumBounds(p.routes, lo, hi);
    MeanBetween(AverageDistance(p), SumDistances(p.routes), |p.routes|, lo, hi);
  }

  /** `getTopRoutes(n)`: the first min(n, size) routes of the sorted order;
      a negative n makes `subList(0, n)` throw IllegalArgumentException,
      because its start index then exceeds its end index. */
  function TopRoutes(p: Population, n: int): (r: Result<seq<Route>>)
    requires Invariant(p)
    ensures r.Failure? <==> n < 0
    ensures r.Failure? ==> r.fault == IllegalArgument
    ensures r.Success? ==> |r.value| == if n < |p.routes| then n else |p.routes|
    ensures r.Success? ==> r.value == SortByFitness(p).routes[..|r.value|]
    ensures r.Success? ==> forall i, k :: 0 <= i < |r.value| <= k < |p.routes| ==>
      TotalDistance(r.value[i]) <= TotalDistance(SortByFitness(p).routes[k])
  {
    var q := SortByFitness(p);
    if n < 0 then Failure(IllegalArgument)
    else
      var count := if n < |q.routes| then n else |q.routes|;
      Success(q.routes[..count])
  }
}

=== FILE: routes.dfy ===
/** A route: the fixed start city plus the ordered other cities of a closed
    tour, with its memoised total distance and fitness. */
module Routes {

  import opened Wrappers
  import opened Cities
  import opened Distances

  /** The two caches are `None` until computed; `SetCity` clears them. */
  datatype Route = Route(
    start: City,
    cities: seq<City>,
    distanceCache: Option<nat>,
    fitnessCache: Option<real>)

  /** Sum of the distances between consecutive cities of `cs`. */
  function PathLength(cs: seq<City>): nat
  {
    if |cs| <= 1 then 0 else Dist(cs[0], cs[1]) + PathLength(cs[1..])
  }

  /** Length of the closed tour start -> cs[0] -> ... -> cs[n-1] -> start.
      The source reads `cities.get(0)`, so an empty tour has no length. */
  function TourLength(start: City, cs: seq<City>): nat
    requires |cs| >= 1
  {
    Dist(start, cs[0]) + PathLength(cs) + Dist(cs[|cs| - 1], start)
  }

  /** Fitness of a distance: 0 for a zero-length tour, otherwise the
      reciprocal. (The source's infinite/NaN branch cannot arise with
      natural-number distances.) */
  function FitnessOf(d: nat): (f: real)
    ensures f >= 0.0
    ensures d == 0 <==> f == 0.0
    ensures d > 0 ==> f * (d as real) == 1.0
  {
    if d == 0 then 0.0 else 1.0 / (d as real)
  }

  /** Both caches, when present, hold the values of the current cities. */
  predicate CacheCoherent(r: Route) {
    && (r.distanceCache.Some? ==>
          |r.cities| >= 1 && r.distanceCache.value == TourLength(r.start, r.cities))
    && (r.fitnessCache.Some? ==>
          |r.cities| >= 1 && r.fitnessCache.value == FitnessOf(TourLength(r.start, r.cities)))
  }

  /** `getTotalDistance` can answer: from its cache, or by computing over a
      non-empty city list. */
  predicate Measurable(r: Route) {
    r.distanceCache.Some? || |r.cities| >= 1
  }

  /** The constructor: copies the given cities and starts with empty caches. */
  function NewRoute(start: City, cities: seq<City>): (r: Route)
    ensures r.start == start && r.cities == cities
    ensures r.distanceCache.None? && r.fitnessCache.None?
    ensures CacheCoherent(r)
  {
    Route(start, cities, None, None)
  }

  /** The copy constructor: same start, equal cities, and the already
      computed caches carried over. */
  function CopyRoute(r: Route): (c: Route)
    ensures c.start == r.start && c.cities == r.cities
    ensures c.distanceCache == r.distanceCache && c.fitnessCache == r.fitnessCache
    ensures CacheCoherent(r) ==> CacheCoherent(c)
  {
    Route(r.start, r.cities, r.distanceCache, r.fitnessCache)
  }

  /** `getTotalDistance`: the cached value if there is one, else the tour
      length. With a coherent cache it is always the tour length. */
  function TotalDistance(r: Route): (d: nat)
    requires Measurable(r)
    ensures CacheCoherent(r) ==> |r.cities| >= 1 && d == TourLength(r.start, r.cities)
    ensures r.distanceCache.None? ==> d == TourLength(r.start, r.cities)
  {
    match r.distanceCache
    case Some(d) => d
    case None => TourLength(r.start, r.cities)
  }

  /** `getFitness`: the cached value if there is one, else the fitness of
      the total distance. */
  function Fitness(r: Route): (f: real)
    requires Measurable(r)
    ensures CacheCoherent(r) ==> f == FitnessOf(TourLength(r.start, r.cities))
    ensures CacheCoherent(r) ==> f >= 0.0
  {
    match r.fitnessCache
    case Some(f) => f
    case None => FitnessOf(TotalDistance(r))
  }

  /** The caches as the getters leave them once both have been read. */
  function Memoize(r: Route): (m: Route)
    requires |r.cities| >= 1 && CacheCoherent(r)
    ensures m.start == r.start && m.cities == r.cities
    ensures m.distanceCache.Some? && m.fitnessCache.Some?
    ensures CacheCoherent(m)
    ensures TotalDistance(m) == TotalDistance(r) && Fitness(m) == Fitness(r)
  {
    var d := TotalDistance(r);
    Route(r.start, r.cities, Some(d), Some(FitnessOf(d)))
  }

  /** `setCity`: overwrites one position and invalidates both caches. */
  function SetCity(r: Route, i: nat, c: City): (r': Route)
    requires i < |r.cities|
    ensures r'.start == r.start && |r'.cities| == |r.cities|
    ensures r'.cities[i] == c
    ensures forall k :: 0 <= k < |r.cities| && k != i ==> r'.cities[k] == r.cities[k]
    ensures r'.distanceCache.None? && r'.fitnessCache.None? && CacheCoherent(r')
  {
    Route(r.start, r.cities[i := c], None, None)
  }

  /** After `setCity` the distance and fitness describe the new cities: no
      stale value survives, whatever the caches held before. */
  lemma SetCityRefreshes(r: Route, i: nat, c: City)
    requires i < |r.cities|
    ensures TotalDistance(SetCity(r, i, c)) == TourLength(r.start, r.cities[i := c])
    ensures Fitness(SetCity(r, i, c)) == FitnessOf(TourLength(r.start, r.cities[i := c]))
  {
  }

  /** `compareTo`: Double.compare of the two total distances. */
  function Compare(a: Route, b: Route): (c: int)
    requires Measurable(a) && Measurable(b)
    ensures c == -1 || c == 0 || c == 1
    ensures c < 0 <==> TotalDistance(a) < TotalDistance(b)
    ensures c == 0 <==> TotalDistance(a) == TotalDistance(b)
    ensures c > 0 <==> TotalDistance(a) > TotalDistance(b)
  {
    if TotalDistance(a) < TotalDistance(b) then -1
    else if TotalDistance(a) == TotalDistance(b) then 0
    else 1
  }

  /** `compareTo` is a total preorder: antisymmetric in sign and transitive. */
  lemma CompareIsPreorder(a: Route, b: Route, c: Route)
    requires Measurable(a) && Measurable(b) && Measurable(c)
    ensures Compare(a, b) == -Compare(b, a)
    ensures Compare(a, b) <= 0 && Compare(b, c) <= 0 ==> Compare(a, c) <= 0
  {
  }

  function Names(cs: seq<City>): (ns: seq<string>)
    ensures |ns| == |cs|
    ensures forall k :: 0 <= k < |cs| ==> ns[k] == cs[k].name
  {
    if cs == [] then [] else [cs[0].name] + Names(cs[1..])
  }

  /** `getCityNames`: the closed tour's names, start city at both ends. */
  function CityNames(r: Route): (ns: seq<string>)
    ensures |ns| == |r.cities| + 2
    ensures ns[0] == r.start.name && ns[|ns| - 1] == r.start.name
    ensures forall k :: 0 <= k < |r.cities| ==> ns[k + 1] == r.cities[k].name
  {
    [r.start.name] + Names(r.cities) + [r.start.name]
  }

  /** A one-city tour goes out and back along the same edge. */
  lemma SingleCityTour(start: City, c: City)
    ensures TourLength(start, [c]) == 2 * Dist(start, c)
  {
    DistSymmetric(c, start);
  }

  function Reverse<T>(s: seq<T>): (r: seq<T>)
    ensures |r| == |s|
    ensures forall k :: 0 <= k < |s| ==> r[k] == s[|s| - 1 - k]
  {
    if s == [] then [] else Reverse(s[1..]) + [s[0]]
  }

  lemma {:induction false} PathLengthAppend(cs: seq<City>, c: City)
    requires |cs| >= 1
    ensures PathLength(cs + [c]) == PathLength(cs) + Dist(cs[|cs| - 1], c)
  {
    if |cs| > 1 {
      assert (cs + [c])[1..] == cs[1..] + [c];
      PathLengthAppend(cs[1..], c);
    }
  }

  lemma {:induction false} PathLengthReverse(cs: seq<City>)
    ensures PathLength(Reverse(cs)) == PathLength(cs)
  {
    if |cs| > 1 {
      var t := cs[1..];
      PathLengthReverse(t);
      assert Reverse(cs) == Reverse(t) + [cs[0]];
      PathLengthAppend(Reverse(t), cs[0]);
      DistSymmetric(cs[0], cs[1]);
    }
  }

  /** The table is symmetric, so a tour driven backwards has the same
      length. */
  lemma TourLengthReverse(start: City, cs: seq<City>)
    requires |cs| >= 1
    ensures TourLength(start, Reverse(cs)) == TourLength(start, cs)
  {
    PathLengthReverse(cs);
    DistSymmetric(start, cs[|cs| - 1]);
    DistSymmetric(cs[0], start);
  }

  /** Fitness strictly decreases as the distance grows. */
  lemma FitnessDecreasing(d1: nat, d2: nat)
    requires 0 < d1 < d2
    ensures FitnessOf(d1) > FitnessOf(d2)
  {
    var f1, f2 := FitnessOf(d1), FitnessOf(d2);
    assert f1 * (d1 as real) == 1.0 && f2 * (d2 as real) == 1.0;
    assert f2 * (d1 as real) < f2 * (d2 as real);
  }
}

=== FILE: selection.dfy ===
/** The selection strategies. Draws from the random source are parameters:
    indices for `nextInt`, reals in [0, 1) for `nextDouble`. Fitness sums
    are exact reals; floating-point rounding is not modelled. */
module Selection {

  import opened Wrappers
  import opened Cities
  import opened Routes
  import opened Populations

  /* ---------- Elite ---------- */

  /** `selectElite`: sorts the population (in place in the source; the
      caller applies `SortByFitness` itself) and returns its first
      min(k, size) routes, the very route values of the population. */
  function SelectElite(p: Population, k: int): (r: Result<seq<Route>>)
    requires Invariant(p)
    ensures r.Failure? <==> k < 0
    ensures r.Failure? ==> r.fault == IllegalArgument
    ensures r.Success? ==> |r.value| == if k < |p.routes| then k else |p.routes|
  {
    TopRoutes(SortByFitness(p), k)
  }

  /** The elites are members of the population, and none is longer than
      any route left out. */
  lemma EliteAreBest(p: Population, k: int)
    requires Invariant(p) && k >= 0
    ensures var e := SelectElite(p, k).value;
      && multiset(e) <= multiset(p.routes)
      && forall i, x :: 0 <= i < |e| && x in p.routes && x !in e ==>
           TotalDistance(e[i]) <= TotalDistance(x)
  {
    var q := SortByFitness(p);
    var e := SelectElite(p, k).value;
    assert e == q.routes[..|e|];
    PrefixBelowRest(q.routes, |e|);
    assert forall x :: x in p.routes ==> x in multiset(q.routes);
  }

  /** Every route outside a prefix of a sorted sequence is at least as long
      as every route inside it. */
  lemma PrefixBelowRest(s: seq<Route>, n: nat)
    requires AllMeasurable(s) && SortedByDistance(s) && n <= |s|
    ensures multiset(s[..n]) <= multiset(s)
    ensures forall i, x :: 0 <= i < n && x in s && x !in s[..n] ==>
      TotalDistance(s[i]) <= TotalDistance(x)
  {
    assert s == s[..n] + s[n..];
    assert forall j :: 0 <= j < n ==> s[..n][j] == s[j];
    forall i, x | 0 <= i < n && x in s && x !in s[..n]
      ensures TotalDistance(s[i]) <= TotalDistance(x)
    {
      var j :| 0 <= j < |s| && s[j] == x;
    }
  }

  /** Sorting keeps the members. */
  lemma SortedMembers(p: Population)
    requires Invariant(p)
    ensures forall x :: x in SortByFitness(p).routes ==> x in p.routes
  {
    var q := SortByFitness(p);
    forall x | x in q.routes ensures x in p.routes {
      assert x in multiset(q.routes);
    }
  }

  /* ---------- Tournament ---------- */

  /** The routes a tournament draws, in draw order. */
  function Picked(rs: seq<Route>, draws: seq<nat>): (t: seq<Route>)
    requires forall k :: 0 <= k < |draws| ==> draws[k] < |rs|
    ensures |t| == |draws|
    ensures forall k :: 0 <= k < |draws| ==> t[k] == rs[draws[k]]
  {
    seq(|draws|, k requires 0 <= k < |draws| => rs[draws[k]])
  }

  /** The indices a tournament of `size` draws from a population of `n`
      routes with `nextInt(n)`. */
  predicate TournamentDraws(n: nat, size: int, draws: seq<nat>) {
    size >= 0 && (size == 0 || n > 0) ==>
      |draws| == size && forall k :: 0 <= k < |draws| ==> draws[k] < n
  }

  /** `tournamentSelection`: a population of `size` drawn routes, and its
      best route. A negative size fails in `new Population`, drawing from an
      empty population fails in `nextInt`, and an empty tournament has no
      best route. */
  function Tournament(p: Population, size: int, draws: seq<nat>): (r: Result<Route>)
    requires Invariant(p) && TournamentDraws(|p.routes|, size, draws)
    ensures size < 0 ==> r == Failure(IllegalArgument)
    ensures size > 0 && |p.routes| == 0 ==> r == Failure(IllegalArgument)
    ensures size == 0 ==> r == Failure(IndexOutOfBounds)
    ensures r.Success? <==> size > 0 && |p.routes| > 0
    ensures r.Success? ==> r.value in p.routes
    ensures r.Success? ==> exists k :: 0 <= k < |draws| && r.value == p.routes[draws[k]]
    ensures r.Success? ==> forall k :: 0 <= k < |draws| ==>
      TotalDistance(r.value) <= TotalDistance(p.routes[draws[k]])
  {
    if size < 0 then Failure(IllegalArgument)
    else if size > 0 && |p.routes| == 0 then Failure(IllegalArgument)
    else
      var tournament := Population(Picked(p.routes, draws), false);
      var best := BestRoute(tournament);
      if best.Success? then
        assert exists k :: 0 <= k < |draws| && best.value == p.routes[draws[k]] by {
          var k :| 0 <= k < |draws| && tournament.routes[k] == best.value;
        }
        best
      else best
  }

  /** The winner is the first route, in draw order, of the shortest drawn
      distance: the stable sort keeps earlier draws ahead of later ties. */
  lemma TournamentFirstShortest(p: Population, size: int, draws: seq<nat>) returns (k: nat)
    requires Invariant(p) && TournamentDraws(|p.routes|, size, draws)
    requires size > 0 && |p.routes| > 0
    ensures k < |draws| && Tournament(p, size, draws) == Success(p.routes[draws[k]])
    ensures forall j :: 0 <= j < k ==>
      TotalDistance(p.routes[draws[j]]) > TotalDistance(p.routes[draws[k]])
  {
    var tournament := Population(Picked(p.routes, draws), false);
    k := BestIsFirstShortest(tournament);
    assert Tournament(p, size, draws) == BestRoute(tournament);
  }

  /** A tournament that draws a best route of the population returns a route
      as short as any in the population. */
  lemma TournamentHitsBest(p: Population, size: int, draws: seq<nat>, k: nat)
    requires Invariant(p) && TournamentDraws(|p.routes|, size, draws)
    requires size > 0 && |p.routes| > 0 && k < |draws|
    requires forall j :: 0 <= j < |p.routes| ==>
      TotalDistance(p.routes[draws[k]]) <= TotalDistance(p.routes[j])
    ensures var r := Tournament(p, size, draws);
      r.Success? && forall j :: 0 <= j < |p.routes| ==> TotalDistance(r.value) <= TotalDistance(p.routes[j])
  {
  }

  /* ---------- Cumulative fitness ---------- */

  /** The fitness of each route, in population order. */
  function Fitnesses(rs: seq<Route>): (fs: seq<real>)
    requires AllMeasurable(rs)
    ensures |fs| == |rs|
    ensures forall i :: 0 <= i < |rs| ==> fs[i] == Fitness(rs[i])
  {
    seq(|rs|, i requires 0 <= i < |rs| => Fitness(rs[i]))
  }

  predicate NonNegative(fs: seq<real>) {
    forall i :: 0 <= i < |fs| ==> fs[i] >= 0.0
  }

  /** Every route's caches agree with its cities. */
  predicate AllCoherent(rs: seq<Route>) {
    forall i :: 0 <= i < |rs| ==> CacheCoherent(rs[i])
  }

  lemma CoherentFitnessNonNegative(rs: seq<Route>)
    requires AllMeasurable(rs) && AllCoherent(rs)
    ensures NonNegative(Fitnesses(rs))
  {
  }

  /** The fitness sum over positions 0..i, both included, accumulated left
      to right as the loops do. */
  function Through(fs: seq<real>, i: nat): real
    requires i < |fs|
  {
    if i == 0 then fs[0] else Through(fs, i - 1) + fs[i]
  }

  /** The total fitness; 0 for no routes. */
  function Total(fs: seq<real>): real {
    if |fs| == 0 then 0.0 else Through(fs, |fs| - 1)
  }

  lemma {:induction false} ThroughMonotone(fs: seq<real>, i: nat, j: nat)
    requires NonNegative(fs) && i <= j < |fs|
    ensures 0.0 <= Through(fs, i) <= Through(fs, j)
    decreases j
  {
    if i < j {
      ThroughMonotone(fs, i, j - 1);
    } else if i > 0 {
      ThroughMonotone(fs, i - 1, i - 1);
    }
  }

  /** The scan shared by roulette and SUS: the first index from `i` on whose
      running fitness sum, itself included, reaches `v`. */
  function FirstReaching(fs: seq<real>, v: real, i: nat): (r: Option<nat>)
    requires i <= |fs|
    ensures r.Some? ==> i <= r.value < |fs| && Through(fs, r.value) >= v
    ensures r.Some? ==> forall j :: i <= j < r.value ==> Through(fs, j) < v
    ensures r.None? ==> forall j :: i <= j < |fs| ==> Through(fs, j) < v
    decreases |fs| - i
  {
    if i == |fs| then None
    else if Through(fs, i) >= v then Some(i)
    else FirstReaching(fs, v, i + 1)
  }

  /** A target no larger than the total is always reached. */
  lemma TotalIsReached(fs: seq<real>, v: real, i: nat)
    requires i < |fs| && v <= Total(fs)
    ensures FirstReaching(fs, v, i).Some?
  {
    var r := FirstReaching(fs, v, i);
    if r.None? {
      assert Through(fs, |fs| - 1) < v;
    }
  }

  /* ---------- Roulette ---------- */

  /** Where the wheel stops for the draw `u`: the first route whose running
      fitness reaches u times the total. */
  function RouletteIndex(fs: seq<real>, u: real): Option<nat> {
    FirstReaching(fs, u * Total(fs), 0)
  }

  /** `rouletteSelection` with `u` the `nextDouble` draw; if the wheel does
      not stop, the last route, which on an empty population is
      `getRoute(-1)`. */
  function Roulette(p: Population, u: real): (r: Result<Route>)
    requires Invariant(p)
    ensures |p.routes| == 0 <==> r == Failure(IndexOutOfBounds)
    ensures r.Success? ==> r.value in p.routes
  {
    match RouletteIndex(Fitnesses(p.routes), u)
    case Some(i) => Success(p.routes[i])
    case None =>
      if |p.routes| == 0 then Failure(IndexOutOfBounds) else Success(p.routes[|p.routes| - 1])
  }

  lemma ScaledBelow(u: real, t: real)
    requires 0.0 <= u < 1.0 && t >= 0.0
    ensures u * t <= t
  {
    var a := 1.0 - u;
    assert a * t >= 0.0 by {
      if t > 0.0 {
        assert a * t > 0.0 * t;
      }
    }
    assert u * t == t - a * t;
  }

  /** With non-negative fitness values and u in [0, 1) the wheel always
      stops; the fallback is unreachable. */
  lemma WheelStops(fs: seq<real>, u: real)
    requires NonNegative(fs) && |fs| > 0 && 0.0 <= u < 1.0
    ensures RouletteIndex(fs, u).Some?
  {
    var t := Total(fs);
    ThroughMonotone(fs, 0, |fs| - 1);
    ScaledBelow(u, t);
    TotalIsReached(fs, u * t, 0);
  }

  /** With coherent caches the roulette result is the route the wheel stops
      at. */
  lemma RouletteStopsOnWheel(p: Population, u: real)
    requires Invariant(p) && AllCoherent(p.routes) && |p.routes| > 0 && 0.0 <= u < 1.0
    ensures RouletteIndex(Fitnesses(p.routes), u).Some?
    ensures Roulette(p, u) == Success(p.routes[RouletteIndex(Fitnesses(p.routes), u).value])
  {
    CoherentFitnessNonNegative(p.routes);
    WheelStops(Fitnesses(p.routes), u);
  }

  /** When every fitness is 0 the wheel stops at the first route, whatever
      the draw. */
  lemma {:induction false} RouletteAllZero(p: Population, u: real)
    requires Invariant(p) && |p.routes| > 0
    requires forall i :: 0 <= i < |p.routes| ==> Fitness(p.routes[i]) == 0.0
    ensures Roulette(p, u) == Success(p.routes[0])
  {
    var fs := Fitnesses(p.routes);
    ZeroThrough(fs, |fs| - 1);
    assert Through(fs, 0) == 0.0;
  }

  lemma {:induction false} ZeroThrough(fs: seq<real>, i: nat)
    requires i < |fs| && forall k :: 0 <= k < |fs| ==> fs[k] == 0.0
    ensures Through(fs, i) == 0.0
  {
    if i > 0 {
      ZeroThrough(fs, i - 1);
    }
  }

  /* ---------- Rank ---------- */

  /** Java's `/` on int: truncation toward zero. */
  function JavaDiv2(x: int): (q: int)
    ensures x >= 0 ==> 2 * q <= x <= 2 * q + 1
    ensures x < 0 ==> 2 * q - 1 <= x <= 2 * q
  {
    if x >= 0 then x / 2 else -((-x) / 2)
  }

  /** `size * (size + 1) / 2` in 32-bit int arithmetic. */
  function TotalRank(n: nat): int {
    JavaDiv2(Wrap32(n * (n + 1)))
  }

  /** The `nextInt(totalRank)` draw, where there is one. */
  predicate RankDraw(n: nat, value: int) {
    TotalRank(n) > 0 ==> 0 <= value < TotalRank(n)
  }

  /** The rank loop from position `i` on: `sum` grows by size - i, in 32-bit
      int arithmetic, until it reaches `value`. */
  function RankScan(n: nat, value: int, i: nat, sum: int): (r: Option<nat>)
    requires i <= n
    ensures r.Some? ==> i <= r.value < n
    decreases n - i
  {
    if i == n then None
    else
      var s := Wrap32(sum + (n - i));
      if s >= value then Some(i) else RankScan(n, value, i + 1, s)
  }

  /** `rankSelection`: sorts, then scans the ranks n, n-1, ... of the sorted
      routes. An empty population makes `nextInt(0)` throw. */
  function Rank(p: Population, value: int): (r: Result<Route>)
    requires Invariant(p) && RankDraw(|p.routes|, value)
    ensures |p.routes| == 0 ==> r == Failure(IllegalArgument)
    ensures r.Success? ==> r.value in p.routes
    ensures r.Success? <==> TotalRank(|p.routes|) > 0
  {
    var q := SortByFitness(p);
    var n := |q.routes|;
    if TotalRank(n) <= 0 then Failure(IllegalArgument)
    else
      assert n > 0;
      SortedMembers(p);
      match RankScan(n, value, 0, 0)
      case Some(i) => Success(q.routes[i])
      case None => Success(q.routes[n - 1])
  }

  /** The rank sum n + (n-1) + ... + (n-i) without overflow. */
  function RankThrough(n: nat, i: nat): int {
    if i == 0 then n else RankThrough(n, i - 1) + (n - i)
  }

  lemma {:induction false} RankThroughClosed(n: nat, i: nat)
    ensures 2 * RankThrough(n, i) == (i + 1) * (2 * n - i)
  {
    if i > 0 {
      RankThroughClosed(n, i - 1);
      assert (i + 1) * (2 * n - i) == i * (2 * n - i + 1) + 2 * (n - i);
    }
  }

  lemma {:induction false} RankThroughMonotone(n: nat, i: nat, j: nat)
    requires i <= j < n
    ensures 0 < RankThrough(n, i) <= RankThrough(n, j)
    decreases j
  {
    if i < j {
      RankThroughMonotone(n, i, j - 1);
    } else if i > 0 {
      RankThroughMonotone(n, i - 1, i - 1);
    }
  }

  /** The largest rank sum is the total n(n+1)/2, below 2^31 for n up to
      46340. */
  lemma RankTotal(n: nat)
    requires 0 < n <= 46340
    ensures RankThrough(n, n - 1) == n * (n + 1) / 2 < TwoTo31
  {
    RankThroughClosed(n, n - 1);
    assert n * (n + 1) == 2 * RankThrough(n, n - 1);
    MulMonotone(n, 46340, n + 1);
    MulMonotone(n + 1, 46341, 46340);
  }

  lemma MulMonotone(a: nat, b: nat, c: nat)
    requires a <= b
    ensures a * c <= b * c
  {
  }

  lemma Wrap32Small(x: int)
    requires -TwoTo31 <= x < TwoTo31
    ensures Wrap32(x) == x
  {
    var r := Wrap32(x);
    var d := (r - x) / TwoTo32;
    assert r - x == d * TwoTo32;
  }

  /** Reference definition: the first position from `from` on whose rank
      sum reaches `value`. */
  function FirstRankReaching(n: nat, value: int, from: nat): (r: Option<nat>)
    requires from <= n
    ensures r.Some? ==> from <= r.value < n && RankThrough(n, r.value) >= value
    ensures r.Some? ==> forall j :: from <= j < r.value ==> RankThrough(n, j) < value
    ensures r.None? ==> forall j :: from <= j < n ==> RankThrough(n, j) < value
    decreases n - from
  {
    if from == n then None
    else if RankThrough(n, from) >= value then Some(from)
    else FirstRankReaching(n, value, from + 1)
  }

  /** Below the overflow threshold the 32-bit scan accumulates exact rank
      sums and so stops where the reference definition does. */
  lemma {:induction false} RankScanExact(n: nat, value: int, i: nat, sum: int)
    requires 0 < n <= 46340 && i <= n
    requires sum == if i == 0 then 0 else RankThrough(n, i - 1)
    ensures RankScan(n, value, i, sum) == FirstRankReaching(n, value, i)
    decreases n - i
  {
    if i < n {
      RankThroughMonotone(n, i, n - 1);
      RankTotal(n);
      Wrap32Small(RankThrough(n, i));
      RankScanExact(n, value, i + 1, RankThrough(n, i));
    }
  }

  lemma TotalRankExact(n: nat)
    requires 0 < n <= 46340
    ensures TotalRank(n) == RankThrough(n, n - 1)
  {
    RankTotal(n);
    Wrap32Small(n * (n + 1));
  }

  /** Rank selection never picks the last-ranked (worst) route of a
      population of at least two: the rank sum through the second-to-last
      position is already total - 1, and the draw is below the total. */
  lemma RankNeverPicksWorst(p: Population, value: int)
    requires Invariant(p) && 2 <= |p.routes| <= 46340 && RankDraw(|p.routes|, value)
    ensures FirstRankReaching(|p.routes|, value, 0).Some?
    ensures FirstRankReaching(|p.routes|, value, 0).value <= |p.routes| - 2
    ensures Rank(p, value) == Success(SortByFitness(p).routes[FirstRankReaching(|p.routes|, value, 0).value])
  {
    var n := |p.routes|;
    TotalRankExact(n);
    RankThroughMonotone(n, 0, n - 1);
    RankScanExact(n, value, 0, 0);
    assert RankThrough(n, n - 2) == TotalRank(n) - 1;
  }

  /* ---------- Stochastic universal sampling ---------- */

  /** The fitness sum over positions before `j`. */
  function Before(fs: seq<real>, j: nat): real
    requires j <= |fs|
  {
    if j == 0 then 0.0 else Through(fs, j - 1)
  }

  /** The distance between two pointers. */
  function Spacing(total: real, count: nat): real
    requires count > 0
  {
    total / (count as real)
  }

  /** Pointer i: the offset u * spacing plus i spacings. */
  function Pointer(u: real, total: real, count: nat, i: nat): real
    requires count > 0
  {
    u * Spacing(total, count) + (i as real) * Spacing(total, count)
  }

  lemma PointerFacts(u: real, total: real, count: nat, i: nat)
    requires count > 0 && 0.0 <= u < 1.0 && total >= 0.0
    ensures 0.0 <= Pointer(u, total, count, i) <= Pointer(u, total, count, i + 1)
    ensures total == 0.0 ==> Pointer(u, total, count, i) == 0.0
    ensures total > 0.0 && u > 0.0 ==> Pointer(u, total, count, i) > 0.0
    ensures total > 0.0 && i < count ==> Pointer(u, total, count, i) < total
  {
    var d := Spacing(total, count);
    var c := count as real;
    var a := u + i as real;
    DivideThenScale(total, c);
    assert d * c == total;
    ScaleNonNegative(total, 1.0 / c);
    assert d == total * (1.0 / c);
    assert Pointer(u, total, count, i) == a * d;
    assert Pointer(u, total, count, i + 1) == a * d + d;
    ScaleNonNegative(a, d);
    if total == 0.0 {
      assert d == 0.0;
    } else {
      assert d > 0.0;
      if u > 0.0 {
        ScalePositive(a, d);
      }
      if i < count {
        ScaleStrictly(a, c, d);
      }
    }
  }

  lemma ScaleNonNegative(a: real, d: real)
    requires a >= 0.0 && d >= 0.0
    ensures a * d >= 0.0
  {
  }

  lemma ScalePositive(a: real, d: real)
    requires a > 0.0 && d > 0.0
    ensures a * d > 0.0
  {
  }

  lemma ScaleStrictly(a: real, b: real, d: real)
    requires a < b && d > 0.0
    ensures a * d < b * d
  {
    ScalePositive(b - a, d);
    assert b * d - a * d == (b - a) * d;
  }

  /** The running sum reaches `v` first at `m`. */
  lemma {:induction false} FirstReachingAt(fs: seq<real>, v: real, m: nat, i: nat)
    requires i <= m < |fs| && Through(fs, m) >= v
    requires forall j :: 0 <= j < m ==> Through(fs, j) < v
    ensures FirstReaching(fs, v, i) == Some(m)
    decreases m - i
  {
    if i < m {
      FirstReachingAt(fs, v, m, i + 1);
    }
  }

  /** The pointer sweep of `stochasticUniversalSampling`: for each of the
      `count` pointers, advance through the running fitness sum while it is
      below the pointer, then record the route reached, if any. */
  method Sweep(fs: seq<real>, count: nat, u: real) returns (picks: seq<nat>)
    requires NonNegative(fs) && count > 0 && 0.0 <= u < 1.0
    ensures |picks| <= count
    ensures forall k :: 0 <= k < |picks| ==> picks[k] < |fs|
    ensures forall k, l :: 0 <= k < l < |picks| ==> picks[k] <= picks[l]
    ensures Total(fs) == 0.0 ==> picks == []
    ensures Total(fs) > 0.0 && u > 0.0 ==>
      && |picks| == count
      && forall k :: 0 <= k < count ==>
           FirstReaching(fs, Pointer(u, Total(fs), count, k), 0) == Some(picks[k])
  {
    var n := |fs|;
    var total := Total(fs);
    if n > 0 {
      ThroughMonotone(fs, 0, n - 1);
    }
    var exact := total > 0.0 && u > 0.0;
    picks := [];
    var sum, index := 0.0, 0;
    for i := 0 to count
      invariant 0 <= index <= n && sum == Before(fs, index)
      invariant |picks| <= i
      invariant forall k :: 0 <= k < |picks| ==> picks[k] < index
      invariant forall k, l :: 0 <= k < l < |picks| ==> picks[k] <= picks[l]
      invariant forall j :: 0 <= j < index ==> Before(fs, j) < Pointer(u, total, count, i)
      invariant total == 0.0 ==> index == 0 && picks == []
      invariant exact ==> |picks| == i && forall k :: 0 <= k < i ==>
        FirstReaching(fs, Pointer(u, total, count, k), 0) == Some(picks[k])
    {
      var pointer := Pointer(u, total, count, i);
      PointerFacts(u, total, count, i);
      var next := Pointer(u, total, count, i + 1);
      while sum < pointer && index < n
        invariant 0 <= index <= n && sum == Before(fs, index)
        invariant forall k :: 0 <= k < |picks| ==> picks[k] < index
        invariant forall j :: 0 <= j < index ==> Before(fs, j) < pointer
        decreases n - index
      {
        sum := sum + fs[index];
        index := index + 1;
      }
      if exact {
        assert index > 0 && sum >= pointer by {
          if index == n {
            assert sum == total;
          }
        }
        forall j | 0 <= j < index - 1
          ensures Through(fs, j) < pointer
        {
          assert Through(fs, j) == Before(fs, j + 1);
        }
        FirstReachingAt(fs, pointer, index - 1, 0);
      }
      if index > 0 {
        picks := picks + [index - 1];
      }
      assert forall j :: 0 <= j < index ==> Before(fs, j) < next;
    }
  }

  /** `stochasticUniversalSampling` with `u` the `nextDouble` draw: copies of
      the routes the pointer sweep reaches, and their population indices. */
  method StochasticUniversalSampling(p: Population, count: int, u: real)
    returns (selected: seq<Route>, picks: seq<nat>)
    requires Invariant(p) && AllCoherent(p.routes) && 0.0 <= u < 1.0
    ensures |selected| == |picks|
    ensures count <= 0 ==> picks == []
    ensures count > 0 ==> |picks| <= count
    ensures forall k :: 0 <= k < |picks| ==>
      picks[k] < |p.routes| && selected[k] == CopyRoute(p.routes[picks[k]])
    ensures forall k, l :: 0 <= k < l < |picks| ==> picks[k] <= picks[l]
    ensures Total(Fitnesses(p.routes)) == 0.0 ==> selected == []
    ensures count > 0 && Total(Fitnesses(p.routes)) > 0.0 && u > 0.0 ==>
      && |picks| == count
      && forall k :: 0 <= k < count ==>
           FirstReaching(Fitnesses(p.routes), Pointer(u, Total(Fitnesses(p.routes)), count, k), 0)
             == Some(picks[k])
  {
    // with no pointers the spacing (a division by zero) is never used
    if count <= 0 {
      return [], [];
    }
    CoherentFitnessNonNegative(p.routes);
    picks := Sweep(Fitnesses(p.routes), count, u);
    selected := seq(|picks|, k requires 0 <= k < |picks| => CopyRoute(p.routes[picks[k]]));
  }
}

=== FILE: wrappers.dfy ===
/** Failure-carrying datatypes shared by the whole model. Java exceptions
    become `Failure` values tagged with the exception kind. */
module Wrappers {

  datatype Option<+T> = None | Some(value: T)

  /** The exception kinds the engine can raise. `Divergence` stands for a
      loop that would never terminate, and `Wrapped` for the
      RuntimeException that `runGeneticAlgorithm` wraps around a cause. */
  datatype Fault =
    | IllegalArgument
    | IllegalState
    | IndexOutOfBounds
    | NullPointer
    | Divergence
    | Wrapped(cause: Fault)

  datatype Result<+T> = Success(value: T) | Failure(fault: Fault) {
    predicate IsFailure() { Failure? }

    function PropagateFailure<U>(): Result<U>
      requires Failure?
    {
      Failure(fault)
    }

    function Extract(): T
      requires Success?
    {
      value
    }
  }
}
